=== FILE: README.md ===
# Polyscope core: geometry buffer cache, mesh conventions, shader bindings

This project models the core of polyscope, a viewer for 3D data. The model covers four parts:

- **The lazy geometry buffer cache of a surface mesh.** Every geometric quantity (vertex positions, face normals, face centers and areas, vertex normals and areas, edge lengths, tangent spaces) has a CPU array and an optional GPU attribute buffer. `ensureHave…` fills the CPU array only when it is empty. `get…RenderBuffer` allocates and uploads the GPU buffer on first use and hands out a shared handle. A buffer that was updated on the device leaves the CPU array empty, and the GPU buffer is then the source of truth. Derived quantities go stale when the positions are updated.
- **Mesh counting and indexing conventions.** These are the face, edge, halfedge and corner counts, the flattened face index arrays, the twin and face-of-halfedge tables, and permutations with their expected data sizes.
- **The OpenGL shader program binding table.** It holds the named uniform, attribute and texture slots, locations resolved at link time (-1 meaning optimized out), zero-copy shared attribute buffers, owned versus external textures, and `validateData`. It also covers the engine's registries of shader programs and replacement rules, with `requestShader`.
- **Structure and Quantity bookkeeping.** This is the enable flag, the object transform, centering, and the model-view composition.

Everything is a pure function over immutable values:

- **Shared buffers.** A `shared_ptr` to a GPU buffer is a `BufferId` into a `Store` of buffers. Two holders of the same id see the same contents.
- **Computed values are inputs.** The geometric contents of derived quantities, the locations the GLSL compiler resolves, and the camera view matrix are parameters.
- **Symbolic transforms.** A transform is a symbolic matrix (identity, translation, product, or given), so composition order is visible in the value.

Modules, one file each:

- `Results`: the option, result and error types.
- `AttributeBuffers`: GPU attribute buffers and the buffer store.
- `NamedTables`: lookup in name-keyed tables.
- `ShaderPrograms`: the program binding table.
- `ShaderCache`: the engine registries.
- `MeshConnectivity`: counts, index layout and twins.
- `GeometryCache`: one cached geometric quantity.
- `SurfaceMeshes`: the mesh and its cache.
- `Structures`: Structure.
- `Quantities`: Quantity.

Modelling decisions where the headers give no body:

- A slot whose location is -1 is skipped silently when it is set.
- Adding a slot whose name is already declared with another type is an error.
- A second registration of a program or rule name keeps the first one.
- A permutation's data size is the expected size when that is positive, and otherwise the largest entry plus one. The permutation's length must equal the element count.
- The twin of a halfedge is the lowest-index other halfedge on the same edge, or the halfedge itself on a boundary.
- `ensureHave…` refills whenever the CPU array is empty. It does so even when the GPU buffer is resident, because the header comment promises only that a full array is left alone.
- The vertex count is the CPU array's length. When that array is empty, the count is read from the GPU buffer.
- `updateVertexPositions` checks the new positions against the vertex data size fixed at construction.
- `addQuantity` replaces a quantity of the same name, keeping names unique under the parent.

## Model

| member | source | states |
|---|---|---|
| AttributeBuffers.NewAttributeBuffer | include/polyscope/render/opengl/gl_engine.h:54 | a new buffer has the declared data type and array count (one unless given), holds no data and is not set |
| AttributeBuffers.CheckType | include/polyscope/render/opengl/gl_engine.h:82 | passes exactly when the kind of data offered has the buffer's declared type, else a type-mismatch error naming both types |
| AttributeBuffers.SetData | include/polyscope/render/opengl/gl_engine.h:60-66 | data of the declared type replaces the contents and marks the buffer set; any other type is rejected and the buffer is unchanged |
| AttributeBuffers.GetData | include/polyscope/render/opengl/gl_engine.h:68-74 | a read through the declared type succeeds exactly when the index is within the data, and returns that element; a read through another type is a type mismatch naming both types |
| AttributeBuffers.SetThenGet | include/polyscope/render/opengl/gl_engine.h:60-74 | after a successful setData, a read of the same type returns each element of the new data, and a read of another type fails |
| AttributeBuffers.DeclaredTypeIsFixed | include/polyscope/render/opengl/gl_engine.h:54-66 | no sequence of setData calls, accepted or rejected, changes a buffer's declared type |
| AttributeBuffers.Generate | include/polyscope/render/opengl/gl_engine.h:327 | generateAttributeBuffer yields a fresh id holding a new unset buffer of the requested type and array count (one unless given), and every existing buffer is kept |
| AttributeBuffers.GenerateTexture | include/polyscope/render/opengl/gl_engine.h:330-337 | the 1D and 2D generateTexture overloads yield a fresh texture id recorded with that dimension; existing textures and all buffers are untouched |
| AttributeBuffers.Write | include/polyscope/render/opengl/gl_engine.h:60-66 | a write through a shared handle succeeds exactly when the data kind matches the buffer's type, else it is a type mismatch naming both types; on success that buffer becomes itself with the new data, marked set, as setData would, and every other buffer in the store is unchanged |
| NamedTables.Find | include/polyscope/render/opengl/gl_engine.h:257-259 | finds the first slot with the name, and only if one exists |
| NamedTables.FindIsTheOnly | include/polyscope/render/opengl/gl_engine.h:257-263 | in a table with unique names, the slot found is the only one with that name |
| NamedTables.AppendKeepsUnique | include/polyscope/render/opengl/gl_engine.h:261-263 | appending a slot whose name is absent keeps the names unique |
| NamedTables.NamesHaveSlots | include/polyscope/render/opengl/gl_engine.h:257-259 | a name is among a table's names exactly when a lookup of it finds a slot |
| NamedTables.NamesAppend | include/polyscope/render/opengl/gl_engine.h:261-263 | appending a slot adds exactly its name to the table's names |
| NamedTables.NamesDependOnNames | include/polyscope/render/opengl/gl_engine.h:257-259 | two tables with the same names slot by slot have the same set of names |
| ShaderPrograms.AddUniqueUniform | include/polyscope/render/opengl/gl_engine.h:262 | the name is present with the declared type afterwards; the old table is a prefix and grows by at most one, a new uniform being unset with no location; the names stay unique; it fails exactly when the name is already declared with another type |
| ShaderPrograms.AddUniqueAttribute | include/polyscope/render/opengl/gl_engine.h:261 | as for uniforms; a new attribute has no buffer bound |
| ShaderPrograms.AddUniqueTexture | include/polyscope/render/opengl/gl_engine.h:263 | as for uniforms, agreeing on the dimension; a new texture takes the next texture unit index and is unset |
| ShaderPrograms.AddUniforms | include/polyscope/render/opengl/gl_engine.h:257-262 | every uniform a stage declares can be found afterwards, the old table is a prefix and the names stay unique |
| ShaderPrograms.AddAttributes | include/polyscope/render/opengl/gl_engine.h:258-261 | every attribute a stage declares can be found afterwards, with no buffer bound |
| ShaderPrograms.AddTextures | include/polyscope/render/opengl/gl_engine.h:259-263 | every texture a stage declares can be found afterwards, unset |
| ShaderPrograms.CollectSlots | include/polyscope/render/opengl/gl_engine.h:256-263 | collecting the slots of all stages keeps the tables duplicate-free, leaves nothing bound, and declares every slot of every stage |
| ShaderPrograms.AddUniqueUniformNames | include/polyscope/render/opengl/gl_engine.h:262 | a successful addUniqueUniform adds exactly the declared name to the table's names |
| ShaderPrograms.AddUniqueAttributeNames | include/polyscope/render/opengl/gl_engine.h:261 | a successful addUniqueAttribute adds exactly the declared name |
| ShaderPrograms.AddUniqueTextureNames | include/polyscope/render/opengl/gl_engine.h:263 | a successful addUniqueTexture adds exactly the declared name |
| ShaderPrograms.AddUniformsNames | include/polyscope/render/opengl/gl_engine.h:257-262 | adding a stage's uniforms adds exactly the names it declares, and no other name |
| ShaderPrograms.AddAttributesNames | include/polyscope/render/opengl/gl_engine.h:258-261 | adding a stage's attributes adds exactly the names it declares |
| ShaderPrograms.AddTexturesNames | include/polyscope/render/opengl/gl_engine.h:259-263 | adding a stage's textures adds exactly the names it declares |
| ShaderPrograms.AddStageNames | include/polyscope/render/opengl/gl_engine.h:256-263 | adding one stage adds exactly the uniform, attribute and texture names that stage declares |
| ShaderPrograms.DeclaredSplit | include/polyscope/render/opengl/gl_engine.h:256-263 | the names declared by a list of stages are those of the first stage together with those of the rest |
| ShaderPrograms.CollectSlotsNames | include/polyscope/render/opengl/gl_engine.h:256-263 | collecting all stages adds exactly the names some stage declares: the tables hold no undeclared slot |
| ShaderPrograms.SetDataLocations | include/polyscope/render/opengl/gl_engine.h:268 | each slot gets the location the compiler resolved, or -1 when it was optimized out; nothing else about a slot changes |
| ShaderPrograms.SetDataLocationsKeepsTables | include/polyscope/render/opengl/gl_engine.h:231-268 | resolving locations keeps the names unique and finds the same names as before |
| ShaderPrograms.SetDataLocationsKeepsNames | include/polyscope/render/opengl/gl_engine.h:268 | resolving locations neither adds nor removes a name, and every slot then carries the location resolved for its name, or -1 |
| ShaderPrograms.ResolvedTables | include/polyscope/render/opengl/gl_engine.h:256-268 | collecting the slots into empty tables and then resolving locations gives duplicate-free tables holding exactly the declared names, each with its resolved location, nothing set or bound |
| ShaderPrograms.NewProgram | include/polyscope/render/opengl/gl_engine.h:170 | construction fails exactly when some uniform or attribute name is declared twice with different types or a texture name twice with different dimensions; otherwise the duplicate-free tables hold exactly the names some stage declares; each slot carries the location the compiler resolved for it (-1 when optimized out, samplers resolved as uniforms); nothing is set or bound; the draw mode is the requested one |
| ShaderPrograms.AddUniformsOkIff | include/polyscope/render/opengl/gl_engine.h:257-262 | adding a list of uniform declarations succeeds exactly when each fits the type of the slot already holding its name and any two declarations of one name agree on the type |
| ShaderPrograms.AddAttributesOkIff | include/polyscope/render/opengl/gl_engine.h:257-262 | adding a list of attribute declarations succeeds exactly when each fits the type of the slot already holding its name and any two declarations of one name agree on the type |
| ShaderPrograms.AddTexturesOkIff | include/polyscope/render/opengl/gl_engine.h:257-263 | adding a list of texture declarations succeeds exactly when each fits the dimension of the slot already holding its name and any two declarations of one name agree on the dimension |
| ShaderPrograms.CollectSlotsOkIff | include/polyscope/render/opengl/gl_engine.h:256-263 | collecting all stages succeeds exactly when adding all their uniforms, all their attributes and all their textures each succeeds: the three tables are filled independently |
| ShaderPrograms.BuildsUnlessConflicting | include/polyscope/render/opengl/gl_engine.h:256-263 | from empty tables, collecting the stages fails exactly when two declarations conflict |
| ShaderPrograms.HasUniform | include/polyscope/render/opengl/gl_engine.h:177 | true exactly when the uniform is declared and has a location |
| ShaderPrograms.SetUniform | include/polyscope/render/opengl/gl_engine.h:178-187 | an unknown name is a lookup error; an optimized-out uniform is left alone; otherwise the argument must have the declared type, and the uniform becomes set with nothing else changed |
| ShaderPrograms.SetUniformKeepsValid | include/polyscope/render/opengl/gl_engine.h:178-187 | setUniform keeps the names unique |
| ShaderPrograms.HasAttribute | include/polyscope/render/opengl/gl_engine.h:191 | true exactly when the attribute is declared and has a location |
| ShaderPrograms.AttributeIsSet | include/polyscope/render/opengl/gl_engine.h:193 | true only when an attribute of that name has a buffer bound, and, in a table with unique names, whenever it does |
| ShaderPrograms.GetAttributeBuffer | include/polyscope/render/opengl/gl_engine.h:194 | an unknown name is a lookup error; otherwise the result is the very handle bound to the attribute, present exactly when attributeIsSet holds |
| ShaderPrograms.SetExternalBuffer | include/polyscope/render/opengl/gl_engine.h:192 | when the declared type matches, binds the caller's buffer handle itself, not a copy, changing nothing else about the slot; an unknown name is a lookup error, an optimized-out slot is left alone and a type conflict is an error; every other attribute, the uniforms, the textures and name uniqueness are unchanged |
| ShaderPrograms.SetAttribute | include/polyscope/render/opengl/gl_engine.h:195-201 | an unknown name is a lookup error, an optimized-out attribute is left alone, and the wrong kind of data is a type mismatch; data of the declared kind succeeds when any bound buffer has the declared type; an already bound buffer is written in place, the program unchanged, so its other holders see the upload; otherwise a fresh buffer of the declared type and array count is made, bound and filled; every other attribute is unchanged, and afterwards the attribute's data is exactly the data given |
| ShaderPrograms.UploadFresh | include/polyscope/render/opengl/gl_engine.h:195-201 | for an attribute with no buffer, a buffer under a handle the store did not hold is bound to that slot alone, holds the data with the slot's type and array count, and is marked set; names stay unique |
| ShaderPrograms.SetExternalBufferKeepsTyped | include/polyscope/render/opengl/gl_engine.h:192 | setExternalBuffer keeps every bound buffer in the store and typed as its attribute |
| ShaderPrograms.SetAttributeKeepsTyped | include/polyscope/render/opengl/gl_engine.h:195-201 | when every bound buffer has its attribute's type, an upload of the declared kind always succeeds, and setAttribute keeps every bound buffer typed as its attribute |
| ShaderPrograms.InterleaveLayout | include/polyscope/render/opengl/gl_engine.h:204-205 | interleaving n arrays of C entries gives n*C elements with entry j of element i at position i*C+j |
| ShaderPrograms.SetArrayAttribute | include/polyscope/render/opengl/gl_engine.h:173-174 | without update it is setAttribute on the interleaved data. With update, an unknown name is a lookup error and an optimized-out slot is left alone. A slot with no allocated buffer is a not-allocated error, and a buffer of another type is a type mismatch. Otherwise the update succeeds: the bound buffer's contents become the interleaved data, and the program and every other buffer are unchanged |
| ShaderPrograms.SharedBufferSeesWrites | include/polyscope/render/opengl/gl_engine.h:243 | once a buffer is bound by setExternalBuffer, a later write through the caller's handle is what the program's attribute reads |
| ShaderPrograms.HasTexture | include/polyscope/render/opengl/gl_engine.h:217 | true exactly when the texture is declared and has a location |
| ShaderPrograms.TextureIsSet | include/polyscope/render/opengl/gl_engine.h:218 | true only when a texture slot of that name is set, and, in a table with unique names, whenever it is |
| ShaderPrograms.UpdateTexture | include/polyscope/render/opengl/gl_engine.h:246-254 | replacing one texture slot keeps the table's names, positions and uniqueness |
| ShaderPrograms.SetOwnedTexture | include/polyscope/render/opengl/gl_engine.h:218-222 | an unknown name is a lookup error and an optimized-out slot is left alone. A set texture may not be set again unless an update is allowed, and a requested dimension other than the declared one is an error. A successful set allocates a fresh texture recorded with the slot's declared dimension, owns and binds it, and marks the slot set; every other slot, the slot's other fields and the draw mode are unchanged |
| ShaderPrograms.OwnedTextureFitsItsSlot | include/polyscope/render/opengl/gl_engine.h:218-223 | the texture a program allocated for a slot is in the store with the slot's dimension, so binding it to that slot as an external texture is accepted |
| ShaderPrograms.SetTexture1D | include/polyscope/render/opengl/gl_engine.h:219 | an unknown name is a lookup error and an optimized-out slot is left alone; an unset slot succeeds exactly when it is declared 1D (else a dimension mismatch) and is then set; a second call is an already-set error |
| ShaderPrograms.SetTexture2D | include/polyscope/render/opengl/gl_engine.h:220-221 | an unknown name is a lookup error and an optimized-out slot is left alone; an unset slot succeeds exactly when it is declared 2D (else a dimension mismatch) and is then set; a second call is an already-set error |
| ShaderPrograms.SetTextureFromColormap | include/polyscope/render/opengl/gl_engine.h:222 | an unknown name is a lookup error and an optimized-out slot is left alone; an unset slot, or any slot when allowUpdate, succeeds exactly when it is declared 1D (else a dimension mismatch) and is then set; repeating it is an already-set error unless allowUpdate |
| ShaderPrograms.SetTextureFromBuffer | include/polyscope/render/opengl/gl_engine.h:223 | an unknown name is a lookup error and an optimized-out slot is left alone; a texture whose own dimension differs from the declared one is a dimension mismatch; otherwise the texture is bound without taking ownership and the slot is set, and nothing else in the program changes |
| ShaderPrograms.ExternalTextureIsNotOwned | include/polyscope/render/opengl/gl_engine.h:251-252 | a texture bound from an external buffer is set, points at that buffer and has no owned texture |
| ShaderPrograms.ValidateData | include/polyscope/render/opengl/gl_engine.h:227 | passes exactly when every uniform and texture with a location is set and every attribute with a location has a bound buffer holding data; otherwise it names such a slot that is not ready |
| ShaderCache.RegisterShaderProgram | include/polyscope/render/opengl/gl_engine.h:353 | the name is registered afterwards with the given stages unless it already was, in which case nothing changes; rules are untouched |
| ShaderCache.RegisterShaderRule | include/polyscope/render/opengl/gl_engine.h:354 | the rule name is registered afterwards unless it already was; programs are untouched |
| ShaderCache.ResolveRules | include/polyscope/render/opengl/gl_engine.h:371 | succeeds exactly when every rule name is registered, giving the rules in the caller's order; otherwise fails on the first unknown name |
| ShaderCache.RequestShader | include/polyscope/render/opengl/gl_engine.h:346-348 | an unregistered program is a lookup error; otherwise the result is the program's stages with the default rules first and then the custom rules, in order, or a lookup error naming a missing rule |
| ShaderCache.RegisterKeepsResolvedRequests | include/polyscope/render/opengl/gl_engine.h:369-371 | registering more programs or rules never changes the answer to a request that already succeeded |
| ShaderCache.RequestAfterRegister | include/polyscope/render/opengl/gl_engine.h:346-354 | after registering a program and a rule under fresh names, requesting that program with that rule resolves to exactly them |
| ShaderCache.UnknownRuleFails | include/polyscope/render/opengl/gl_engine.h:346-348 | a request naming an unregistered rule fails with a lookup error naming that rule |
| MeshConnectivity.HalfedgeCount | include/polyscope/surface_mesh.h:207-209 | the number of halfedges is the sum of the face degrees, and so equals the number of corners |
| MeshConnectivity.Starts | include/polyscope/surface_mesh.h:188 | the start table has one entry per face plus one, begins at 0, and each step adds that face's degree |
| MeshConnectivity.Counts | include/polyscope/surface_mesh.h:204-209 | the counts of a face list: halfedges and corners equal the sum of degrees, and edges equal the number of distinct unordered vertex pairs along face boundaries |
| MeshConnectivity.ComputeCounts | include/polyscope/surface_mesh.h:292 | the single pass over the faces computes the face starts, the flattened entries and the edge count that Counts defines |
| MeshConnectivity.FlattenLayout | include/polyscope/surface_mesh.h:187-189 | the flattened entries have exactly sum-of-degrees elements, and entry j of face f sits at position start[f] + j |
| MeshConnectivity.HalfedgeLayout | include/polyscope/surface_mesh.h:187-189 | halfedge j of face f has index start[f] + j, so halfedges are numbered face by face like the corners |
| MeshConnectivity.HalfedgeTailsAreCorners | include/polyscope/surface_mesh.h:187-209 | there are as many halfedges as flattened corner entries, and each halfedge starts at the vertex of the corner with the same index |
| MeshConnectivity.FaceForHalfedge | include/polyscope/surface_mesh.h:286 | one entry per halfedge, each a valid face index, and the entry of halfedge start[f] + j is f for every corner j of face f |
| MeshConnectivity.TwinHalfedge | include/polyscope/surface_mesh.h:287-289 | the twin table has one entry per halfedge, and the twin of each halfedge is a halfedge on the same undirected edge (BoundaryTwinIsSelf states when it is the halfedge itself) |
| MeshConnectivity.TwinIsInvolution | include/polyscope/surface_mesh.h:287-289 | on an edge-manifold mesh, the twin of the twin is the halfedge itself |
| MeshConnectivity.BoundaryTwinIsSelf | include/polyscope/surface_mesh.h:287-289 | a halfedge is its own twin exactly when no other halfedge lies on its undirected edge |
| MeshConnectivity.TwoTriangleCounts | include/polyscope/surface_mesh.h:204-209 | two triangles sharing an edge have 2 faces, 5 edges, and 6 halfedges and corners |
| GeometryCache.UpdateIfAllocated | include/polyscope/surface_mesh.h:398 | if a GPU buffer is allocated, it receives the CPU contents; otherwise nothing changes |
| GeometryCache.EnsureHave | include/polyscope/surface_mesh.h:219-221 | a full CPU array is left exactly as it is; an empty one is filled with the computed values and, when asked, pushed to an allocated GPU buffer |
| GeometryCache.GetRenderBuffer | include/polyscope/surface_mesh.h:222-223 | returns a GPU buffer holding the CPU contents, allocating it of the quantity's type under a fresh handle on first use and reusing the same handle afterwards; existing buffers and all textures are kept |
| GeometryCache.Invalidate | include/polyscope/surface_mesh.h:220-221 | emptying the CPU array keeps the GPU handle, so the next ensure recomputes |
| GeometryCache.ExternallyUpdated | include/polyscope/surface_mesh.h:225-226 | after an on-device update the CPU array is empty and the GPU buffer is kept |
| GeometryCache.StoredInMemory | include/polyscope/surface_mesh.h:235 | true exactly when the CPU array is non-empty |
| GeometryCache.Size | include/polyscope/surface_mesh.h:225-226 | the element count comes from the CPU array when it is full, else from the GPU buffer; with neither, it is an internal error |
| GeometryCache.ReadElement | include/polyscope/surface_mesh.h:233 | reads from the CPU array when it is full, else from the GPU buffer, and an index past the end is out of range |
| GeometryCache.EnsureHaveIdempotent | include/polyscope/surface_mesh.h:219-221 | ensuring twice is the same as ensuring once |
| GeometryCache.GetRenderBufferTwice | include/polyscope/surface_mesh.h:222-223 | a second request returns the same handle and changes nothing |
| GeometryCache.InvalidateThenEnsure | include/polyscope/surface_mesh.h:219-221 | after invalidation, ensure installs the freshly computed values |
| GeometryCache.ExternalWriteIsSourceOfTruth | include/polyscope/surface_mesh.h:225-226 | after an on-device write and the externally-updated call, reads and the element count come from the GPU data |
| SurfaceMeshes.CountConventions | include/polyscope/surface_mesh.h:199-209 | nFaces is the number of faces, nHalfedges equals nCorners and the sum of degrees, and nEdges is the number of distinct edges |
| SurfaceMeshes.NewSurfaceMesh | include/polyscope/surface_mesh.h:67-68 | a new mesh is well formed, holds the counts of its faces, stores the positions in memory with no GPU buffer, leaves derived quantities uncomputed, has empty permutations with the vertex data size equal to the number of positions, and has no connectivity tables |
| SurfaceMeshes.EmptyPermutationIsDefault | include/polyscope/surface_mesh.h:157-177 | an element with an empty permutation has the default ordering, whose data size is the element count |
| SurfaceMeshes.ValidateDataSize | include/polyscope/surface_mesh.h:172-177 | passes exactly when the data length equals the element's expected data size, else a shape mismatch naming both lengths |
| SurfaceMeshes.SetPermutation | include/polyscope/surface_mesh.h:164-170 | a permutation whose length is not the element count is a shape mismatch; otherwise it is stored, the data size becomes expectedSize (zero unless given) or, when that is zero, the largest entry plus one, the mesh stays well formed, and nothing but that element's permutation changes |
| SurfaceMeshes.EnsureHaveQuantity | include/polyscope/surface_mesh.h:240-282 | ensureHave of a derived quantity fills it only if empty, keeps the mesh well formed, and touches no other quantity; in the store only that quantity's own buffer may change, and the handles, textures and handle counter are kept |
| SurfaceMeshes.GetQuantityRenderBuffer | include/polyscope/surface_mesh.h:401-431 | returns the quantity's existing render-buffer handle, or a fresh one; the mesh stays well formed (each buffer has its quantity's format), no other part of the mesh changes, and no existing buffer or texture changes |
| SurfaceMeshes.RenderBufferRequestedTwice | include/polyscope/surface_mesh.h:222-223 | a second render-buffer request returns the same shared handle and changes nothing |
| SurfaceMeshes.VertexPositionsStoredInMemory | include/polyscope/surface_mesh.h:235 | true exactly when the CPU position array is non-empty |
| SurfaceMeshes.CheckIfVertexPositionsAreInMemory | include/polyscope/surface_mesh.h:236 | passes exactly when positions are in memory, and otherwise fails with the not-allocated error naming vertexPositions |
| SurfaceMeshes.NVertices | include/polyscope/surface_mesh.h:198 | the vertex count is the position array length, or the GPU buffer's length when the positions live only on the device |
| SurfaceMeshes.GetVertexPosition | include/polyscope/surface_mesh.h:233 | returns position i from memory or from the GPU buffer; past the end is out of range |
| SurfaceMeshes.GetVertexPositionsRenderBuffer | include/polyscope/surface_mesh.h:234 | returns the positions' GPU buffer, reusing an existing one; one allocated on first use has a fresh handle and is filled with the CPU positions; no other part of the mesh changes, and no existing buffer or texture changes |
| SurfaceMeshes.VertexPositionRenderBufferDataExternallyUpdated | include/polyscope/surface_mesh.h:237-238 | after the call the positions are no longer in memory, the same GPU buffer is kept, and nothing else changes |
| SurfaceMeshes.ExternallyUpdatedKeepsWellFormed | include/polyscope/surface_mesh.h:225-226 | the externally-updated call keeps the mesh well formed |
| SurfaceMeshes.ExternallyUpdatedKeepsRenderBuffer | include/polyscope/surface_mesh.h:234-238 | after an external update, asking for the positions' render buffer returns the same handle and leaves the device data alone |
| SurfaceMeshes.UpdateVertexPositions | include/polyscope/surface_mesh.h:149-150 | new positions must match the vertex data size, else a shape mismatch; on success they are the CPU positions, an allocated GPU buffer receives them, every derived quantity is unchanged, and in the store only the positions' own buffer changes (handles, textures and the handle counter are kept) |
| SurfaceMeshes.UpdateTwiceKeepsLast | include/polyscope/surface_mesh.h:149-150 | two updates in a row leave the positions of the second |
| SurfaceMeshes.UpdateLeavesDerivedStale | include/polyscope/surface_mesh.h:228-229 | an update leaves every derived quantity's CPU contents as they were before |
| SurfaceMeshes.InvalidateKeepsWellFormed | include/polyscope/surface_mesh.h:220-221 | emptying a derived quantity keeps the mesh well formed |
| SurfaceMeshes.InvalidateAfterUpdateRecomputes | include/polyscope/surface_mesh.h:219-229 | after updating positions, emptying a derived quantity and ensuring it installs the values recomputed from the new positions |
| SurfaceMeshes.PositionsSharedWithProgram | include/polyscope/surface_mesh.h:234 | a program bound to the positions' render buffer sees the positions of a later update |
| SurfaceMeshes.EnsureHaveManifoldConnectivity | include/polyscope/surface_mesh.h:284-294 | afterwards there is one face entry and one twin entry per halfedge; each face entry is the face holding that halfedge and each twin is a valid halfedge index; tables already built are kept |
| SurfaceMeshes.TwoTriangleScenario | include/polyscope/surface_mesh.h:198-205 | a square made of two triangles has 4 vertices, 2 faces and 5 edges; vertex data of length 4 validates and length 3 is a shape mismatch; an update with 3 positions is rejected |
| Structures.NewStructure | src/structure.cpp:9 | a new structure has the given name, and its extents have not been computed yet |
| Structures.IsEnabled | src/structure.cpp:18 | isEnabled reports the structure's enabled flag, the one setEnabled records |
| Structures.SetEnabledAsWritten | src/structure.cpp:13-16 | as written, setEnabled returns the structure unchanged |
| Structures.AsWrittenNeverEnables | src/structure.cpp:13-18 | as written, no sequence of setEnabled calls changes what isEnabled reports |
| Structures.SetEnabledDiscrepancy | src/structure.cpp:13-16 | asking a disabled structure to enable leaves it disabled as written, and enabled as intended |
| Structures.SetEnabled | src/structure.cpp:13-16 | afterwards the flag is the requested value, and name, transform and extents are unchanged |
| Structures.SetEnabledKeepsLast | src/structure.cpp:13-18 | after any sequence of setEnabled calls, isEnabled reports the last value asked for, and the name and transform never change |
| Structures.ResetTransform | src/structure.cpp:67-70 | the transform becomes the identity, the extents are recomputed for it, and the name and flag are kept |
| Structures.ResetTransformIdempotent | src/structure.cpp:67-70 | resetting twice is the same as resetting once |
| Structures.MinusMidpoint | src/structure.cpp:74-75 | the offset is minus the midpoint of the box corners |
| Structures.CenterBoundingBox | src/structure.cpp:72-78 | the old transform is multiplied on the right by a translation by minus the box midpoint, and the extents are recomputed |
| Structures.CenteringMovesMidpointToOrigin | src/structure.cpp:72-78 | after centering, the box midpoint is mapped to where the object-space origin was mapped before |
| Structures.GetModelView | src/structure.cpp:80 | the model-view matrix is the view times the object transform |
| Structures.ModelViewAppliesObjectFirst | src/structure.cpp:80 | the model-view matrix sends a point through the object transform first and then through the view |
| Quantities.IsEnabled | include/polyscope/quantity.h:26 | isEnabled reports the quantity's enabled flag, the one setEnabled records |
| Quantities.NewQuantity | include/polyscope/quantity.h:14 | a new quantity has the given name, parent and dominates flag, and is not enabled |
| Quantities.SetEnabled | include/polyscope/quantity.h:26-27 | afterwards isEnabled is the requested value, and name, parent and dominates are unchanged |
| Quantities.EnabledIsLastSet | include/polyscope/quantity.h:26-43 | after any sequence of setEnabled calls on a new quantity, isEnabled is the last value asked for (false after none), and the rest is as constructed |
| Quantities.AddQuantity | include/polyscope/quantity.h:37-38 | the quantity is stored under its name, replacing any of the same name, and the others are kept |
| Quantities.AddQuantityKeepsWellKeyed | include/polyscope/quantity.h:37-38 | after adding, names stay unique on the parent, each quantity keyed by its own name |
| Quantities.GetQuantity | include/polyscope/quantity.h:38 | a lookup succeeds exactly for an attached name and returns that quantity; otherwise a lookup error |
| Quantities.SetQuantityEnabled | include/polyscope/quantity.h:26-27 | enabling by name changes only that quantity's flag, keeping its other fields and every other quantity; an unknown name is a lookup error |
| Quantities.SetQuantityEnabledKeepsWellKeyed | include/polyscope/quantity.h:37-38 | enabling by name keeps the quantities keyed by name under their parent |
| Quantities.AddThenGet | include/polyscope/quantity.h:38 | looking up a quantity just added returns it, and lookups of other names are as before |

## Left out

- OpenGL, GLFW and ImGui calls, `draw()`, picking, and all GUI code are not modelled: the model has no graphics context.
- `setIndex` and `setPrimitiveRestartIndex`, and the surface mesh's vertex index render buffer, are not modelled: index buffers have no cache semantics beyond attributes.
- Texture pixel contents, colormap lookup, mip-mapping and texture filtering are not modelled; a texture is an opaque id recorded with its dimension.
- Rule text replacement and GLSL compilation are not modelled. A resolved request is the base stages plus the ordered rule list, and resolved locations are inputs.
- `registerShaderProgram` stores no draw mode, because the draw mode only affects drawing.
- ShaderCache.RequestShader: the `ShaderReplacementDefaults` selector and its `SceneObject` default are modelled as the caller-supplied list of default rule names, because the engine's per-kind default lists are not part of this model.
- Geometric arithmetic (normals, areas, lengths, tangent frames, bounding boxes) is not modelled. The computed contents are parameters, since the bodies are not part of this model.
- Single-precision float casting is not modelled (including the double-to-float cast in `setUniform`); values are reals.
- `updateVertexPositions2D`, `setFaceTangentBasisX` and the per-element quantity adders are not modelled: they are conversions in front of the modelled operations.
- `camera_parameters.h` and `types.h` beyond the data-type names are not part of this model.
- The `.ipp` bodies of Quantity and of the QuantityStructure registry are not part of this model. How `dominates` interacts with other quantities is left out for that reason.
- Structure's initial `enabled` flag and transform are parameters, because the header that sets them is not part of this model.
- Vertex and face permutations are never set: they stay empty, meaning the default ordering. The class offers setters only for edge, halfedge and corner permutations (surface_mesh.h:164-170). The five-permutation overload of `registerSurfaceMesh` (surface_mesh.h:485-487) is not modelled, because its body is not part of this model.
- ShaderPrograms.SetArrayAttribute: the partial `offset`/`size` update is not modelled; an update replaces the whole buffer contents.
- SurfaceMeshes.EmptyPermutationIsDefault: when an element count is 0, an empty permutation with a positive expected size records that size, so the default-ordering property is stated only for a positive count.
- Transform matrices are symbolic. `Apply` gives points a meaning only for transforms built from translations, so rotations and scalings are not covered.

## Findings

| source | as written | input that shows it | evidently intended | confidence | as-written member | corrected member |
|---|---|---|---|---|---|---|
| src/structure.cpp:15 | `setEnabled` assigns the member's value to the parameter (`newEnabled = enabled`), so the flag never changes | a disabled structure and `setEnabled(true)`: afterwards `isEnabled()` is still false (Structures.SetEnabledDiscrepancy) | assign the parameter to the member (`enabled = newEnabled`), so `isEnabled()` reports the value last set | not executed | Structures.SetEnabledAsWritten | Structures.SetEnabled |

=== FILE: attribute_buffers.dfy ===
/** Typed GPU attribute buffers (GLAttributeBuffer) and the session-wide
    store that hands them out.

    A `std::shared_ptr<AttributeBuffer>` is modelled as a `BufferId` into a
    `Store`: every holder of the same id sees the same buffer, so a write
    through one holder is observed by all of them (sharing, not copying). */
module AttributeBuffers {
  import opened Results

  /** One element of a buffer, given by its components (one for a scalar,
      two to four for a vector). The component values are not interpreted. */
  type Elem = seq<real>

  /** The element types of the typed `setData` / `getData_*` overloads. */
  datatype DataKind =
    | FloatData
    | DoubleData
    | Vec2Data
    | Vec3Data
    | Vec4Data
    | Int32Data
    | UInt32Data

  /** The declared buffer type an accessor of kind `k` requires. Doubles are
      stored in a `Float` buffer (they are cast down on upload). */
  function KindType(k: DataKind): RenderDataType {
    match k
    case FloatData => Float
    case DoubleData => Float
    case Vec2Data => Vector2Float
    case Vec3Data => Vector3Float
    case Vec4Data => Vector4Float
    case Int32Data => Int
    case UInt32Data => UInt
  }

  type BufferId = nat
  type TextureId = nat

  /** A buffer has a fixed declared type and array count; `isSet` records
      whether data has ever been uploaded. */
  datatype AttributeBuffer = AttributeBuffer(
    dataType: RenderDataType,
    arrayCount: int,
    data: seq<Elem>,
    isSet: bool)

  /** A freshly constructed buffer of the given type holds no data. */
  function NewAttributeBuffer(dataType: RenderDataType, arrayCount: int := 1): (b: AttributeBuffer)
    ensures b.dataType == dataType && b.arrayCount == arrayCount
    ensures !b.isSet && b.data == []
  {
    AttributeBuffer(dataType, arrayCount, [], false)
  }

  /** `checkType`: an access of type `target` is admitted only when it is the
      buffer's declared type. */
  function CheckType(b: AttributeBuffer, target: RenderDataType): (r: Outcome<Error>)
    ensures r.Pass? <==> b.dataType == target
    ensures r.Fail? ==> r.error == TypeMismatch(b.dataType, target)
  {
    if b.dataType == target then Pass else Fail(TypeMismatch(b.dataType, target))
  }

  /** `setData`: replaces the contents when the accessor kind matches the
      declared type, and rejects the access otherwise. */
  function SetData(b: AttributeBuffer, kind: DataKind, data: seq<Elem>): (r: Result<AttributeBuffer, Error>)
    ensures r.Ok? <==> KindType(kind) == b.dataType
    ensures r.Err? ==> r.error == TypeMismatch(b.dataType, KindType(kind))
    ensures r.Ok? ==> r.value.dataType == b.dataType && r.value.arrayCount == b.arrayCount
    ensures r.Ok? ==> r.value.isSet && r.value.data == data
  {
    match CheckType(b, KindType(kind))
    case Fail(e) => Err(e)
    case Pass => Ok(b.(data := data, isSet := true))
  }

  /** `getData_*`: reads element `ind` back when the accessor kind matches the
      declared type and the index lies inside the contents. */
  function GetData(b: AttributeBuffer, kind: DataKind, ind: nat): (r: Result<Elem, Error>)
    ensures r.Ok? <==> KindType(kind) == b.dataType && ind < |b.data|
    ensures r.Ok? ==> r.value == b.data[ind]
    ensures KindType(kind) != b.dataType ==> r == Err(TypeMismatch(b.dataType, KindType(kind)))
  {
    match CheckType(b, KindType(kind))
    case Fail(e) => Err(e)
    case Pass => if ind < |b.data| then Ok(b.data[ind]) else Err(OutOfRange(ind, |b.data|))
  }

  /** Round trip: what `setData` stores, `getData` of a matching kind reads
      back element by element; an access of any other type is rejected. */
  lemma SetThenGet(b: AttributeBuffer, kind: DataKind, data: seq<Elem>, readKind: DataKind, ind: nat)
    requires SetData(b, kind, data).Ok?
    ensures var b' := SetData(b, kind, data).value;
      && (KindType(readKind) == KindType(kind) && ind < |data| ==> GetData(b', readKind, ind) == Ok(data[ind]))
      && (KindType(readKind) != KindType(kind) ==> GetData(b', readKind, ind).Err?)
  {
  }

  /** The declared type never changes, whatever sequence of accesses is made. */
  lemma {:induction false} DeclaredTypeIsFixed(b: AttributeBuffer, writes: seq<(DataKind, seq<Elem>)>)
    ensures ApplyWrites(b, writes).dataType == b.dataType
    decreases |writes|
  {
    if |writes| > 0 {
      var b1 := match SetData(b, writes[0].0, writes[0].1) case Ok(v) => v case Err(_) => b;
      assert b1.dataType == b.dataType;
      DeclaredTypeIsFixed(b1, writes[1..]);
    }
  }

  /** Applies a sequence of `setData` calls; a rejected call leaves the buffer as it was. */
  function ApplyWrites(b: AttributeBuffer, writes: seq<(DataKind, seq<Elem>)>): AttributeBuffer
    decreases |writes|
  {
    if |writes| == 0 then b
    else
      var b1 := match SetData(b, writes[0].0, writes[0].1) case Ok(v) => v case Err(_) => b;
      ApplyWrites(b1, writes[1..])
  }

  // === The store of GPU resources (the engine's factory side)

  /** `textures` gives the dimension (1 or 2) of every texture handed out. */
  datatype Store = Store(buffers: map<BufferId, AttributeBuffer>, textures: map<TextureId, int>, next: nat)

  /** Every handle handed out so far is below the allocation counter. */
  ghost predicate Valid(s: Store) {
    && (forall id :: id in s.buffers ==> id < s.next)
    && (forall t :: t in s.textures ==> t < s.next)
  }

  function EmptyStore(): (s: Store)
    ensures Valid(s) && s.buffers == map[] && s.textures == map[]
  {
    Store(map[], map[], 0)
  }

  /** `generateAttributeBuffer`: allocates a new, empty buffer under a handle
      no existing holder uses; every existing buffer is left untouched. */
  function Generate(s: Store, dataType: RenderDataType, arrayCount: int := 1): (r: (Store, BufferId))
    requires Valid(s)
    ensures Valid(r.0)
    ensures r.1 !in s.buffers && r.1 !in s.textures
    ensures r.0.buffers == s.buffers[r.1 := NewAttributeBuffer(dataType, arrayCount)]
    ensures r.0.textures == s.textures
  {
    (Store(s.buffers[s.next := NewAttributeBuffer(dataType, arrayCount)], s.textures, s.next + 1), s.next)
  }

  /** `generateTexture`: the 1D overloads (`dim` = 1) and the 2D overloads
      (`dim` = 2) allocate a new texture of that dimension under a fresh
      handle; existing textures and buffers are left untouched. */
  function GenerateTexture(s: Store, dim: int): (r: (Store, TextureId))
    requires Valid(s)
    ensures Valid(r.0)
    ensures r.1 !in s.textures && r.1 !in s.buffers
    ensures r.0.textures == s.textures[r.1 := dim] && r.0.buffers == s.buffers
  {
    (Store(s.buffers, s.textures[s.next := dim], s.next + 1), s.next)
  }

  /** Uploads `data` into the shared buffer `id`; only that buffer changes. */
  function Write(s: Store, id: BufferId, kind: DataKind, data: seq<Elem>): (r: Result<Store, Error>)
    requires id in s.buffers
    ensures r.Ok? <==> KindType(kind) == s.buffers[id].dataType
    ensures r.Err? ==> r.error == TypeMismatch(s.buffers[id].dataType, KindType(kind))
    ensures r.Ok? ==> r.value.buffers.Keys == s.buffers.Keys
    ensures r.Ok? ==> r.value.buffers[id] == s.buffers[id].(data := data, isSet := true)
    ensures r.Ok? ==> r.value.textures == s.textures && r.value.next == s.next
    ensures r.Ok? ==> r.value.buffers[id].data == data && r.value.buffers[id].isSet
    ensures r.Ok? ==> r.value.buffers[id].dataType == s.buffers[id].dataType
    ensures r.Ok? ==> forall other :: other in s.buffers && other != id ==> r.value.buffers[other] == s.buffers[other]
  {
    match SetData(s.buffers[id], kind, data)
    case Err(e) => Err(e)
    case Ok(b) => Ok(s.(buffers := s.buffers[id := b]))
  }

  lemma WriteKeepsValid(s: Store, id: BufferId, kind: DataKind, data: seq<Elem>)
    requires Valid(s) && id in s.buffers && Write(s, id, kind, data).Ok?
    ensures Valid(Write(s, id, kind, data).value)
  {
  }
}

=== FILE: geometry_cache.dfy ===
/** The lazy CPU/GPU cache every geometric quantity of a surface mesh
    follows: a CPU array where the value is computed and an optional GPU
    attribute buffer it is rendered from.

    The source has no explicit tag: an empty CPU array means "not present".
    The tag below is derived from that convention, so a model state and a
    source state are in one-to-one correspondence. The geometry arithmetic
    that fills a CPU array is not modelled: the freshly computed contents are
    a parameter of the operations that would compute them. */
module GeometryCache {
  import opened Results
  import opened AttributeBuffers

  /** How a quantity is laid out on the GPU: the buffer's declared type and
      array count, and the `setData` overload its CPU array is uploaded with. */
  datatype BufferFormat = BufferFormat(dataType: RenderDataType, kind: DataKind, arrayCount: int)

  /** The upload overload matches the declared type. */
  predicate Admits(fmt: BufferFormat) {
    KindType(fmt.kind) == fmt.dataType
  }

  /** A CPU array and the handle of its render buffer, if one was allocated. */
  datatype GeomBuffer = GeomBuffer(cpu: seq<Elem>, gpu: Option<BufferId>)

  datatype CacheState = Unmaterialized | CpuResident | GpuResident

  /** The three-state tag: the CPU array is filled; or it is empty while a
      render buffer holds the data (it was written on the device); or
      neither side holds anything yet. */
  function State(g: GeomBuffer): (s: CacheState) {
    if |g.cpu| > 0 then CpuResident
    else if g.gpu.Some? then GpuResident
    else Unmaterialized
  }

  /** The state of a quantity nothing has been computed or allocated for. */
  function Unallocated(): (g: GeomBuffer)
    ensures State(g) == Unmaterialized
  {
    GeomBuffer([], None)
  }

  /** A render buffer, when present, lives in the store with the format of
      the quantity. */
  ghost predicate Consistent(g: GeomBuffer, store: Store, fmt: BufferFormat) {
    g.gpu.Some? ==>
      && g.gpu.value in store.buffers
      && store.buffers[g.gpu.value].dataType == fmt.dataType
      && store.buffers[g.gpu.value].arrayCount == fmt.arrayCount
  }

  /** The render buffer, when present, holds exactly the CPU array. */
  ghost predicate Synced(g: GeomBuffer, store: Store) {
    g.gpu.Some? ==> g.gpu.value in store.buffers && store.buffers[g.gpu.value].data == g.cpu
  }

  /** Two stores agree on every buffer of `ids`. */
  ghost predicate SameBuffers(s: Store, t: Store, ids: set<BufferId>) {
    forall id :: id in ids && id in s.buffers ==> id in t.buffers && t.buffers[id] == s.buffers[id]
  }

  /** `update___RenderBufferIfAllocated`: pushes the CPU array into the render
      buffer when one exists; no other buffer is touched. */
  function UpdateIfAllocated(g: GeomBuffer, store: Store, fmt: BufferFormat): (r: Store)
    requires Consistent(g, store, fmt) && Admits(fmt)
    ensures g.gpu.None? ==> r == store
    ensures r.buffers.Keys == store.buffers.Keys && r.next == store.next && r.textures == store.textures
    ensures Synced(g, r) && Consistent(g, r, fmt)
    ensures g.gpu.Some? ==> r.buffers[g.gpu.value].isSet
    ensures forall id :: id in store.buffers && g.gpu != Some(id) ==> r.buffers[id] == store.buffers[id]
  {
    match g.gpu
    case None => store
    case Some(id) =>
      match Write(store, id, fmt.kind, g.cpu)
      case Ok(s) => s
      case Err(_) => assert false; store
  }

  /** `ensureHave___(updateRenderBuffer)`: makes sure the CPU array is filled.
      A filled array is left exactly as it is, even if it is stale; an empty
      one receives the freshly computed contents, which are pushed to an
      existing render buffer when `updateRenderBuffer` holds. */
  function EnsureHave(g: GeomBuffer, store: Store, fmt: BufferFormat, computed: seq<Elem>, updateRenderBuffer: bool): (r: (GeomBuffer, Store))
    requires Consistent(g, store, fmt) && Admits(fmt)
    ensures |g.cpu| > 0 ==> r == (g, store)
    ensures |g.cpu| == 0 ==> r.0 == GeomBuffer(computed, g.gpu)
    ensures !updateRenderBuffer ==> r.1 == store
    ensures |g.cpu| == 0 && updateRenderBuffer ==> Synced(r.0, r.1)
    ensures r.0.gpu == g.gpu && Consistent(r.0, r.1, fmt)
    ensures r.1.buffers.Keys == store.buffers.Keys && r.1.next == store.next && r.1.textures == store.textures
    ensures forall id :: id in store.buffers && g.gpu != Some(id) ==> r.1.buffers[id] == store.buffers[id]
  {
    if |g.cpu| > 0 then (g, store)
    else
      var g' := GeomBuffer(computed, g.gpu);
      if updateRenderBuffer then (g', UpdateIfAllocated(g', store, fmt)) else (g', store)
  }

  /** `ensure___RenderBufferFilled` followed by the getter: an existing render
      buffer is returned as it is; otherwise the CPU array is made present
      (without a push, as there is nothing to push to), a buffer of the
      quantity's format is allocated under a fresh handle and filled with it. */
  function GetRenderBuffer(g: GeomBuffer, store: Store, fmt: BufferFormat, computed: seq<Elem>): (r: (GeomBuffer, Store, BufferId))
    requires AttributeBuffers.Valid(store) && Consistent(g, store, fmt) && Admits(fmt)
    ensures g.gpu.Some? ==> r == (g, store, g.gpu.value)
    ensures g.gpu.None? ==> && r.2 !in store.buffers
                            && r.0.cpu == (if |g.cpu| > 0 then g.cpu else computed)
                            && Synced(r.0, r.1)
                            && r.1.buffers.Keys == store.buffers.Keys + {r.2}
    ensures r.0.gpu == Some(r.2) && Consistent(r.0, r.1, fmt) && AttributeBuffers.Valid(r.1)
    ensures SameBuffers(store, r.1, store.buffers.Keys)
    ensures r.1.textures == store.textures
    ensures store.buffers.Keys <= r.1.buffers.Keys
  {
    match g.gpu
    case Some(id) => (g, store, id)
    case None =>
      var (g1, _) := EnsureHave(g, store, fmt, computed, false);
      var (s1, id) := Generate(store, fmt.dataType, fmt.arrayCount);
      var g2 := g1.(gpu := Some(id));
      var s2 := UpdateIfAllocated(g2, s1, fmt);
      (g2, s2, id)
  }

  /** Empties the CPU array, so that the next `EnsureHave` recomputes it. */
  function Invalidate(g: GeomBuffer): (r: GeomBuffer)
    ensures |r.cpu| == 0 && r.gpu == g.gpu
    ensures State(r) != CpuResident
  {
    g.(cpu := [])
  }

  /** `___RenderBufferDataExternallyUpdated`: the render buffer was written on
      the device, so the CPU mirror is dropped rather than read back; the
      buffer is kept and becomes the only copy. */
  function ExternallyUpdated(g: GeomBuffer): (r: GeomBuffer)
    ensures r.cpu == [] && r.gpu == g.gpu
    ensures g.gpu.Some? ==> State(r) == GpuResident
  {
    g.(cpu := [])
  }

  /** `___StoredInMemory`: the CPU array holds the data. */
  function StoredInMemory(g: GeomBuffer): (r: bool)
    ensures r <==> State(g) == CpuResident
  {
    |g.cpu| > 0
  }

  /** The number of elements: the CPU array's length when it is filled,
      otherwise the render buffer's. With neither present the query is an
      internal inconsistency. */
  function Size(g: GeomBuffer, store: Store): (r: Result<nat, Error>)
    ensures State(g) == CpuResident ==> r == Ok(|g.cpu|)
    ensures State(g) == GpuResident && g.gpu.value in store.buffers ==> r == Ok(|store.buffers[g.gpu.value].data|)
    ensures State(g) == Unmaterialized ==> r == Err(InternalError)
  {
    if |g.cpu| > 0 then Ok(|g.cpu|)
    else match g.gpu
      case None => Err(InternalError)
      case Some(id) => if id in store.buffers then Ok(|store.buffers[id].data|) else Err(InternalError)
  }

  /** Reads element `ind`: from the CPU array when it is filled, otherwise by
      a readback of the render buffer through the quantity's typed accessor. */
  function ReadElement(g: GeomBuffer, store: Store, fmt: BufferFormat, ind: nat): (r: Result<Elem, Error>)
    requires Consistent(g, store, fmt) && Admits(fmt)
    ensures State(g) == CpuResident ==> (r.Ok? <==> ind < |g.cpu|) && (r.Ok? ==> r.value == g.cpu[ind])
    ensures State(g) == GpuResident ==>
      var data := store.buffers[g.gpu.value].data;
      (r.Ok? <==> ind < |data|) && (r.Ok? ==> r.value == data[ind])
    ensures State(g) == Unmaterialized ==> r == Err(InternalError)
  {
    if |g.cpu| > 0 then
      if ind < |g.cpu| then Ok(g.cpu[ind]) else Err(OutOfRange(ind, |g.cpu|))
    else match g.gpu
      case None => Err(InternalError)
      case Some(id) => GetData(store.buffers[id], fmt.kind, ind)
  }

  // === Properties of the cache

  /** `ensureHave` is idempotent: a second call with the same inputs changes
      nothing more. */
  lemma EnsureHaveIdempotent(g: GeomBuffer, store: Store, fmt: BufferFormat, computed: seq<Elem>, updateRenderBuffer: bool)
    requires Consistent(g, store, fmt) && Admits(fmt)
    ensures var (g1, s1) := EnsureHave(g, store, fmt, computed, updateRenderBuffer);
      EnsureHave(g1, s1, fmt, computed, updateRenderBuffer) == (g1, s1)
  {
    var (g1, s1) := EnsureHave(g, store, fmt, computed, updateRenderBuffer);
    if |g1.cpu| == 0 && updateRenderBuffer && g1.gpu.Some? {
      var id := g1.gpu.value;
      var b := s1.buffers[id];
      assert b.data == computed && b.isSet;
      assert s1.buffers[id := b] == s1.buffers;
    }
  }

  /** Two consecutive `get___RenderBuffer` calls return the same handle, and
      the second allocates and uploads nothing. */
  lemma GetRenderBufferTwice(g: GeomBuffer, store: Store, fmt: BufferFormat, computed: seq<Elem>, computed2: seq<Elem>)
    requires AttributeBuffers.Valid(store) && Consistent(g, store, fmt) && Admits(fmt)
    ensures var (g1, s1, id1) := GetRenderBuffer(g, store, fmt, computed);
      GetRenderBuffer(g1, s1, fmt, computed2) == (g1, s1, id1)
  {
  }

  /** Emptying a filled array and ensuring it again picks up new contents,
      which then also reach the render buffer. */
  lemma InvalidateThenEnsure(g: GeomBuffer, store: Store, fmt: BufferFormat, computed: seq<Elem>)
    requires Consistent(g, store, fmt) && Admits(fmt)
    ensures var (g1, s1) := EnsureHave(Invalidate(g), store, fmt, computed, true);
      g1.cpu == computed && g1.gpu == g.gpu && Synced(g1, s1)
  {
  }

  /** After a device-side write of `data` and the external-update notice, the
      size and every element are read from the render buffer and reflect
      `data`; the handle itself is unchanged. */
  lemma ExternalWriteIsSourceOfTruth(g: GeomBuffer, store: Store, fmt: BufferFormat, data: seq<Elem>, ind: nat)
    requires Consistent(g, store, fmt) && Admits(fmt) && g.gpu.Some?
    ensures Write(store, g.gpu.value, fmt.kind, data).Ok?
    ensures var s1 := Write(store, g.gpu.value, fmt.kind, data).value;
      var g1 := ExternallyUpdated(g);
      && !StoredInMemory(g1)
      && g1.gpu == g.gpu
      && Size(g1, s1) == Ok(|data|)
      && (ind < |data| ==> ReadElement(g1, s1, fmt, ind) == Ok(data[ind]))
      && (ind >= |data| ==> ReadElement(g1, s1, fmt, ind).Err?)
  {
  }
}

=== FILE: mesh_connectivity.dfy ===
/** Counting and connectivity conventions of a surface mesh with
    variable-arity faces: corners, halfedges and edges derived from the face
    index lists, the flattened face-index arrays, and the lazily built
    `faceForHalfedge` / `twinHalfedge` arrays. */
module MeshConnectivity {

  /** A face lists its vertex indices in order; any arity is allowed. */
  type Face = seq<nat>

  /** The sum of the face degrees. */
  function SumDegrees(faces: seq<Face>): nat
    decreases |faces|
  {
    if |faces| == 0 then 0 else SumDegrees(faces[..|faces| - 1]) + |faces[|faces| - 1]|
  }

  /** Halfedge `j` of a face runs from its `j`-th vertex to the next one, cyclically. */
  datatype Halfedge = Halfedge(tail: nat, tip: nat, face: nat)

  function FaceHalfedges(face: Face, f: nat): (r: seq<Halfedge>)
    ensures |r| == |face|
    ensures forall j :: 0 <= j < |face| ==> r[j].tail == face[j] && r[j].face == f
  {
    seq(|face|, j requires 0 <= j < |face| => Halfedge(face[j], if j + 1 < |face| then face[j + 1] else face[0], f))
  }

  /** All halfedges, face by face; halfedge indices are corner indices. */
  function Halfedges(faces: seq<Face>): seq<Halfedge>
    decreases |faces|
  {
    if |faces| == 0 then []
    else Halfedges(faces[..|faces| - 1]) + FaceHalfedges(faces[|faces| - 1], |faces| - 1)
  }

  /** There is one halfedge per corner, and each belongs to an existing face. */
  lemma {:induction false} HalfedgeCount(faces: seq<Face>)
    ensures |Halfedges(faces)| == SumDegrees(faces)
    ensures forall h :: 0 <= h < |Halfedges(faces)| ==> Halfedges(faces)[h].face < |faces|
    decreases |faces|
  {
    if |faces| > 0 {
      HalfedgeCount(faces[..|faces| - 1]);
    }
  }

  /** The undirected edge a halfedge lies on. */
  datatype EdgeKey = EdgeKey(lo: nat, hi: nat)

  function Key(h: Halfedge): (k: EdgeKey)
    ensures k.lo <= k.hi
    ensures {k.lo, k.hi} == {h.tail, h.tip}
  {
    if h.tail <= h.tip then EdgeKey(h.tail, h.tip) else EdgeKey(h.tip, h.tail)
  }

  /** The distinct undirected edges of the mesh. */
  function EdgeSet(faces: seq<Face>): set<EdgeKey> {
    set h | h in Halfedges(faces) :: Key(h)
  }

  /** The concatenation of the face index lists. */
  function Flatten(faces: seq<Face>): seq<nat>
    decreases |faces|
  {
    if |faces| == 0 then [] else Flatten(faces[..|faces| - 1]) + faces[|faces| - 1]
  }

  /** The counts and flattened indices `computeCounts` derives from the faces. */
  datatype MeshCounts = MeshCounts(
    nFaces: nat,
    nCorners: nat,
    nEdges: nat,
    faceIndsStart: seq<nat>,
    faceIndsEntries: seq<nat>)

  ghost predicate CountsOf(c: MeshCounts, faces: seq<Face>) {
    && c.nFaces == |faces|
    && c.nCorners == SumDegrees(faces)
    && c.nEdges == |EdgeSet(faces)|
    && |c.faceIndsStart| == |faces| + 1
    && c.faceIndsStart[0] == 0
    && (forall f :: 0 <= f < |faces| ==> c.faceIndsStart[f + 1] == c.faceIndsStart[f] + |faces[f]|)
    && c.faceIndsEntries == Flatten(faces)
  }

  lemma FlattenStep(faces: seq<Face>, f: nat)
    requires f < |faces|
    ensures Flatten(faces[..f + 1]) == Flatten(faces[..f]) + faces[f]
    ensures SumDegrees(faces[..f + 1]) == SumDegrees(faces[..f]) + |faces[f]|
    ensures Halfedges(faces[..f + 1]) == Halfedges(faces[..f]) + FaceHalfedges(faces[f], f)
    ensures EdgeSet(faces[..f + 1]) == EdgeSet(faces[..f]) + set h | h in FaceHalfedges(faces[f], f) :: Key(h)
  {
    assert faces[..f + 1][..f] == faces[..f];
  }

  lemma FlattenLength(faces: seq<Face>)
    ensures |Flatten(faces)| == SumDegrees(faces)
  {
  }

  /** The start offset of every face in the flattened index array, with the
      total as the last entry. */
  function Starts(faces: seq<Face>): (r: seq<nat>)
    ensures |r| == |faces| + 1 && r[0] == 0 && r[|faces|] == SumDegrees(faces)
    ensures forall f :: 0 <= f < |faces| ==> r[f + 1] == r[f] + |faces[f]|
    decreases |faces|
  {
    if |faces| == 0 then [0]
    else
      var n := |faces| - 1;
      var init := Starts(faces[..n]);
      assert forall f :: 0 <= f < n ==> faces[..n][f] == faces[f];
      init + [init[n] + |faces[n]|]
  }

  /** The counts and indices as one definition, the reference `ComputeCounts`
      is checked against. */
  function Counts(faces: seq<Face>): (c: MeshCounts)
    ensures CountsOf(c, faces)
  {
    MeshCounts(|faces|, SumDegrees(faces), |EdgeSet(faces)|, Starts(faces), Flatten(faces))
  }

  /** `CountsOf` pins the counts down completely. */
  lemma CountsOfIsUnique(c: MeshCounts, d: MeshCounts, faces: seq<Face>)
    requires CountsOf(c, faces) && CountsOf(d, faces)
    ensures c == d
  {
    var s, t := c.faceIndsStart, d.faceIndsStart;
    forall k | 0 <= k < |s| ensures s[k] == t[k] {
      PrefixSumsAgree(faces, s, t, k);
    }
  }

  lemma {:induction false} PrefixSumsAgree(faces: seq<Face>, s: seq<nat>, t: seq<nat>, k: nat)
    requires |s| == |t| == |faces| + 1 && s[0] == 0 && t[0] == 0
    requires forall f :: 0 <= f < |faces| ==> s[f + 1] == s[f] + |faces[f]|
    requires forall f :: 0 <= f < |faces| ==> t[f + 1] == t[f] + |faces[f]|
    requires k <= |faces|
    ensures s[k] == t[k]
  {
    if k > 0 {
      PrefixSumsAgree(faces, s, t, k - 1);
    }
  }

  /** What one pass has accumulated after the first `f` faces. */
  ghost predicate PassInvariant(faces: seq<Face>, f: nat, entries: seq<nat>, starts: seq<nat>, edges: set<EdgeKey>) {
    && f <= |faces|
    && entries == Flatten(faces[..f]) && |entries| == SumDegrees(faces[..f])
    && |starts| == f + 1 && starts[0] == 0 && starts[f] == |entries|
    && (forall g :: 0 <= g < f ==> starts[g + 1] == starts[g] + |faces[g]|)
    && edges == EdgeSet(faces[..f])
  }

  lemma PassStep(faces: seq<Face>, f: nat, entries: seq<nat>, starts: seq<nat>, edges: set<EdgeKey>)
    requires PassInvariant(faces, f, entries, starts, edges) && f < |faces|
    ensures PassInvariant(faces, f + 1, entries + faces[f], starts + [|entries| + |faces[f]|],
                          edges + set h | h in FaceHalfedges(faces[f], f) :: Key(h))
  {
    FlattenStep(faces, f);
    var starts' := starts + [|entries| + |faces[f]|];
    assert forall g :: 0 <= g <= f ==> starts'[g] == starts[g];
  }

  /** `computeCounts`: one pass over the faces accumulates the corner count,
      the start offset of each face in the flattened index array, and the set
      of distinct undirected edges. */
  method ComputeCounts(faces: seq<Face>) returns (c: MeshCounts)
    ensures CountsOf(c, faces)
    ensures c == Counts(faces)
  {
    var entries: seq<nat> := [];
    var starts: seq<nat> := [0];
    var edges: set<EdgeKey> := {};
    var f := 0;
    while f < |faces|
      invariant PassInvariant(faces, f, entries, starts, edges)
      decreases |faces| - f
    {
      PassStep(faces, f, entries, starts, edges);
      edges := edges + set h | h in FaceHalfedges(faces[f], f) :: Key(h);
      starts := starts + [|entries| + |faces[f]|];
      entries := entries + faces[f];
      f := f + 1;
    }
    assert faces[..|faces|] == faces;
    c := MeshCounts(|faces|, |entries|, |edges|, starts, entries);
    CountsOfIsUnique(c, Counts(faces), faces);
  }

  /** The flattened layout: the offsets of the faces are the running sums
      of their degrees, the last one being the total. */
  lemma {:induction false} FlattenTotal(faces: seq<Face>, starts: seq<nat>)
    requires |starts| == |faces| + 1 && starts[0] == 0
    requires forall f :: 0 <= f < |faces| ==> starts[f + 1] == starts[f] + |faces[f]|
    ensures starts[|faces|] == |Flatten(faces)|
    decreases |faces|
  {
    if |faces| > 0 {
      var n := |faces| - 1;
      FlattenTotal(faces[..n], starts[..n + 1]);
    }
  }

  /** Entry `j` of face `f` sits at `faceIndsStart[f] + j` of the flattened array. */
  lemma {:induction false} FlattenEntry(faces: seq<Face>, starts: seq<nat>, f: nat, j: nat)
    requires |starts| == |faces| + 1 && starts[0] == 0
    requires forall g :: 0 <= g < |faces| ==> starts[g + 1] == starts[g] + |faces[g]|
    requires f < |faces| && j < |faces[f]|
    ensures starts[f] + j < |Flatten(faces)| && Flatten(faces)[starts[f] + j] == faces[f][j]
    decreases |faces|
  {
    var n := |faces| - 1;
    var init := faces[..n];
    var st := starts[..n + 1];
    FlattenTotal(init, st);
    assert Flatten(faces) == Flatten(init) + faces[n];
    if f < n {
      FlattenEntry(init, st, f, j);
    }
  }

  /** Entry `j` of face `f` is found at offset `starts[f] + j`. */
  ghost predicate EntryAt(faces: seq<Face>, starts: seq<nat>, f: nat, j: nat)
    requires f < |faces| && f < |starts| && j < |faces[f]|
  {
    starts[f] + j < |Flatten(faces)| && Flatten(faces)[starts[f] + j] == faces[f][j]
  }

  lemma FlattenLayout(faces: seq<Face>, starts: seq<nat>)
    requires |starts| == |faces| + 1 && starts[0] == 0
    requires forall f :: 0 <= f < |faces| ==> starts[f + 1] == starts[f] + |faces[f]|
    ensures starts[|faces|] == |Flatten(faces)|
    ensures forall f: nat, j: nat :: f < |faces| && j < |faces[f]| ==> EntryAt(faces, starts, f, j)
  {
    FlattenTotal(faces, starts);
    forall f: nat, j: nat | f < |faces| && j < |faces[f]| ensures EntryAt(faces, starts, f, j) {
      FlattenEntry(faces, starts, f, j);
    }
  }

  // === Derived connectivity

  /** The twin candidate search: the first halfedge at or after `j`, other
      than `i`, on the same undirected edge; `i` itself when there is none. */
  function FirstOther(hs: seq<Halfedge>, i: nat, j: nat): (r: nat)
    requires i < |hs| && j <= |hs|
    ensures r < |hs| && Key(hs[r]) == Key(hs[i])
    ensures r != i ==> j <= r && forall k :: j <= k < r && k != i ==> Key(hs[k]) != Key(hs[i])
    ensures r == i <==> forall k :: j <= k < |hs| && k != i ==> Key(hs[k]) != Key(hs[i])
    decreases |hs| - j
  {
    if j == |hs| then i
    else if j != i && Key(hs[j]) == Key(hs[i]) then j
    else FirstOther(hs, i, j + 1)
  }

  /** Halfedge `j` of face `f` has index `starts[f] + j`, the index of
      corner `j` of face `f`. */
  ghost predicate HalfedgeAt(faces: seq<Face>, starts: seq<nat>, f: nat, j: nat)
    requires f < |faces| && f < |starts| && j < |faces[f]|
  {
    var h := starts[f] + j;
    h < |Halfedges(faces)| && Halfedges(faces)[h] == FaceHalfedges(faces[f], f)[j]
  }

  lemma {:induction false} HalfedgeEntry(faces: seq<Face>, starts: seq<nat>, f: nat, j: nat)
    requires |starts| == |faces| + 1 && starts[0] == 0
    requires forall g :: 0 <= g < |faces| ==> starts[g + 1] == starts[g] + |faces[g]|
    requires f < |faces| && j < |faces[f]|
    ensures HalfedgeAt(faces, starts, f, j)
    decreases |faces|
  {
    var n := |faces| - 1;
    var init := faces[..n];
    var st := starts[..n + 1];
    FlattenTotal(init, st);
    HalfedgeTailsAreCorners(init);
    assert Halfedges(faces) == Halfedges(init) + FaceHalfedges(faces[n], n);
    if f < n {
      HalfedgeEntry(init, st, f, j);
      assert init[f] == faces[f];
    }
  }

  /** The halfedges are laid out face by face: halfedge `j` of face `f` sits
      at `starts[f] + j`, so halfedge indices are corner indices. */
  lemma HalfedgeLayout(faces: seq<Face>, starts: seq<nat>)
    requires |starts| == |faces| + 1 && starts[0] == 0
    requires forall f :: 0 <= f < |faces| ==> starts[f + 1] == starts[f] + |faces[f]|
    ensures forall f: nat, j: nat :: f < |faces| && j < |faces[f]| ==> HalfedgeAt(faces, starts, f, j)
  {
    forall f: nat, j: nat | f < |faces| && j < |faces[f]| ensures HalfedgeAt(faces, starts, f, j) {
      HalfedgeEntry(faces, starts, f, j);
    }
  }

  /** The tail of every halfedge is the vertex at the same position of the
      flattened face indices. */
  lemma {:induction false} HalfedgeTailsAreCorners(faces: seq<Face>)
    ensures |Halfedges(faces)| == |Flatten(faces)|
    ensures forall h :: 0 <= h < |Halfedges(faces)| ==> Halfedges(faces)[h].tail == Flatten(faces)[h]
    decreases |faces|
  {
    if |faces| > 0 {
      var n := |faces| - 1;
      var init := faces[..n];
      HalfedgeTailsAreCorners(init);
      var hs := Halfedges(faces);
      var fl := Flatten(faces);
      assert hs == Halfedges(init) + FaceHalfedges(faces[n], n);
      assert fl == Flatten(init) + faces[n];
      forall h | 0 <= h < |hs| ensures hs[h].tail == fl[h] {
        if h >= |Halfedges(init)| {
          assert hs[h] == FaceHalfedges(faces[n], n)[h - |Halfedges(init)|];
        }
      }
    }
  }

  /** Halfedge `j` of face `f` is recorded as belonging to `f`. */
  ghost predicate FaceAt(r: seq<nat>, faces: seq<Face>, f: nat, j: nat)
    requires f < |faces| && j < |faces[f]|
  {
    Starts(faces)[f] + j < |r| && r[Starts(faces)[f] + j] == f
  }

  /** For halfedge `i`, the index of the face it is in. */
  function FaceForHalfedge(faces: seq<Face>): (r: seq<nat>)
    ensures |r| == SumDegrees(faces) == |Halfedges(faces)|
    ensures forall h :: 0 <= h < |r| ==> r[h] < |faces|
    ensures forall f: nat, j: nat :: f < |faces| && j < |faces[f]| ==> FaceAt(r, faces, f, j)
  {
    HalfedgeCount(faces);
    var hs := Halfedges(faces);
    var r := seq(|hs|, h requires 0 <= h < |hs| => hs[h].face);
    FacesFollowLayout(faces, r);
    r
  }

  lemma FacesFollowLayout(faces: seq<Face>, r: seq<nat>)
    requires |r| == |Halfedges(faces)| && forall h :: 0 <= h < |r| ==> r[h] == Halfedges(faces)[h].face
    ensures forall f: nat, j: nat :: f < |faces| && j < |faces[f]| ==> FaceAt(r, faces, f, j)
  {
    HalfedgeLayout(faces, Starts(faces));
    forall f: nat, j: nat | f < |faces| && j < |faces[f]| ensures FaceAt(r, faces, f, j) {
      assert HalfedgeAt(faces, Starts(faces), f, j);
    }
  }

  /** For halfedge `i`, a twin: the lowest-index other halfedge on the same
      undirected edge, or `i` itself on a boundary edge. Every entry is a
      valid halfedge index, manifold or not. */
  function TwinHalfedge(faces: seq<Face>): (r: seq<nat>)
    ensures |r| == SumDegrees(faces) == |Halfedges(faces)|
    ensures forall h :: 0 <= h < |r| ==> r[h] < |r|
    ensures forall h :: 0 <= h < |r| ==> Key(Halfedges(faces)[r[h]]) == Key(Halfedges(faces)[h])
  {
    HalfedgeCount(faces);
    var hs := Halfedges(faces);
    seq(|hs|, h requires 0 <= h < |hs| => FirstOther(hs, h, 0))
  }

  /** No undirected edge is shared by more than two halfedges. */
  ghost predicate EdgeManifold(hs: seq<Halfedge>) {
    forall a, b, c :: 0 <= a < b < c < |hs| && Key(hs[a]) == Key(hs[b]) ==> Key(hs[b]) != Key(hs[c])
  }

  /** On an edge-manifold mesh the twin relation is an involution: the twin
      of the twin is the halfedge itself. */
  lemma TwinIsInvolution(faces: seq<Face>)
    requires EdgeManifold(Halfedges(faces))
    ensures var t := TwinHalfedge(faces); forall h :: 0 <= h < |t| ==> t[t[h]] == h
  {
  }

  /** A halfedge is its own twin exactly when no other halfedge lies on its edge. */
  lemma BoundaryTwinIsSelf(faces: seq<Face>, h: nat)
    requires h < |Halfedges(faces)|
    ensures var hs := Halfedges(faces);
      TwinHalfedge(faces)[h] == h <==> forall k :: 0 <= k < |hs| && k != h ==> Key(hs[k]) != Key(hs[h])
  {
  }

  // === The two-triangle example: 4 vertices, 2 faces sharing edge (0, 2)

  lemma TwoTriangleHalfedges()
    ensures Halfedges([[0, 1, 2], [0, 2, 3]]) ==
      [Halfedge(0, 1, 0), Halfedge(1, 2, 0), Halfedge(2, 0, 0),
       Halfedge(0, 2, 1), Halfedge(2, 3, 1), Halfedge(3, 0, 1)]
  {
  }

  lemma TwoTriangleKeys(hs: seq<Halfedge>)
    requires hs == [Halfedge(0, 1, 0), Halfedge(1, 2, 0), Halfedge(2, 0, 0),
                    Halfedge(0, 2, 1), Halfedge(2, 3, 1), Halfedge(3, 0, 1)]
    ensures (set h | h in hs :: Key(h)) == {EdgeKey(0, 1), EdgeKey(1, 2), EdgeKey(0, 2), EdgeKey(2, 3), EdgeKey(0, 3)}
  {
    var expected := {EdgeKey(0, 1), EdgeKey(1, 2), EdgeKey(0, 2), EdgeKey(2, 3), EdgeKey(0, 3)};
    forall k | k in (set h | h in hs :: Key(h)) ensures k in expected {
      var h :| h in hs && Key(h) == k;
      assert h == hs[0] || h == hs[1] || h == hs[2] || h == hs[3] || h == hs[4] || h == hs[5];
    }
    assert Key(hs[0]) == EdgeKey(0, 1) && Key(hs[1]) == EdgeKey(1, 2) && Key(hs[2]) == EdgeKey(0, 2);
    assert Key(hs[4]) == EdgeKey(2, 3) && Key(hs[5]) == EdgeKey(0, 3);
  }

  lemma TwoTriangleEdgeSet()
    ensures EdgeSet([[0, 1, 2], [0, 2, 3]]) == {EdgeKey(0, 1), EdgeKey(1, 2), EdgeKey(0, 2), EdgeKey(2, 3), EdgeKey(0, 3)}
  {
    TwoTriangleHalfedges();
    TwoTriangleKeys(Halfedges([[0, 1, 2], [0, 2, 3]]));
  }

  /** Step of `TwoTriangleCounts`: the five edge keys are distinct. */
  lemma FiveEdgeKeys()
    ensures |{EdgeKey(0, 1), EdgeKey(1, 2), EdgeKey(0, 2), EdgeKey(2, 3), EdgeKey(0, 3)}| == 5
  {
  }

  /** Six corners and five distinct edges: the shared diagonal is counted once. */
  lemma TwoTriangleCounts()
    ensures var faces: seq<Face> := [[0, 1, 2], [0, 2, 3]];
      SumDegrees(faces) == 6 && |EdgeSet(faces)| == 5
  {
    TwoTriangleHalfedges();
    HalfedgeCount([[0, 1, 2], [0, 2, 3]]);
    TwoTriangleEdgeSet();
    FiveEdgeKeys();
  }
}

=== FILE: named_tables.dfy ===
/** Lookup by name in the list-shaped tables a shader program keeps
    (`std::vector` of slots searched by name), and the uniqueness invariant
    those tables maintain. `nameOf` projects the name out of a slot. */
module NamedTables {
  import opened Results

  /** The position of the first slot named `key`, if any. */
  function Find<T>(s: seq<T>, key: string, nameOf: T -> string): (r: Option<nat>)
    ensures r.Some? ==> r.value < |s| && nameOf(s[r.value]) == key
    ensures r.Some? ==> forall i :: 0 <= i < r.value ==> nameOf(s[i]) != key
    ensures r.None? <==> forall i :: 0 <= i < |s| ==> nameOf(s[i]) != key
    decreases |s|
  {
    if |s| == 0 then None
    else if nameOf(s[0]) == key then Some(0)
    else match Find(s[1..], key, nameOf)
      case None => None
      case Some(j) => Some(j + 1)
  }

  /** No name occurs twice in the table. */
  ghost predicate UniqueNames<T>(s: seq<T>, nameOf: T -> string) {
    forall i, j :: 0 <= i < j < |s| ==> nameOf(s[i]) != nameOf(s[j])
  }

  /** In a table with unique names, the slot found for a name is the only one with that name. */
  lemma FindIsTheOnly<T>(s: seq<T>, key: string, nameOf: T -> string, i: nat)
    requires UniqueNames(s, nameOf) && i < |s| && nameOf(s[i]) == key
    ensures Find(s, key, nameOf) == Some(i)
  {
  }

  /** Appending a slot whose name is absent keeps the names unique. */
  lemma AppendKeepsUnique<T>(s: seq<T>, x: T, nameOf: T -> string)
    requires UniqueNames(s, nameOf) && Find(s, nameOf(x), nameOf).None?
    ensures UniqueNames(s + [x], nameOf)
  {
  }

  /** `Find` looks only at names: two tables with the same names slot by
      slot answer every lookup alike. */
  lemma {:induction false} FindDependsOnNames<T>(s: seq<T>, t: seq<T>, key: string, nameOf: T -> string)
    requires |s| == |t| && forall i :: 0 <= i < |s| ==> nameOf(s[i]) == nameOf(t[i])
    ensures Find(s, key, nameOf) == Find(t, key, nameOf)
    decreases |s|
  {
  }

  /** The names that occur in a table. */
  function Names<T>(s: seq<T>, nameOf: T -> string): set<string>
    decreases |s|
  {
    if |s| == 0 then {} else {nameOf(s[0])} + Names(s[1..], nameOf)
  }

  /** A name is in the table exactly when some slot carries it. */
  lemma {:induction false} NamesHaveSlots<T>(s: seq<T>, key: string, nameOf: T -> string)
    ensures key in Names(s, nameOf) <==> Find(s, key, nameOf).Some?
    decreases |s|
  {
    if |s| > 0 {
      NamesHaveSlots(s[1..], key, nameOf);
    }
  }

  /** Appending a slot adds its name. */
  lemma {:induction false} NamesAppend<T>(s: seq<T>, x: T, nameOf: T -> string)
    ensures Names(s + [x], nameOf) == Names(s, nameOf) + {nameOf(x)}
    decreases |s|
  {
    if |s| > 0 {
      assert (s + [x])[1..] == s[1..] + [x];
      NamesAppend(s[1..], x, nameOf);
    }
  }

  /** Two tables with the same names slot by slot have the same names. */
  lemma {:induction false} NamesDependOnNames<T>(s: seq<T>, t: seq<T>, nameOf: T -> string)
    requires |s| == |t| && forall i :: 0 <= i < |s| ==> nameOf(s[i]) == nameOf(t[i])
    ensures Names(s, nameOf) == Names(t, nameOf)
    decreases |s|
  {
    if |s| > 0 {
      NamesDependOnNames(s[1..], t[1..], nameOf);
    }
  }

  /** Appending a slot changes only the lookups that found nothing, and
      those only for its own name. */
  lemma {:induction false} AppendFind<T>(s: seq<T>, x: T, key: string, nameOf: T -> string)
    ensures Find(s + [x], key, nameOf) ==
      if Find(s, key, nameOf).Some? then Find(s, key, nameOf)
      else if nameOf(x) == key then Some(|s|) else None
  {
    var t := s + [x];
    assert forall i :: 0 <= i < |s| ==> t[i] == s[i];
    assert t[|s|] == x;
  }

  /** The slot found for `key`, if any, has kind `kind`: a second
      declaration of `key` with that kind would be accepted. */
  ghost predicate Fits<T, K>(s: seq<T>, key: string, kind: K, nameOf: T -> string, kindOf: T -> K) {
    var f := Find(s, key, nameOf);
    f.Some? ==> kindOf(s[f.value]) == kind
  }

  /** Any two declarations of the same name have the same kind. */
  ghost predicate Agree<S, K>(specs: seq<S>, nameOf: S -> string, kindOf: S -> K) {
    forall j, k :: 0 <= j < k < |specs| && nameOf(specs[j]) == nameOf(specs[k]) ==> kindOf(specs[j]) == kindOf(specs[k])
  }

  lemma AppendFits<T, K>(s: seq<T>, x: T, key: string, kind: K, nameOf: T -> string, kindOf: T -> K)
    ensures Fits(s + [x], key, kind, nameOf, kindOf) <==>
      if Find(s, key, nameOf).Some? then Fits(s, key, kind, nameOf, kindOf)
      else nameOf(x) == key ==> kindOf(x) == kind
  {
    AppendFind(s, x, key, nameOf);
    var f := Find(s, key, nameOf);
    if f.Some? {
      assert (s + [x])[f.value] == s[f.value];
    } else {
      assert (s + [x])[|s|] == x;
    }
  }

  /** The declarations agree when the later ones agree among themselves and
      with the first. */
  lemma AgreeCons<S, K>(specs: seq<S>, nameOf: S -> string, kindOf: S -> K)
    requires |specs| > 0
    ensures Agree(specs, nameOf, kindOf) <==>
      && Agree(specs[1..], nameOf, kindOf)
      && forall k :: 1 <= k < |specs| && nameOf(specs[k]) == nameOf(specs[0]) ==> kindOf(specs[k]) == kindOf(specs[0])
  {
    var t := specs[1..];
    assert forall k :: 1 <= k < |specs| ==> specs[k] == t[k - 1];
    if Agree(t, nameOf, kindOf) && forall k :: 1 <= k < |specs| && nameOf(specs[k]) == nameOf(specs[0]) ==> kindOf(specs[k]) == kindOf(specs[0]) {
      forall j, k | 0 <= j < k < |specs| && nameOf(specs[j]) == nameOf(specs[k])
        ensures kindOf(specs[j]) == kindOf(specs[k])
      {
        if j > 0 {
          assert t[j - 1] == specs[j] && t[k - 1] == specs[k];
        }
      }
    }
  }

  /** Every declaration fits the table, and the declarations agree among
      themselves: adding them one by one meets no conflict. */
  ghost predicate AllFit<T, S, K>(tbl: seq<T>, specs: seq<S>, nameOf: T -> string, kindOf: T -> K, specName: S -> string, specKind: S -> K) {
    && (forall k :: 0 <= k < |specs| ==> Fits(tbl, specName(specs[k]), specKind(specs[k]), nameOf, kindOf))
    && Agree(specs, specName, specKind)
  }

  /** One step of adding declarations: when the first fits `tbl`, and adding
      it turns `tbl` into `tbl1` so that a later declaration fits `tbl1`
      exactly when it fits `tbl` and agrees with the first, then the rest
      fit `tbl1` exactly when all fit `tbl`. */
  lemma AllFitCons<T, S, K>(tbl: seq<T>, tbl1: seq<T>, specs: seq<S>, nameOf: T -> string, kindOf: T -> K, specName: S -> string, specKind: S -> K)
    requires |specs| > 0
    requires Fits(tbl, specName(specs[0]), specKind(specs[0]), nameOf, kindOf)
    requires forall k :: 1 <= k < |specs| ==>
      (Fits(tbl1, specName(specs[k]), specKind(specs[k]), nameOf, kindOf) <==>
       Fits(tbl, specName(specs[k]), specKind(specs[k]), nameOf, kindOf)
       && (specName(specs[k]) == specName(specs[0]) ==> specKind(specs[k]) == specKind(specs[0])))
    ensures AllFit(tbl, specs, nameOf, kindOf, specName, specKind) <==> AllFit(tbl1, specs[1..], nameOf, kindOf, specName, specKind)
  {
    AgreeCons(specs, specName, specKind);
    var rest := specs[1..];
    assert forall k :: 0 <= k < |rest| ==> rest[k] == specs[k + 1];
  }

  /** Replacing a slot by one with the same name keeps the names unique and
      every lookup the same. */
  lemma ReplaceKeepsUnique<T>(s: seq<T>, i: nat, x: T, nameOf: T -> string)
    requires i < |s| && nameOf(x) == nameOf(s[i])
    ensures UniqueNames(s, nameOf) ==> UniqueNames(s[i := x], nameOf)
    ensures forall key :: Find(s[i := x], key, nameOf) == Find(s, key, nameOf)
  {
    forall key ensures Find(s[i := x], key, nameOf) == Find(s, key, nameOf) {
      FindDependsOnNames(s[i := x], s, key, nameOf);
    }
  }
}

=== FILE: quantity.dfy ===
/** Data attached to a structure (Quantity): its name and parent are fixed
    when it is made, `dominates` is fixed too, and only `setEnabled` changes
    whether it is displayed. A structure keeps its quantities keyed by name. */
module Quantities {
  import opened Results

  /** The parent structure is identified by its name. */
  datatype Quantity = Quantity(name: string, parent: string, enabled: bool, dominates: bool)

  /** The constructor: a new quantity is not displayed, and `dominates` is
      false unless asked for. */
  function NewQuantity(name: string, parent: string, dominates: bool := false): (q: Quantity)
    ensures q.name == name && q.parent == parent && q.dominates == dominates
    ensures !IsEnabled(q)
  {
    Quantity(name, parent, false, dominates)
  }

  /** `isEnabled` reports the flag. */
  function IsEnabled(q: Quantity): (r: bool)
    ensures r <==> q.enabled
  {
    q.enabled
  }

  /** `setEnabled`: the flag takes the requested value; the name, parent and
      `dominates` are untouched. */
  function SetEnabled(q: Quantity, newEnabled: bool): (r: Quantity)
    ensures IsEnabled(r) == newEnabled
    ensures r.name == q.name && r.parent == q.parent && r.dominates == q.dominates
  {
    q.(enabled := newEnabled)
  }

  /** Applies a sequence of `setEnabled` calls. */
  function ApplySetEnabled(q: Quantity, calls: seq<bool>): Quantity
    decreases |calls|
  {
    if |calls| == 0 then q else ApplySetEnabled(SetEnabled(q, calls[0]), calls[1..])
  }

  /** Whatever calls are made, `isEnabled` reports the last value asked for
      (the constructor's `false` if none), and the rest is as constructed. */
  lemma {:induction false} EnabledIsLastSet(name: string, parent: string, dominates: bool, calls: seq<bool>)
    ensures var q := ApplySetEnabled(NewQuantity(name, parent, dominates), calls);
      && IsEnabled(q) == (if |calls| == 0 then false else calls[|calls| - 1])
      && q.name == name && q.parent == parent && q.dominates == dominates
  {
    FoldKeepsLast(NewQuantity(name, parent, dominates), calls);
  }

  lemma {:induction false} FoldKeepsLast(q: Quantity, calls: seq<bool>)
    ensures var r := ApplySetEnabled(q, calls);
      && IsEnabled(r) == (if |calls| == 0 then IsEnabled(q) else calls[|calls| - 1])
      && r.name == q.name && r.parent == q.parent && r.dominates == q.dominates
    decreases |calls|
  {
    if |calls| > 0 {
      FoldKeepsLast(SetEnabled(q, calls[0]), calls[1..]);
      if |calls| > 1 {
        assert calls[1..][|calls[1..]| - 1] == calls[|calls| - 1];
      }
    }
  }

  // === The quantities of one structure

  /** Quantities are keyed by their name, so a name occurs at most once, and
      all of them belong to `parent`. */
  ghost predicate WellKeyed(qs: map<string, Quantity>, parent: string) {
    forall k :: k in qs ==> qs[k].name == k && qs[k].parent == parent
  }

  /** Attaching a quantity: one already attached under the same name is
      replaced, the others are kept. */
  function AddQuantity(qs: map<string, Quantity>, q: Quantity): (r: map<string, Quantity>)
    ensures q.name in r && r[q.name] == q
    ensures r.Keys == qs.Keys + {q.name}
    ensures forall k :: k in qs && k != q.name ==> r[k] == qs[k]
  {
    qs[q.name := q]
  }

  lemma AddQuantityKeepsWellKeyed(qs: map<string, Quantity>, parent: string, q: Quantity)
    requires WellKeyed(qs, parent) && q.parent == parent
    ensures WellKeyed(AddQuantity(qs, q), parent)
  {
  }

  /** Looks a quantity up by name; an unknown name is a lookup error. */
  function GetQuantity(qs: map<string, Quantity>, name: string): (r: Result<Quantity, Error>)
    ensures r.Ok? <==> name in qs
    ensures r.Ok? ==> r.value == qs[name]
    ensures r.Err? ==> r.error == LookupError(name)
  {
    if name in qs then Ok(qs[name]) else Err(LookupError(name))
  }

  /** Enables or disables one attached quantity by name; the others and the
      keying are unchanged. */
  function SetQuantityEnabled(qs: map<string, Quantity>, name: string, newEnabled: bool): (r: Result<map<string, Quantity>, Error>)
    ensures r.Err? <==> name !in qs
    ensures r.Err? ==> r.error == LookupError(name)
    ensures r.Ok? ==> r.value.Keys == qs.Keys && IsEnabled(r.value[name]) == newEnabled
    ensures r.Ok? ==> r.value[name] == qs[name].(enabled := newEnabled)
    ensures r.Ok? ==> forall k :: k in qs && k != name ==> r.value[k] == qs[k]
    ensures r.Ok? ==> forall k :: k in qs ==> r.value[k].name == qs[k].name && r.value[k].parent == qs[k].parent
  {
    match GetQuantity(qs, name)
    case Err(e) => Err(e)
    case Ok(q) => Ok(qs[name := SetEnabled(q, newEnabled)])
  }

  lemma SetQuantityEnabledKeepsWellKeyed(qs: map<string, Quantity>, parent: string, name: string, newEnabled: bool)
    requires WellKeyed(qs, parent) && SetQuantityEnabled(qs, name, newEnabled).Ok?
    ensures WellKeyed(SetQuantityEnabled(qs, name, newEnabled).value, parent)
  {
  }

  /** Adding then looking up gives back the quantity just added, while the
      lookups of other names are as before. */
  lemma AddThenGet(qs: map<string, Quantity>, q: Quantity, other: string)
    requires other != q.name
    ensures GetQuantity(AddQuantity(qs, q), q.name) == Ok(q)
    ensures GetQuantity(AddQuantity(qs, q), other) == GetQuantity(qs, other)
  {
  }
}

=== FILE: results.dfy ===
/** Failure-carrying wrappers shared by every module of the model, and the
    error kinds the library surfaces to its callers. */
module Results {

  datatype Option<+T> = None | Some(value: T)

  datatype Result<+T, +E> = Ok(value: T) | Err(error: E)

  /** A Pass/Fail outcome for checks that produce no value. */
  datatype Outcome<+E> = Pass | Fail(error: E)

  /** The data type a GPU resource or shader slot is declared with. */
  datatype RenderDataType =
    | Float
    | Matrix44Float
    | Vector2Float
    | Vector3Float
    | Vector4Float
    | Int
    | UInt

  /** The error kinds of the core: lookups by name, array shapes, declared
      types, allocation order and internal consistency. */
  datatype Error =
    | LookupError(key: string)
    | ShapeMismatch(expected: nat, actual: nat)
    | TypeMismatch(declared: RenderDataType, attempted: RenderDataType)
    | DimensionMismatch(declaredDim: int, attemptedDim: int)
    | NotAllocated(key: string)
    | AlreadySet(key: string)
    | OutOfRange(index: nat, size: nat)
    | Unset(key: string)
    | InternalError
}

=== FILE: shader_cache.dfy ===
/** The engine's shader caches (GLEngine): base programs and composable
    replacement rules, each keyed by name, and `requestShader`, which
    resolves a program name with an ordered list of rule names.

    The textual application of rules to the stage sources and the compilation
    of the result are not modelled: a resolved request is the base stages
    together with the rules to apply, in application order. */
module ShaderCache {
  import opened Results
  import opened ShaderPrograms

  /** A source-level patch: text replacements plus the slots it declares. */
  datatype ShaderReplacementRule = ShaderReplacementRule(
    ruleName: string,
    replacements: seq<(string, string)>,
    uniforms: seq<UniformSpec>,
    attributes: seq<AttributeSpec>,
    textures: seq<TextureSpec>)

  /** The name-keyed caches; a map holds at most one entry per name. */
  datatype Engine = Engine(
    programs: map<string, seq<ShaderStageSpec>>,
    rules: map<string, ShaderReplacementRule>)

  datatype ResolvedShader = ResolvedShader(stages: seq<ShaderStageSpec>, rules: seq<ShaderReplacementRule>)

  function NewEngine(): (e: Engine)
    ensures e.programs == map[] && e.rules == map[]
  {
    Engine(map[], map[])
  }

  /** `registerShaderProgram`: afterwards the name is present. A name that
      is already registered keeps its first registration. */
  function RegisterShaderProgram(e: Engine, name: string, stages: seq<ShaderStageSpec>): (r: Engine)
    ensures name in r.programs && r.rules == e.rules
    ensures name !in e.programs ==> r.programs == e.programs[name := stages]
    ensures name in e.programs ==> r == e
  {
    if name in e.programs then e else e.(programs := e.programs[name := stages])
  }

  /** `registerShaderRule`: afterwards the name is present; as for programs,
      the first registration of a name is kept. */
  function RegisterShaderRule(e: Engine, name: string, rule: ShaderReplacementRule): (r: Engine)
    ensures name in r.rules && r.programs == e.programs
    ensures name !in e.rules ==> r.rules == e.rules[name := rule]
    ensures name in e.rules ==> r == e
  {
    if name in e.rules then e else e.(rules := e.rules[name := rule])
  }

  /** Looks up each rule name in order. Succeeds exactly when every name is
      registered, giving the rules in the caller's order; otherwise fails on
      the first unknown name. */
  function ResolveRules(rules: map<string, ShaderReplacementRule>, names: seq<string>): (r: Result<seq<ShaderReplacementRule>, Error>)
    ensures r.Ok? <==> forall k :: 0 <= k < |names| ==> names[k] in rules
    ensures r.Ok? ==> |r.value| == |names| && forall k :: 0 <= k < |names| ==> r.value[k] == rules[names[k]]
    ensures r.Err? ==> exists k :: (0 <= k < |names| && names[k] !in rules && r.error == LookupError(names[k])
                                    && forall j :: 0 <= j < k ==> names[j] in rules)
    decreases |names|
  {
    if |names| == 0 then Ok([])
    else if names[0] !in rules then Err(LookupError(names[0]))
    else match ResolveRules(rules, names[1..])
      case Err(e) =>
        ghost var k :| 0 <= k < |names[1..]| && names[1..][k] !in rules && e == LookupError(names[1..][k])
          && forall j :: 0 <= j < k ==> names[1..][j] in rules;
        assert names[k + 1] !in rules && forall j :: 0 <= j < k + 1 ==> names[j] in rules by {
          assert forall j :: 1 <= j < k + 1 ==> names[j] == names[1..][j - 1];
        }
        Err(e)
      case Ok(tail) =>
        assert forall k :: 1 <= k < |names| ==> names[k] == names[1..][k - 1];
        Ok([rules[names[0]]] + tail)
  }

  /** `requestShader`: the base program must be registered (else a lookup
      error naming it); the default rules for the requested kind of object
      come first, then the caller's rules, in order. */
  function RequestShader(e: Engine, programName: string, customRules: seq<string>, defaultRules: seq<string>): (r: Result<ResolvedShader, Error>)
    ensures programName !in e.programs ==> r == Err(LookupError(programName))
    ensures r.Ok? <==> programName in e.programs && forall k :: 0 <= k < |defaultRules + customRules| ==> (defaultRules + customRules)[k] in e.rules
    ensures r.Ok? ==> r.value.stages == e.programs[programName]
    ensures r.Ok? ==> |r.value.rules| == |defaultRules| + |customRules|
    ensures r.Ok? ==> forall k :: 0 <= k < |defaultRules| ==> defaultRules[k] in e.rules && r.value.rules[k] == e.rules[defaultRules[k]]
    ensures r.Ok? ==> forall k :: 0 <= k < |customRules| ==>
                        customRules[k] in e.rules && r.value.rules[|defaultRules| + k] == e.rules[customRules[k]]
    ensures r.Err? && programName in e.programs ==> exists n :: n in defaultRules + customRules && n !in e.rules && r.error == LookupError(n)
  {
    if programName !in e.programs then Err(LookupError(programName))
    else
      var full := defaultRules + customRules;
      match ResolveRules(e.rules, full)
      case Err(err) =>
        assert forall k :: 0 <= k < |full| ==> full[k] in full;
        Err(err)
      case Ok(rs) =>
        assert forall k :: 0 <= k < |defaultRules| ==> full[k] == defaultRules[k];
        assert forall k :: 0 <= k < |customRules| ==> full[|defaultRules| + k] == customRules[k];
        Ok(ResolvedShader(e.programs[programName], rs))
  }

  /** Registering more programs or rules never changes the answer to a
      request that already succeeded: existing entries are never replaced. */
  lemma RegisterKeepsResolvedRequests(e: Engine, programName: string, customRules: seq<string>, defaultRules: seq<string>,
                                      newProgram: string, stages: seq<ShaderStageSpec>, newRule: string, rule: ShaderReplacementRule)
    requires RequestShader(e, programName, customRules, defaultRules).Ok?
    ensures var e' := RegisterShaderRule(RegisterShaderProgram(e, newProgram, stages), newRule, rule);
      RequestShader(e', programName, customRules, defaultRules) == RequestShader(e, programName, customRules, defaultRules)
  {
    var e' := RegisterShaderRule(RegisterShaderProgram(e, newProgram, stages), newRule, rule);
    var full := defaultRules + customRules;
    assert forall k :: 0 <= k < |full| ==> full[k] in e.rules && e'.rules[full[k]] == e.rules[full[k]];
    var a := RequestShader(e', programName, customRules, defaultRules).value;
    var b := RequestShader(e, programName, customRules, defaultRules).value;
    assert a.rules == b.rules by {
      assert |a.rules| == |b.rules|;
      forall k | 0 <= k < |a.rules| ensures a.rules[k] == b.rules[k] {
        if k < |defaultRules| {
          assert full[k] == defaultRules[k];
        } else {
          assert full[k] == customRules[k - |defaultRules|];
        }
      }
    }
  }

  /** After registering a program and a rule under fresh names, requesting
      that program with that rule resolves to exactly them. */
  lemma RequestAfterRegister(e: Engine, programName: string, stages: seq<ShaderStageSpec>, ruleName: string, rule: ShaderReplacementRule)
    requires programName !in e.programs && ruleName !in e.rules
    ensures var e' := RegisterShaderRule(RegisterShaderProgram(e, programName, stages), ruleName, rule);
      RequestShader(e', programName, [ruleName], []) == Ok(ResolvedShader(stages, [rule]))
  {
    var e' := RegisterShaderRule(RegisterShaderProgram(e, programName, stages), ruleName, rule);
    assert [] + [ruleName] == [ruleName];
    var r := RequestShader(e', programName, [ruleName], []);
    assert r.Ok?;
    assert r.value.rules == [rule];
  }

  /** An unregistered rule name makes the request fail with a lookup error
      naming it, even when the program is registered. */
  lemma UnknownRuleFails(e: Engine, programName: string, ruleName: string)
    requires programName in e.programs && ruleName !in e.rules
    ensures RequestShader(e, programName, [ruleName], []) == Err(LookupError(ruleName))
  {
  }
}

=== FILE: shader_program.dfy ===
/** The binding table of a compiled shader program (GLShaderProgram): named
    uniforms, attributes and textures, each with a resolved location, where
    location -1 means the compiler optimized the slot away.

    Compilation and the GL calls are not modelled; the locations the
    compiler resolves are parameters of construction. */
module ShaderPrograms {
  import opened Results
  import opened AttributeBuffers
  import opened NamedTables

  datatype DrawMode = Points | Lines | Triangles | IndexedTriangles

  datatype ShaderStageType = VertexStage | GeometryStage | FragmentStage

  datatype UniformSpec = UniformSpec(name: string, dataType: RenderDataType)
  datatype AttributeSpec = AttributeSpec(name: string, dataType: RenderDataType, arrayCount: int)
  datatype TextureSpec = TextureSpec(name: string, dim: int)

  /** One shader stage: its declared slots and its source text. */
  datatype ShaderStageSpec = ShaderStageSpec(
    stage: ShaderStageType,
    uniforms: seq<UniformSpec>,
    attributes: seq<AttributeSpec>,
    textures: seq<TextureSpec>,
    src: string)

  /** Location -1: "no location", usually because the slot was optimized out. */
  const NoLocation: int := -1

  datatype Uniform = Uniform(name: string, dataType: RenderDataType, isSet: bool, location: int)

  datatype Attribute = Attribute(
    name: string,
    dataType: RenderDataType,
    arrayCount: int,
    location: int,
    buff: Option<BufferId>)

  /** `textureBufferOwned` is empty when the bound texture is not owned by the program. */
  datatype Texture = Texture(
    name: string,
    dim: int,
    index: nat,
    isSet: bool,
    textureBuffer: Option<TextureId>,
    textureBufferOwned: Option<TextureId>,
    location: int)

  datatype ShaderProgram = ShaderProgram(
    drawMode: DrawMode,
    uniforms: seq<Uniform>,
    attributes: seq<Attribute>,
    textures: seq<Texture>)

  function UniformName(u: Uniform): string { u.name }
  function AttributeName(a: Attribute): string { a.name }
  function TextureName(t: Texture): string { t.name }

  /** Each uniform, attribute and texture name occurs at most once in its table. */
  ghost predicate Valid(p: ShaderProgram) {
    && UniqueNames(p.uniforms, UniformName)
    && UniqueNames(p.attributes, AttributeName)
    && UniqueNames(p.textures, TextureName)
  }

  // === Construction: collect the declared slots of every stage

  /** `addUniqueUniform`: a name already present is kept (its second
      declaration must agree on the type); a new name is appended unset and
      without a location. */
  function AddUniqueUniform(us: seq<Uniform>, spec: UniformSpec): (r: Result<seq<Uniform>, Error>)
    ensures UniqueNames(us, UniformName) && r.Ok? ==> UniqueNames(r.value, UniformName)
    ensures r.Ok? ==> exists i :: 0 <= i < |r.value| && r.value[i].name == spec.name && r.value[i].dataType == spec.dataType
    ensures r.Ok? ==> us <= r.value && |r.value| <= |us| + 1
    ensures r.Ok? && |r.value| == |us| + 1 ==> r.value[|us|] == Uniform(spec.name, spec.dataType, false, NoLocation)
    ensures r.Ok? ==> forall i :: |us| <= i < |r.value| ==> !r.value[i].isSet && r.value[i].location == NoLocation
    ensures r.Err? <==> exists i :: 0 <= i < |us| && us[i].name == spec.name && us[i].dataType != spec.dataType && Find(us, spec.name, UniformName) == Some(i)
  {
    match Find(us, spec.name, UniformName)
    case Some(i) =>
      if us[i].dataType == spec.dataType then Ok(us) else Err(TypeMismatch(us[i].dataType, spec.dataType))
    case None =>
      var slot := Uniform(spec.name, spec.dataType, false, NoLocation);
      assert UniqueNames(us, UniformName) ==> UniqueNames(us + [slot], UniformName) by {
        if UniqueNames(us, UniformName) { AppendKeepsUnique(us, slot, UniformName); }
      }
      assert (us + [slot])[|us|] == slot;
      Ok(us + [slot])
  }

  /** `addUniqueAttribute`: as for uniforms; a new attribute has no buffer. */
  function AddUniqueAttribute(as_: seq<Attribute>, spec: AttributeSpec): (r: Result<seq<Attribute>, Error>)
    ensures UniqueNames(as_, AttributeName) && r.Ok? ==> UniqueNames(r.value, AttributeName)
    ensures r.Ok? ==> exists i :: 0 <= i < |r.value| && r.value[i].name == spec.name && r.value[i].dataType == spec.dataType
    ensures r.Ok? ==> as_ <= r.value && |r.value| <= |as_| + 1
    ensures r.Ok? && |r.value| == |as_| + 1 ==> r.value[|as_|] == Attribute(spec.name, spec.dataType, spec.arrayCount, NoLocation, None)
    ensures r.Ok? ==> forall i :: |as_| <= i < |r.value| ==> r.value[i].buff.None? && r.value[i].location == NoLocation
    ensures r.Err? <==> exists i :: 0 <= i < |as_| && as_[i].name == spec.name && as_[i].dataType != spec.dataType && Find(as_, spec.name, AttributeName) == Some(i)
  {
    match Find(as_, spec.name, AttributeName)
    case Some(i) =>
      if as_[i].dataType == spec.dataType then Ok(as_) else Err(TypeMismatch(as_[i].dataType, spec.dataType))
    case None =>
      var slot := Attribute(spec.name, spec.dataType, spec.arrayCount, NoLocation, None);
      assert UniqueNames(as_, AttributeName) ==> UniqueNames(as_ + [slot], AttributeName) by {
        if UniqueNames(as_, AttributeName) { AppendKeepsUnique(as_, slot, AttributeName); }
      }
      assert (as_ + [slot])[|as_|] == slot;
      Ok(as_ + [slot])
  }

  /** `addUniqueTexture`: as for uniforms, agreeing on the dimension; a new
      texture takes the next texture unit and is bound to nothing. */
  function AddUniqueTexture(ts: seq<Texture>, spec: TextureSpec): (r: Result<seq<Texture>, Error>)
    ensures UniqueNames(ts, TextureName) && r.Ok? ==> UniqueNames(r.value, TextureName)
    ensures r.Ok? ==> exists i :: 0 <= i < |r.value| && r.value[i].name == spec.name && r.value[i].dim == spec.dim
    ensures r.Ok? ==> ts <= r.value && |r.value| <= |ts| + 1
    ensures r.Ok? && |r.value| == |ts| + 1 ==> r.value[|ts|] == Texture(spec.name, spec.dim, |ts|, false, None, None, NoLocation)
    ensures r.Ok? ==> forall i :: |ts| <= i < |r.value| ==> !r.value[i].isSet && r.value[i].location == NoLocation
    ensures r.Err? <==> exists i :: 0 <= i < |ts| && ts[i].name == spec.name && ts[i].dim != spec.dim && Find(ts, spec.name, TextureName) == Some(i)
  {
    match Find(ts, spec.name, TextureName)
    case Some(i) =>
      if ts[i].dim == spec.dim then Ok(ts) else Err(DimensionMismatch(ts[i].dim, spec.dim))
    case None =>
      var slot := Texture(spec.name, spec.dim, |ts|, false, None, None, NoLocation);
      assert UniqueNames(ts, TextureName) ==> UniqueNames(ts + [slot], TextureName) by {
        if UniqueNames(ts, TextureName) { AppendKeepsUnique(ts, slot, TextureName); }
      }
      assert (ts + [slot])[|ts|] == slot;
      Ok(ts + [slot])
  }

  /** Adds the declared uniforms of one stage in order; every declared name
      ends up in the table, and no slot is unset or bound by it. */
  function AddUniforms(us: seq<Uniform>, specs: seq<UniformSpec>): (r: Result<seq<Uniform>, Error>)
    ensures UniqueNames(us, UniformName) && r.Ok? ==> UniqueNames(r.value, UniformName)
    ensures r.Ok? ==> us <= r.value
    ensures r.Ok? ==> forall k :: 0 <= k < |specs| ==> Find(r.value, specs[k].name, UniformName).Some?
    ensures r.Ok? ==> forall i :: |us| <= i < |r.value| ==> !r.value[i].isSet && r.value[i].location == NoLocation
    decreases |specs|
  {
    if |specs| == 0 then Ok(us)
    else match AddUniqueUniform(us, specs[0])
      case Err(e) => Err(e)
      case Ok(us1) =>
        var r := AddUniforms(us1, specs[1..]);
        if r.Ok? then
          assert Find(us1, specs[0].name, UniformName).Some?;
          PrefixKeepsFound(us1, r.value, specs[0].name, UniformName);
          assert forall k :: 1 <= k < |specs| ==> specs[k] == specs[1..][k - 1];
          r
        else r
  }

  function AddAttributes(as_: seq<Attribute>, specs: seq<AttributeSpec>): (r: Result<seq<Attribute>, Error>)
    ensures UniqueNames(as_, AttributeName) && r.Ok? ==> UniqueNames(r.value, AttributeName)
    ensures r.Ok? ==> as_ <= r.value
    ensures r.Ok? ==> forall k :: 0 <= k < |specs| ==> Find(r.value, specs[k].name, AttributeName).Some?
    ensures r.Ok? ==> forall i :: |as_| <= i < |r.value| ==> r.value[i].buff.None? && r.value[i].location == NoLocation
    decreases |specs|
  {
    if |specs| == 0 then Ok(as_)
    else match AddUniqueAttribute(as_, specs[0])
      case Err(e) => Err(e)
      case Ok(as1) =>
        var r := AddAttributes(as1, specs[1..]);
        if r.Ok? then
          assert Find(as1, specs[0].name, AttributeName).Some?;
          PrefixKeepsFound(as1, r.value, specs[0].name, AttributeName);
          assert forall k :: 1 <= k < |specs| ==> specs[k] == specs[1..][k - 1];
          r
        else r
  }

  function AddTextures(ts: seq<Texture>, specs: seq<TextureSpec>): (r: Result<seq<Texture>, Error>)
    ensures UniqueNames(ts, TextureName) && r.Ok? ==> UniqueNames(r.value, TextureName)
    ensures r.Ok? ==> ts <= r.value
    ensures r.Ok? ==> forall k :: 0 <= k < |specs| ==> Find(r.value, specs[k].name, TextureName).Some?
    ensures r.Ok? ==> forall i :: |ts| <= i < |r.value| ==> !r.value[i].isSet && r.value[i].location == NoLocation
    decreases |specs|
  {
    if |specs| == 0 then Ok(ts)
    else match AddUniqueTexture(ts, specs[0])
      case Err(e) => Err(e)
      case Ok(ts1) =>
        var r := AddTextures(ts1, specs[1..]);
        if r.Ok? then
          assert Find(ts1, specs[0].name, TextureName).Some?;
          PrefixKeepsFound(ts1, r.value, specs[0].name, TextureName);
          assert forall k :: 1 <= k < |specs| ==> specs[k] == specs[1..][k - 1];
          r
        else r
  }

  /** A name found in a table is still found once the table is extended. */
  lemma PrefixKeepsFound<T>(s: seq<T>, t: seq<T>, key: string, nameOf: T -> string)
    requires s <= t && Find(s, key, nameOf).Some?
    ensures Find(t, key, nameOf).Some?
  {
  }

  /** Every slot `st` declares is in the tables. */
  ghost predicate StageDeclared(p: ShaderProgram, st: ShaderStageSpec) {
    && (forall k :: 0 <= k < |st.uniforms| ==> Find(p.uniforms, st.uniforms[k].name, UniformName).Some?)
    && (forall k :: 0 <= k < |st.attributes| ==> Find(p.attributes, st.attributes[k].name, AttributeName).Some?)
    && (forall k :: 0 <= k < |st.textures| ==> Find(p.textures, st.textures[k].name, TextureName).Some?)
  }

  /** Every slot declared by some stage of `stages` is in the tables. */
  ghost predicate DeclaresAll(p: ShaderProgram, stages: seq<ShaderStageSpec>) {
    forall s :: 0 <= s < |stages| ==> StageDeclared(p, stages[s])
  }

  ghost predicate NothingBound(p: ShaderProgram) {
    && (forall i :: 0 <= i < |p.uniforms| ==> !p.uniforms[i].isSet)
    && (forall i :: 0 <= i < |p.attributes| ==> p.attributes[i].buff.None?)
    && (forall i :: 0 <= i < |p.textures| ==> !p.textures[i].isSet)
  }

  /** Extends(p, q): each table of `q` extends the one of `p`. */
  ghost predicate Extends(p: ShaderProgram, q: ShaderProgram) {
    p.uniforms <= q.uniforms && p.attributes <= q.attributes && p.textures <= q.textures
  }

  /** Adds the uniforms, then the attributes, then the textures one stage declares. */
  function AddStage(p: ShaderProgram, st: ShaderStageSpec): (r: Result<ShaderProgram, Error>)
    requires Valid(p) && NothingBound(p)
    ensures r.Ok? ==> Valid(r.value) && NothingBound(r.value) && r.value.drawMode == p.drawMode
    ensures r.Ok? ==> Extends(p, r.value) && StageDeclared(r.value, st)
  {
    match AddUniforms(p.uniforms, st.uniforms)
    case Err(e) => Err(e)
    case Ok(us) =>
      match AddAttributes(p.attributes, st.attributes)
      case Err(e) => Err(e)
      case Ok(as_) =>
        match AddTextures(p.textures, st.textures)
        case Err(e) => Err(e)
        case Ok(ts) => Ok(ShaderProgram(p.drawMode, us, as_, ts))
  }

  /** What a stage declared stays declared when the tables are extended. */
  lemma ExtendKeepsDeclared(p: ShaderProgram, q: ShaderProgram, st: ShaderStageSpec)
    requires Extends(p, q) && StageDeclared(p, st)
    ensures StageDeclared(q, st)
  {
  }

  /** Collects the slots of the stages in order (uniforms, then attributes,
      then textures of each stage). */
  function CollectSlots(p: ShaderProgram, stages: seq<ShaderStageSpec>): (r: Result<ShaderProgram, Error>)
    requires Valid(p) && NothingBound(p)
    ensures r.Ok? ==> Valid(r.value) && NothingBound(r.value) && DeclaresAll(r.value, stages)
    ensures r.Ok? ==> r.value.drawMode == p.drawMode && Extends(p, r.value)
    decreases |stages|
  {
    if |stages| == 0 then Ok(p)
    else match AddStage(p, stages[0])
      case Err(e) => Err(e)
      case Ok(p1) =>
        var r := CollectSlots(p1, stages[1..]);
        if r.Ok? then
          ExtendKeepsDeclared(p1, r.value, stages[0]);
          assert forall s :: 1 <= s < |stages| ==> stages[s] == stages[1..][s - 1];
          r
        else r
  }

  // === The names the tables hold

  function UniformSpecName(u: UniformSpec): string { u.name }
  function AttributeSpecName(a: AttributeSpec): string { a.name }
  function TextureSpecName(t: TextureSpec): string { t.name }

  /** The uniform, attribute and texture names declared by some stage. */
  function DeclaredUniforms(stages: seq<ShaderStageSpec>): set<string>
    decreases |stages|
  {
    if |stages| == 0 then {} else Names(stages[0].uniforms, UniformSpecName) + DeclaredUniforms(stages[1..])
  }

  function DeclaredAttributes(stages: seq<ShaderStageSpec>): set<string>
    decreases |stages|
  {
    if |stages| == 0 then {} else Names(stages[0].attributes, AttributeSpecName) + DeclaredAttributes(stages[1..])
  }

  function DeclaredTextures(stages: seq<ShaderStageSpec>): set<string>
    decreases |stages|
  {
    if |stages| == 0 then {} else Names(stages[0].textures, TextureSpecName) + DeclaredTextures(stages[1..])
  }

  lemma AddUniqueUniformNames(us: seq<Uniform>, spec: UniformSpec)
    requires AddUniqueUniform(us, spec).Ok?
    ensures Names(AddUniqueUniform(us, spec).value, UniformName) == Names(us, UniformName) + {spec.name}
  {
    NamesHaveSlots(us, spec.name, UniformName);
    if Find(us, spec.name, UniformName).None? {
      NamesAppend(us, Uniform(spec.name, spec.dataType, false, NoLocation), UniformName);
    }
  }

  lemma AddUniqueAttributeNames(as_: seq<Attribute>, spec: AttributeSpec)
    requires AddUniqueAttribute(as_, spec).Ok?
    ensures Names(AddUniqueAttribute(as_, spec).value, AttributeName) == Names(as_, AttributeName) + {spec.name}
  {
    NamesHaveSlots(as_, spec.name, AttributeName);
    if Find(as_, spec.name, AttributeName).None? {
      NamesAppend(as_, Attribute(spec.name, spec.dataType, spec.arrayCount, NoLocation, None), AttributeName);
    }
  }

  lemma AddUniqueTextureNames(ts: seq<Texture>, spec: TextureSpec)
    requires AddUniqueTexture(ts, spec).Ok?
    ensures Names(AddUniqueTexture(ts, spec).value, TextureName) == Names(ts, TextureName) + {spec.name}
  {
    NamesHaveSlots(ts, spec.name, TextureName);
    if Find(ts, spec.name, TextureName).None? {
      NamesAppend(ts, Texture(spec.name, spec.dim, |ts|, false, None, None, NoLocation), TextureName);
    }
  }

  /** Adding a stage's declarations adds exactly their names. */
  lemma {:induction false} AddUniformsNames(us: seq<Uniform>, specs: seq<UniformSpec>)
    requires AddUniforms(us, specs).Ok?
    ensures Names(AddUniforms(us, specs).value, UniformName) == Names(us, UniformName) + Names(specs, UniformSpecName)
    decreases |specs|
  {
    if |specs| > 0 {
      AddUniqueUniformNames(us, specs[0]);
      AddUniformsNames(AddUniqueUniform(us, specs[0]).value, specs[1..]);
    }
  }

  lemma {:induction false} AddAttributesNames(as_: seq<Attribute>, specs: seq<AttributeSpec>)
    requires AddAttributes(as_, specs).Ok?
    ensures Names(AddAttributes(as_, specs).value, AttributeName) == Names(as_, AttributeName) + Names(specs, AttributeSpecName)
    decreases |specs|
  {
    if |specs| > 0 {
      AddUniqueAttributeNames(as_, specs[0]);
      AddAttributesNames(AddUniqueAttribute(as_, specs[0]).value, specs[1..]);
    }
  }

  lemma {:induction false} AddTexturesNames(ts: seq<Texture>, specs: seq<TextureSpec>)
    requires AddTextures(ts, specs).Ok?
    ensures Names(AddTextures(ts, specs).value, TextureName) == Names(ts, TextureName) + Names(specs, TextureSpecName)
    decreases |specs|
  {
    if |specs| > 0 {
      AddUniqueTextureNames(ts, specs[0]);
      AddTexturesNames(AddUniqueTexture(ts, specs[0]).value, specs[1..]);
    }
  }

  /** The tables of `q` hold the names of those of `p` and the names
      `stages` declare, and nothing else. */
  ghost predicate NamesExtended(p: ShaderProgram, q: ShaderProgram, stages: seq<ShaderStageSpec>) {
    && Names(q.uniforms, UniformName) == Names(p.uniforms, UniformName) + DeclaredUniforms(stages)
    && Names(q.attributes, AttributeName) == Names(p.attributes, AttributeName) + DeclaredAttributes(stages)
    && Names(q.textures, TextureName) == Names(p.textures, TextureName) + DeclaredTextures(stages)
  }

  lemma AddStageNames(p: ShaderProgram, st: ShaderStageSpec)
    requires Valid(p) && NothingBound(p) && AddStage(p, st).Ok?
    ensures NamesExtended(p, AddStage(p, st).value, [st])
  {
    AddUniformsNames(p.uniforms, st.uniforms);
    AddAttributesNames(p.attributes, st.attributes);
    AddTexturesNames(p.textures, st.textures);
    assert [st][1..] == [];
  }

  lemma DeclaredSplit(stages: seq<ShaderStageSpec>)
    requires |stages| > 0
    ensures DeclaredUniforms(stages) == DeclaredUniforms([stages[0]]) + DeclaredUniforms(stages[1..])
    ensures DeclaredAttributes(stages) == DeclaredAttributes([stages[0]]) + DeclaredAttributes(stages[1..])
    ensures DeclaredTextures(stages) == DeclaredTextures([stages[0]]) + DeclaredTextures(stages[1..])
  {
    assert [stages[0]][1..] == [];
  }

  /** Collecting the slots of the stages adds exactly the declared names. */
  lemma {:induction false} CollectSlotsNames(p: ShaderProgram, stages: seq<ShaderStageSpec>)
    requires Valid(p) && NothingBound(p) && CollectSlots(p, stages).Ok?
    ensures NamesExtended(p, CollectSlots(p, stages).value, stages)
    decreases |stages|
  {
    if |stages| > 0 {
      var p1 := AddStage(p, stages[0]).value;
      AddStageNames(p, stages[0]);
      CollectSlotsNames(p1, stages[1..]);
      assert CollectSlots(p, stages) == CollectSlots(p1, stages[1..]);
      DeclaredSplit(stages);
    }
  }

  // === When construction succeeds

  function UniformType(u: Uniform): RenderDataType { u.dataType }
  function UniformSpecType(u: UniformSpec): RenderDataType { u.dataType }
  function AttributeType(a: Attribute): RenderDataType { a.dataType }
  function AttributeSpecType(a: AttributeSpec): RenderDataType { a.dataType }
  function TextureDim(t: Texture): int { t.dim }
  function TextureSpecDim(t: TextureSpec): int { t.dim }

  /** AddUniforms(tbl, specs) succeeds exactly when: every declaration fits
      the slot already in the table, and the declarations agree among themselves. */
  ghost predicate UniformsAgree(tbl: seq<Uniform>, specs: seq<UniformSpec>) {
    AllFit(tbl, specs, UniformName, UniformType, UniformSpecName, UniformSpecType)
  }

  /** After `s0` is added, a later declaration fits when it fitted
      before and agrees with `s0` if it has the same name. */
  lemma AddUniqueUniformFits(tbl: seq<Uniform>, s0: UniformSpec, sp: UniformSpec)
    requires AddUniqueUniform(tbl, s0).Ok?
    ensures Fits(AddUniqueUniform(tbl, s0).value, UniformSpecName(sp), UniformSpecType(sp), UniformName, UniformType) <==>
      Fits(tbl, UniformSpecName(sp), UniformSpecType(sp), UniformName, UniformType) && (UniformSpecName(sp) == UniformSpecName(s0) ==> UniformSpecType(sp) == UniformSpecType(s0))
  {
    if Find(tbl, s0.name, UniformName).None? {
      AppendFits(tbl, Uniform(s0.name, s0.dataType, false, NoLocation), sp.name, sp.dataType, UniformName, UniformType);
    }
  }

  lemma {:induction false} AddUniformsOkIff(tbl: seq<Uniform>, specs: seq<UniformSpec>)
    ensures AddUniforms(tbl, specs).Ok? <==> UniformsAgree(tbl, specs)
    decreases |specs|
  {
    if |specs| > 0 {
      var s0 := specs[0];
      if AddUniqueUniform(tbl, s0).Err? {
        assert !Fits(tbl, UniformSpecName(s0), UniformSpecType(s0), UniformName, UniformType);
      } else {
        var tbl1 := AddUniqueUniform(tbl, s0).value;
        assert Fits(tbl, UniformSpecName(s0), UniformSpecType(s0), UniformName, UniformType);
        forall k | 1 <= k < |specs|
          ensures Fits(tbl1, UniformSpecName(specs[k]), UniformSpecType(specs[k]), UniformName, UniformType) <==>
            Fits(tbl, UniformSpecName(specs[k]), UniformSpecType(specs[k]), UniformName, UniformType)
            && (UniformSpecName(specs[k]) == UniformSpecName(s0) ==> UniformSpecType(specs[k]) == UniformSpecType(s0))
        {
          AddUniqueUniformFits(tbl, s0, specs[k]);
        }
        AllFitCons(tbl, tbl1, specs, UniformName, UniformType, UniformSpecName, UniformSpecType);
        AddUniformsOkIff(tbl1, specs[1..]);
      }
    }
  }

  /** Adding `a + b` is adding `a`, then `b` to the result. */
  lemma {:induction false} AddUniformsAppend(tbl: seq<Uniform>, a: seq<UniformSpec>, b: seq<UniformSpec>)
    ensures AddUniforms(tbl, a + b) == match AddUniforms(tbl, a) case Err(e) => Err(e) case Ok(t) => AddUniforms(t, b)
    decreases |a|
  {
    if |a| == 0 {
      assert a + b == b;
    } else {
      assert (a + b)[0] == a[0] && (a + b)[1..] == a[1..] + b;
      if AddUniqueUniform(tbl, a[0]).Ok? {
        AddUniformsAppend(AddUniqueUniform(tbl, a[0]).value, a[1..], b);
      }
    }
  }

  /** The uniforms the stages declare, stage by stage, in declaration order. */
  function AllUniformSpecs(stages: seq<ShaderStageSpec>): seq<UniformSpec>
    decreases |stages|
  {
    if |stages| == 0 then [] else stages[0].uniforms + AllUniformSpecs(stages[1..])
  }

  /** AddAttributes(tbl, specs) succeeds exactly when: every declaration fits
      the slot already in the table, and the declarations agree among themselves. */
  ghost predicate AttributesAgree(tbl: seq<Attribute>, specs: seq<AttributeSpec>) {
    AllFit(tbl, specs, AttributeName, AttributeType, AttributeSpecName, AttributeSpecType)
  }

  /** After `s0` is added, a later declaration fits when it fitted
      before and agrees with `s0` if it has the same name. */
  lemma AddUniqueAttributeFits(tbl: seq<Attribute>, s0: AttributeSpec, sp: AttributeSpec)
    requires AddUniqueAttribute(tbl, s0).Ok?
    ensures Fits(AddUniqueAttribute(tbl, s0).value, AttributeSpecName(sp), AttributeSpecType(sp), AttributeName, AttributeType) <==>
      Fits(tbl, AttributeSpecName(sp), AttributeSpecType(sp), AttributeName, AttributeType) && (AttributeSpecName(sp) == AttributeSpecName(s0) ==> AttributeSpecType(sp) == AttributeSpecType(s0))
  {
    if Find(tbl, s0.name, AttributeName).None? {
      AppendFits(tbl, Attribute(s0.name, s0.dataType, s0.arrayCount, NoLocation, None), sp.name, sp.dataType, AttributeName, AttributeType);
    }
  }

  lemma {:induction false} AddAttributesOkIff(tbl: seq<Attribute>, specs: seq<AttributeSpec>)
    ensures AddAttributes(tbl, specs).Ok? <==> AttributesAgree(tbl, specs)
    decreases |specs|
  {
    if |specs| > 0 {
      var s0 := specs[0];
      if AddUniqueAttribute(tbl, s0).Err? {
        assert !Fits(tbl, AttributeSpecName(s0), AttributeSpecType(s0), AttributeName, AttributeType);
      } else {
        var tbl1 := AddUniqueAttribute(tbl, s0).value;
        assert Fits(tbl, AttributeSpecName(s0), AttributeSpecType(s0), AttributeName, AttributeType);
        forall k | 1 <= k < |specs|
          ensures Fits(tbl1, AttributeSpecName(specs[k]), AttributeSpecType(specs[k]), AttributeName, AttributeType) <==>
            Fits(tbl, AttributeSpecName(specs[k]), AttributeSpecType(specs[k]), AttributeName, AttributeType)
            && (AttributeSpecName(specs[k]) == AttributeSpecName(s0) ==> AttributeSpecType(specs[k]) == AttributeSpecType(s0))
        {
          AddUniqueAttributeFits(tbl, s0, specs[k]);
        }
        AllFitCons(tbl, tbl1, specs, AttributeName, AttributeType, AttributeSpecName, AttributeSpecType);
        AddAttributesOkIff(tbl1, specs[1..]);
      }
    }
  }

  /** Adding `a + b` is adding `a`, then `b` to the result. */
  lemma {:induction false} AddAttributesAppend(tbl: seq<Attribute>, a: seq<AttributeSpec>, b: seq<AttributeSpec>)
    ensures AddAttributes(tbl, a + b) == match AddAttributes(tbl, a) case Err(e) => Err(e) case Ok(t) => AddAttributes(t, b)
    decreases |a|
  {
    if |a| == 0 {
      assert a + b == b;
    } else {
      assert (a + b)[0] == a[0] && (a + b)[1..] == a[1..] + b;
      if AddUniqueAttribute(tbl, a[0]).Ok? {
        AddAttributesAppend(AddUniqueAttribute(tbl, a[0]).value, a[1..], b);
      }
    }
  }

  /** The attributes the stages declare, stage by stage, in declaration order. */
  function AllAttributeSpecs(stages: seq<ShaderStageSpec>): seq<AttributeSpec>
    decreases |stages|
  {
    if |stages| == 0 then [] else stages[0].attributes + AllAttributeSpecs(stages[1..])
  }

  /** AddTextures(tbl, specs) succeeds exactly when: every declaration fits
      the slot already in the table, and the declarations agree among themselves. */
  ghost predicate TexturesAgree(tbl: seq<Texture>, specs: seq<TextureSpec>) {
    AllFit(tbl, specs, TextureName, TextureDim, TextureSpecName, TextureSpecDim)
  }

  /** After `s0` is added, a later declaration fits when it fitted
      before and agrees with `s0` if it has the same name. */
  lemma AddUniqueTextureFits(tbl: seq<Texture>, s0: TextureSpec, sp: TextureSpec)
    requires AddUniqueTexture(tbl, s0).Ok?
    ensures Fits(AddUniqueTexture(tbl, s0).value, TextureSpecName(sp), TextureSpecDim(sp), TextureName, TextureDim) <==>
      Fits(tbl, TextureSpecName(sp), TextureSpecDim(sp), TextureName, TextureDim) && (TextureSpecName(sp) == TextureSpecName(s0) ==> TextureSpecDim(sp) == TextureSpecDim(s0))
  {
    if Find(tbl, s0.name, TextureName).None? {
      AppendFits(tbl, Texture(s0.name, s0.dim, |tbl|, false, None, None, NoLocation), sp.name, sp.dim, TextureName, TextureDim);
    }
  }

  lemma {:induction false} AddTexturesOkIff(tbl: seq<Texture>, specs: seq<TextureSpec>)
    ensures AddTextures(tbl, specs).Ok? <==> TexturesAgree(tbl, specs)
    decreases |specs|
  {
    if |specs| > 0 {
      var s0 := specs[0];
      if AddUniqueTexture(tbl, s0).Err? {
        assert !Fits(tbl, TextureSpecName(s0), TextureSpecDim(s0), TextureName, TextureDim);
      } else {
        var tbl1 := AddUniqueTexture(tbl, s0).value;
        assert Fits(tbl, TextureSpecName(s0), TextureSpecDim(s0), TextureName, TextureDim);
        forall k | 1 <= k < |specs|
          ensures Fits(tbl1, TextureSpecName(specs[k]), TextureSpecDim(specs[k]), TextureName, TextureDim) <==>
            Fits(tbl, TextureSpecName(specs[k]), TextureSpecDim(specs[k]), TextureName, TextureDim)
            && (TextureSpecName(specs[k]) == TextureSpecName(s0) ==> TextureSpecDim(specs[k]) == TextureSpecDim(s0))
        {
          AddUniqueTextureFits(tbl, s0, specs[k]);
        }
        AllFitCons(tbl, tbl1, specs, TextureName, TextureDim, TextureSpecName, TextureSpecDim);
        AddTexturesOkIff(tbl1, specs[1..]);
      }
    }
  }

  /** Adding `a + b` is adding `a`, then `b` to the result. */
  lemma {:induction false} AddTexturesAppend(tbl: seq<Texture>, a: seq<TextureSpec>, b: seq<TextureSpec>)
    ensures AddTextures(tbl, a + b) == match AddTextures(tbl, a) case Err(e) => Err(e) case Ok(t) => AddTextures(t, b)
    decreases |a|
  {
    if |a| == 0 {
      assert a + b == b;
    } else {
      assert (a + b)[0] == a[0] && (a + b)[1..] == a[1..] + b;
      if AddUniqueTexture(tbl, a[0]).Ok? {
        AddTexturesAppend(AddUniqueTexture(tbl, a[0]).value, a[1..], b);
      }
    }
  }

  /** The textures the stages declare, stage by stage, in declaration order. */
  function AllTextureSpecs(stages: seq<ShaderStageSpec>): seq<TextureSpec>
    decreases |stages|
  {
    if |stages| == 0 then [] else stages[0].textures + AllTextureSpecs(stages[1..])
  }

  /** Collecting the slots of the stages succeeds exactly when adding all
      their uniforms, all their attributes and all their textures does: the
      three tables are filled independently. */
  lemma {:induction false} CollectSlotsOkIff(p: ShaderProgram, stages: seq<ShaderStageSpec>)
    requires Valid(p) && NothingBound(p)
    ensures CollectSlots(p, stages).Ok? <==>
      && AddUniforms(p.uniforms, AllUniformSpecs(stages)).Ok?
      && AddAttributes(p.attributes, AllAttributeSpecs(stages)).Ok?
      && AddTextures(p.textures, AllTextureSpecs(stages)).Ok?
    decreases |stages|
  {
    if |stages| > 0 {
      var st := stages[0];
      AddUniformsAppend(p.uniforms, st.uniforms, AllUniformSpecs(stages[1..]));
      AddAttributesAppend(p.attributes, st.attributes, AllAttributeSpecs(stages[1..]));
      AddTexturesAppend(p.textures, st.textures, AllTextureSpecs(stages[1..]));
      if AddStage(p, st).Ok? {
        var p1 := AddStage(p, st).value;
        CollectSlotsOkIff(p1, stages[1..]);
        assert CollectSlots(p, stages) == CollectSlots(p1, stages[1..]);
      }
    }
  }

  /** Two stages (or one stage twice) declare the same uniform or attribute
      name with different types, or the same texture name with different
      dimensions. */
  ghost predicate Conflicting(stages: seq<ShaderStageSpec>) {
    || !Agree(AllUniformSpecs(stages), UniformSpecName, UniformSpecType)
    || !Agree(AllAttributeSpecs(stages), AttributeSpecName, AttributeSpecType)
    || !Agree(AllTextureSpecs(stages), TextureSpecName, TextureSpecDim)
  }

  /** Starting from empty tables, collecting fails exactly on a conflicting
      redeclaration. */
  lemma BuildsUnlessConflicting(empty: ShaderProgram, stages: seq<ShaderStageSpec>)
    requires empty.uniforms == [] && empty.attributes == [] && empty.textures == []
    ensures CollectSlots(empty, stages).Err? <==> Conflicting(stages)
  {
    CollectSlotsOkIff(empty, stages);
    AddUniformsOkIff([], AllUniformSpecs(stages));
    AddAttributesOkIff([], AllAttributeSpecs(stages));
    AddTexturesOkIff([], AllTextureSpecs(stages));
  }

  function Locate(locs: map<string, nat>, name: string): (l: int)
    ensures l == NoLocation <==> name !in locs
  {
    if name in locs then locs[name] else NoLocation
  }

  /** `setDataLocations`: records the location the compiler resolved for
      each slot, or -1 when the slot was optimized out; slots stay in the
      table either way. Texture samplers resolve as uniforms. */
  function SetDataLocations(p: ShaderProgram, uniformLocs: map<string, nat>, attribLocs: map<string, nat>): (r: ShaderProgram)
    ensures |r.uniforms| == |p.uniforms| && |r.attributes| == |p.attributes| && |r.textures| == |p.textures|
    ensures r.drawMode == p.drawMode
    ensures forall i :: 0 <= i < |p.uniforms| ==> r.uniforms[i] == p.uniforms[i].(location := Locate(uniformLocs, p.uniforms[i].name))
    ensures forall i :: 0 <= i < |p.attributes| ==> r.attributes[i] == p.attributes[i].(location := Locate(attribLocs, p.attributes[i].name))
    ensures forall i :: 0 <= i < |p.textures| ==> r.textures[i] == p.textures[i].(location := Locate(uniformLocs, p.textures[i].name))
  {
    ShaderProgram(
      p.drawMode,
      seq(|p.uniforms|, i requires 0 <= i < |p.uniforms| => p.uniforms[i].(location := Locate(uniformLocs, p.uniforms[i].name))),
      seq(|p.attributes|, i requires 0 <= i < |p.attributes| => p.attributes[i].(location := Locate(attribLocs, p.attributes[i].name))),
      seq(|p.textures|, i requires 0 <= i < |p.textures| => p.textures[i].(location := Locate(uniformLocs, p.textures[i].name))))
  }

  lemma SetDataLocationsKeepsTables(p: ShaderProgram, uniformLocs: map<string, nat>, attribLocs: map<string, nat>)
    requires Valid(p) && NothingBound(p)
    ensures var r := SetDataLocations(p, uniformLocs, attribLocs);
      Valid(r) && NothingBound(r)
      && forall key :: Find(r.uniforms, key, UniformName).Some? == Find(p.uniforms, key, UniformName).Some?
                    && Find(r.attributes, key, AttributeName).Some? == Find(p.attributes, key, AttributeName).Some?
                    && Find(r.textures, key, TextureName).Some? == Find(p.textures, key, TextureName).Some?
  {
  }

  /** Every slot carries the location resolved for its name, -1 when none
      was; texture samplers resolve as uniforms. */
  ghost predicate LocationsResolved(p: ShaderProgram, uniformLocs: map<string, nat>, attribLocs: map<string, nat>) {
    && (forall i :: 0 <= i < |p.uniforms| ==> p.uniforms[i].location == Locate(uniformLocs, p.uniforms[i].name))
    && (forall i :: 0 <= i < |p.attributes| ==> p.attributes[i].location == Locate(attribLocs, p.attributes[i].name))
    && (forall i :: 0 <= i < |p.textures| ==> p.textures[i].location == Locate(uniformLocs, p.textures[i].name))
  }

  /** The tables hold exactly the names some stage declares. */
  ghost predicate DeclaredExactly(p: ShaderProgram, stages: seq<ShaderStageSpec>) {
    && Names(p.uniforms, UniformName) == DeclaredUniforms(stages)
    && Names(p.attributes, AttributeName) == DeclaredAttributes(stages)
    && Names(p.textures, TextureName) == DeclaredTextures(stages)
  }

  /** Resolving locations neither adds nor removes a name. */
  lemma SetDataLocationsKeepsNames(p: ShaderProgram, uniformLocs: map<string, nat>, attribLocs: map<string, nat>)
    ensures var r := SetDataLocations(p, uniformLocs, attribLocs);
      && Names(r.uniforms, UniformName) == Names(p.uniforms, UniformName)
      && Names(r.attributes, AttributeName) == Names(p.attributes, AttributeName)
      && Names(r.textures, TextureName) == Names(p.textures, TextureName)
      && LocationsResolved(r, uniformLocs, attribLocs)
  {
    var r := SetDataLocations(p, uniformLocs, attribLocs);
    NamesDependOnNames(r.uniforms, p.uniforms, UniformName);
    NamesDependOnNames(r.attributes, p.attributes, AttributeName);
    NamesDependOnNames(r.textures, p.textures, TextureName);
  }

  /** The constructor: collects the declared slots of every stage, then
      resolves their locations. The resulting tables hold exactly the
      declared names, each once, with its resolved location and nothing set
      or bound. Construction fails exactly when some name is declared twice
      with different types (or, for textures, dimensions). */
  function NewProgram(stages: seq<ShaderStageSpec>, dm: DrawMode, uniformLocs: map<string, nat>, attribLocs: map<string, nat>): (r: Result<ShaderProgram, Error>)
    ensures r.Ok? ==> Valid(r.value) && NothingBound(r.value) && DeclaresAll(r.value, stages)
    ensures r.Ok? ==> DeclaredExactly(r.value, stages) && LocationsResolved(r.value, uniformLocs, attribLocs)
    ensures r.Ok? ==> r.value.drawMode == dm
    ensures r.Err? <==> Conflicting(stages)
  {
    var empty := ShaderProgram(dm, [], [], []);
    BuildsUnlessConflicting(empty, stages);
    match CollectSlots(empty, stages)
    case Err(e) => Err(e)
    case Ok(p) =>
      ResolvedTables(empty, stages, uniformLocs, attribLocs);
      Ok(SetDataLocations(p, uniformLocs, attribLocs))
  }

  lemma ResolvedTables(empty: ShaderProgram, stages: seq<ShaderStageSpec>, uniformLocs: map<string, nat>, attribLocs: map<string, nat>)
    requires empty.uniforms == [] && empty.attributes == [] && empty.textures == []
    requires CollectSlots(empty, stages).Ok?
    ensures var r := SetDataLocations(CollectSlots(empty, stages).value, uniformLocs, attribLocs);
      && Valid(r) && NothingBound(r) && DeclaresAll(r, stages) && r.drawMode == empty.drawMode
      && DeclaredExactly(r, stages) && LocationsResolved(r, uniformLocs, attribLocs)
  {
    var p := CollectSlots(empty, stages).value;
    var r := SetDataLocations(p, uniformLocs, attribLocs);
    SetDataLocationsKeepsTables(p, uniformLocs, attribLocs);
    CollectSlotsNames(empty, stages);
    SetDataLocationsKeepsNames(p, uniformLocs, attribLocs);
    assert DeclaresAll(r, stages) by {
      forall s | 0 <= s < |stages| ensures StageDeclared(r, stages[s]) {
        assert StageDeclared(p, stages[s]);
      }
    }
  }

  // === Uniforms

  /** The value overloads of `setUniform`; the values themselves live on the GPU. */
  datatype UniformArg =
    | IntArg | UIntArg | FloatArg | DoubleArg | FloatPtrArg
    | Vec2Arg | Vec3Arg | Vec4Arg | Array3Arg | Float4Arg

  /** The declared uniform type each overload sets. A double is cast down
      to a float; a `float*` is a 4x4 matrix; `(x, y, z, w)` is a vec4. */
  function UniformArgType(a: UniformArg): RenderDataType {
    match a
    case IntArg => Int
    case UIntArg => UInt
    case FloatArg => Float
    case DoubleArg => Float
    case FloatPtrArg => Matrix44Float
    case Vec2Arg => Vector2Float
    case Vec3Arg => Vector3Float
    case Vec4Arg => Vector4Float
    case Array3Arg => Vector3Float
    case Float4Arg => Vector4Float
  }

  /** `hasUniform`: the name is declared and was not optimized out. */
  function HasUniform(p: ShaderProgram, name: string): (r: bool)
    ensures r ==> exists i :: 0 <= i < |p.uniforms| && p.uniforms[i].name == name && p.uniforms[i].location != NoLocation
    ensures Valid(p) && (exists i :: 0 <= i < |p.uniforms| && p.uniforms[i].name == name && p.uniforms[i].location != NoLocation) ==> r
  {
    match Find(p.uniforms, name, UniformName)
    case None => false
    case Some(i) => p.uniforms[i].location != NoLocation
  }

  /** Whether a value has been assigned to the uniform. */
  function UniformIsSet(p: ShaderProgram, name: string): bool {
    match Find(p.uniforms, name, UniformName)
    case None => false
    case Some(i) => p.uniforms[i].isSet
  }

  /** `setUniform`: an unknown name fails; an optimized-out uniform is
      skipped and stays unset; a value of the wrong type fails; otherwise the
      uniform is marked set and nothing else changes. */
  function SetUniform(p: ShaderProgram, name: string, arg: UniformArg): (r: Result<ShaderProgram, Error>)
    ensures Find(p.uniforms, name, UniformName).None? ==> r == Err(LookupError(name))
    ensures Find(p.uniforms, name, UniformName).Some? && !HasUniform(p, name) ==> r == Ok(p)
    ensures HasUniform(p, name) ==>
      var i := Find(p.uniforms, name, UniformName).value;
      && (p.uniforms[i].dataType != UniformArgType(arg) ==> r == Err(TypeMismatch(p.uniforms[i].dataType, UniformArgType(arg))))
      && (p.uniforms[i].dataType == UniformArgType(arg) ==> r.Ok? && UniformIsSet(r.value, name))
    ensures r.Ok? ==> r.value.attributes == p.attributes && r.value.textures == p.textures && r.value.drawMode == p.drawMode
    ensures r.Ok? ==> |r.value.uniforms| == |p.uniforms| && forall i :: 0 <= i < |p.uniforms| ==>
      r.value.uniforms[i].name == p.uniforms[i].name && r.value.uniforms[i].location == p.uniforms[i].location
      && r.value.uniforms[i].dataType == p.uniforms[i].dataType
      && (p.uniforms[i].name != name ==> r.value.uniforms[i] == p.uniforms[i])
  {
    match Find(p.uniforms, name, UniformName)
    case None => Err(LookupError(name))
    case Some(i) =>
      var u := p.uniforms[i];
      if u.location == NoLocation then Ok(p)
      else if u.dataType != UniformArgType(arg) then Err(TypeMismatch(u.dataType, UniformArgType(arg)))
      else
        var p' := p.(uniforms := p.uniforms[i := u.(isSet := true)]);
        ReplaceKeepsUnique(p.uniforms, i, u.(isSet := true), UniformName);
        Ok(p')
  }

  lemma SetUniformKeepsValid(p: ShaderProgram, name: string, arg: UniformArg)
    requires Valid(p) && SetUniform(p, name, arg).Ok?
    ensures Valid(SetUniform(p, name, arg).value)
  {
  }

  // === Attributes

  /** `hasAttribute`: the name is declared and was not optimized out. */
  function HasAttribute(p: ShaderProgram, name: string): (r: bool)
    ensures r ==> exists i :: 0 <= i < |p.attributes| && p.attributes[i].name == name && p.attributes[i].location != NoLocation
    ensures Valid(p) && (exists i :: 0 <= i < |p.attributes| && p.attributes[i].name == name && p.attributes[i].location != NoLocation) ==> r
  {
    match Find(p.attributes, name, AttributeName)
    case None => false
    case Some(i) => p.attributes[i].location != NoLocation
  }

  /** `attributeIsSet`: a buffer is bound to the attribute. */
  function AttributeIsSet(p: ShaderProgram, name: string): (r: bool)
    ensures r ==> exists i :: 0 <= i < |p.attributes| && p.attributes[i].name == name && p.attributes[i].buff.Some?
    ensures Valid(p) && (exists i :: 0 <= i < |p.attributes| && p.attributes[i].name == name && p.attributes[i].buff.Some?) ==> r
  {
    match Find(p.attributes, name, AttributeName)
    case None => false
    case Some(i) => p.attributes[i].buff.Some?
  }

  /** `getAttributeBuffer`: the handle bound to the attribute (none when
      nothing is bound yet); an unknown name fails. */
  function GetAttributeBuffer(p: ShaderProgram, name: string): (r: Result<Option<BufferId>, Error>)
    ensures r.Err? <==> Find(p.attributes, name, AttributeName).None?
    ensures r.Err? ==> r.error == LookupError(name)
    ensures r.Ok? ==> (r.value.Some? <==> AttributeIsSet(p, name))
    ensures r.Ok? ==> r.value == p.attributes[Find(p.attributes, name, AttributeName).value].buff
  {
    match Find(p.attributes, name, AttributeName)
    case None => Err(LookupError(name))
    case Some(i) => Ok(p.attributes[i].buff)
  }

  /** Binds `b` to the attribute at position `i`, sharing it. */
  function BindAttribute(p: ShaderProgram, i: nat, b: BufferId): (r: ShaderProgram)
    requires i < |p.attributes|
    ensures Find(r.attributes, p.attributes[i].name, AttributeName) == Find(p.attributes, p.attributes[i].name, AttributeName)
    ensures r.uniforms == p.uniforms && r.textures == p.textures && r.drawMode == p.drawMode
    ensures |r.attributes| == |p.attributes|
    ensures forall j :: 0 <= j < |p.attributes| ==> AttributeName(r.attributes[j]) == AttributeName(p.attributes[j])
    ensures r.attributes[i] == p.attributes[i].(buff := Some(b))
    ensures forall j :: 0 <= j < |p.attributes| && j != i ==> r.attributes[j] == p.attributes[j]
  {
    var a := p.attributes[i].(buff := Some(b));
    var r := p.(attributes := p.attributes[i := a]);
    match Find(p.attributes, a.name, AttributeName)
    case None =>
      r
    case Some(k) =>
      assert Find(r.attributes, a.name, AttributeName) == Some(k) by {
        assert AttributeName(r.attributes[k]) == a.name;
        assert forall j :: 0 <= j < k ==> AttributeName(r.attributes[j]) == AttributeName(p.attributes[j]);
      }
      r
  }

  lemma BindAttributeKeepsValid(p: ShaderProgram, i: nat, b: BufferId)
    requires Valid(p) && i < |p.attributes|
    ensures Valid(BindAttribute(p, i, b))
  {
  }

  /** `setExternalBuffer`: binds a caller-owned buffer to the attribute,
      sharing it rather than copying it. An unknown name and a buffer whose
      declared type differs from the attribute's fail; an optimized-out
      attribute is skipped. */
  function SetExternalBuffer(p: ShaderProgram, store: Store, name: string, b: BufferId): (r: Result<ShaderProgram, Error>)
    requires b in store.buffers
    ensures Find(p.attributes, name, AttributeName).None? ==> r == Err(LookupError(name))
    ensures Find(p.attributes, name, AttributeName).Some? && !HasAttribute(p, name) ==> r == Ok(p)
    ensures HasAttribute(p, name) ==>
      var i := Find(p.attributes, name, AttributeName).value;
      && (p.attributes[i].dataType != store.buffers[b].dataType ==> r == Err(TypeMismatch(p.attributes[i].dataType, store.buffers[b].dataType)))
      && (p.attributes[i].dataType == store.buffers[b].dataType ==>
            && r.Ok? && AttributeIsSet(r.value, name) && GetAttributeBuffer(r.value, name) == Ok(Some(b))
            && |r.value.attributes| == |p.attributes| && r.value.attributes[i] == p.attributes[i].(buff := Some(b)))
    ensures r.Ok? ==> r.value.uniforms == p.uniforms && r.value.textures == p.textures && r.value.drawMode == p.drawMode
    ensures r.Ok? ==> |r.value.attributes| == |p.attributes|
    ensures r.Ok? ==> forall j :: 0 <= j < |p.attributes| && p.attributes[j].name != name ==> r.value.attributes[j] == p.attributes[j]
    ensures r.Ok? && Valid(p) ==> Valid(r.value)
  {
    match Find(p.attributes, name, AttributeName)
    case None => Err(LookupError(name))
    case Some(i) =>
      var a := p.attributes[i];
      if a.location == NoLocation then Ok(p)
      else if a.dataType != store.buffers[b].dataType then Err(TypeMismatch(a.dataType, store.buffers[b].dataType))
      else
        assert Valid(p) ==> Valid(BindAttribute(p, i, b)) by {
          if Valid(p) { BindAttributeKeepsValid(p, i, b); }
        }
        Ok(BindAttribute(p, i, b))
  }

  /** The attribute's buffer is in the store. */
  predicate BoundIn(a: Attribute, store: Store) {
    a.buff.Some? && a.buff.value in store.buffers
  }

  /** A bound buffer has the attribute's declared type, as every buffer
      made for the attribute or accepted by `setExternalBuffer` has. */
  predicate BoundTyped(a: Attribute, store: Store) {
    BoundIn(a, store) ==> store.buffers[a.buff.value].dataType == a.dataType
  }

  /** `setAttribute`: uploads `data` into the attribute's buffer, creating
      an owned buffer of the attribute's type on first use. An already bound
      buffer is written in place, so its other holders see the upload. An
      unknown name and data of the wrong type fail; an optimized-out
      attribute is skipped. */
  function SetAttribute(p: ShaderProgram, store: Store, name: string, kind: DataKind, data: seq<Elem>): (r: Result<(ShaderProgram, Store), Error>)
    requires AttributeBuffers.Valid(store)
    ensures Find(p.attributes, name, AttributeName).None? ==> r == Err(LookupError(name))
    ensures Find(p.attributes, name, AttributeName).Some? && !HasAttribute(p, name) ==> r == Ok((p, store))
    ensures HasAttribute(p, name) ==>
      var a := p.attributes[Find(p.attributes, name, AttributeName).value];
      && (KindType(kind) != a.dataType ==> r == Err(TypeMismatch(a.dataType, KindType(kind))))
      && (KindType(kind) == a.dataType && BoundTyped(a, store) ==> r.Ok?)
    ensures r.Ok? ==> AttributeBuffers.Valid(r.value.1)
    ensures r.Ok? ==> r.value.0.uniforms == p.uniforms && r.value.0.textures == p.textures && r.value.0.drawMode == p.drawMode
    ensures r.Ok? ==> |r.value.0.attributes| == |p.attributes|
    ensures r.Ok? ==> forall j :: 0 <= j < |p.attributes| && p.attributes[j].name != name ==> r.value.0.attributes[j] == p.attributes[j]
    ensures r.Ok? && Valid(p) ==> Valid(r.value.0)
    ensures r.Ok? && HasAttribute(p, name) ==> AttributeData(r.value.0, r.value.1, name) == Some(data)
    ensures r.Ok? && HasAttribute(p, name) && BoundIn(p.attributes[Find(p.attributes, name, AttributeName).value], store) ==>
      var b := p.attributes[Find(p.attributes, name, AttributeName).value].buff.value;
      r.value == (p, store.(buffers := store.buffers[b := store.buffers[b].(data := data, isSet := true)]))
    ensures r.Ok? && HasAttribute(p, name) && !BoundIn(p.attributes[Find(p.attributes, name, AttributeName).value], store) ==>
      var i := Find(p.attributes, name, AttributeName).value;
      var a := p.attributes[i];
      && r.value.0.attributes[i].buff.Some?
      && r.value.0.attributes[i] == a.(buff := r.value.0.attributes[i].buff)
      && r.value.0.attributes[i].buff.value !in store.buffers
      && r.value.1.buffers == store.buffers[r.value.0.attributes[i].buff.value := AttributeBuffer(a.dataType, a.arrayCount, data, true)]
      && r.value.1.textures == store.textures
  {
    match Find(p.attributes, name, AttributeName)
    case None => Err(LookupError(name))
    case Some(i) =>
      var a := p.attributes[i];
      if a.location == NoLocation then Ok((p, store))
      else if KindType(kind) != a.dataType then Err(TypeMismatch(a.dataType, KindType(kind)))
      else if a.buff.Some? && a.buff.value in store.buffers then
        match Write(store, a.buff.value, kind, data)
        case Err(e) => Err(e)
        case Ok(s2) =>
          WriteKeepsValid(store, a.buff.value, kind, data);
          Ok((p, s2))
      else
        Ok(UploadFresh(p, store, i, kind, data))
  }

  /** The unbound case of `setAttribute`: a new buffer of the slot's type is
      allocated, bound to slot `i` and filled with `data`. */
  function UploadFresh(p: ShaderProgram, store: Store, i: nat, kind: DataKind, data: seq<Elem>): (r: (ShaderProgram, Store))
    requires AttributeBuffers.Valid(store) && i < |p.attributes|
    requires KindType(kind) == p.attributes[i].dataType
    ensures AttributeBuffers.Valid(r.1)
    ensures |r.0.attributes| == |p.attributes| && r.0.attributes[i].buff.Some?
    ensures r.0 == p.(attributes := p.attributes[i := p.attributes[i].(buff := r.0.attributes[i].buff)])
    ensures Find(r.0.attributes, p.attributes[i].name, AttributeName) == Find(p.attributes, p.attributes[i].name, AttributeName)
    ensures Valid(p) ==> Valid(r.0)
    ensures r.0.attributes[i].buff.value !in store.buffers
    ensures r.1.buffers == store.buffers[r.0.attributes[i].buff.value := AttributeBuffer(p.attributes[i].dataType, p.attributes[i].arrayCount, data, true)]
    ensures r.1.textures == store.textures
  {
    var a := p.attributes[i];
    var (s1, id) := Generate(store, a.dataType, a.arrayCount);
    var p1 := BindAttribute(p, i, id);
    assert Valid(p) ==> Valid(p1) by {
      if Valid(p) { BindAttributeKeepsValid(p, i, id); }
    }
    WriteKeepsValid(s1, id, kind, data);
    assert p1.attributes == p.attributes[i := a.(buff := Some(id))];
    (p1, Write(s1, id, kind, data).value)
  }

  /** The contents of the buffer bound to the attribute, if one is bound. */
  function AttributeData(p: ShaderProgram, store: Store, name: string): Option<seq<Elem>> {
    match Find(p.attributes, name, AttributeName)
    case None => None
    case Some(i) =>
      if p.attributes[i].buff.Some? && p.attributes[i].buff.value in store.buffers
      then Some(store.buffers[p.attributes[i].buff.value].data)
      else None
  }

  /** Interleaving for array-valued attributes (`in vec3 v[C]`): element `j`
      of entry `i` lands at position `i * C + j`. */
  function Interleave(data: seq<seq<Elem>>, c: nat): (r: seq<Elem>)
    requires forall i :: 0 <= i < |data| ==> |data[i]| == c
    decreases |data|
  {
    if |data| == 0 then [] else Interleave(data[..|data| - 1], c) + data[|data| - 1]
  }

  /** Entry `j` of element `i` sits at position `i * C + j` of `r`. */
  ghost predicate InterleavedAt(r: seq<Elem>, data: seq<seq<Elem>>, c: nat, i: nat, j: nat) {
    i < |data| && j < |data[i]| && i * c + j < |r| && r[i * c + j] == data[i][j]
  }

  lemma {:induction false} InterleaveLayout(data: seq<seq<Elem>>, c: nat)
    requires forall i :: 0 <= i < |data| ==> |data[i]| == c
    ensures |Interleave(data, c)| == |data| * c
    ensures forall i: nat, j: nat :: i < |data| && j < c ==> InterleavedAt(Interleave(data, c), data, c, i, j)
    decreases |data|
  {
    if |data| > 0 {
      var init := data[..|data| - 1];
      InterleaveLayout(init, c);
      var r := Interleave(data, c);
      assert r == Interleave(init, c) + data[|data| - 1];
      assert |r| == |init| * c + c;
      forall i: nat, j: nat | i < |data| && j < c
        ensures InterleavedAt(r, data, c, i, j)
      {
        if i < |init| {
          IndexBelow(i, j, |init|, c);
          assert InterleavedAt(Interleave(init, c), init, c, i, j);
          assert init[i] == data[i];
        } else {
          assert i * c == |init| * c;
        }
      }
    }
  }

  /** Arithmetic step of `InterleaveLayout`: position `i * c + j` of an
      `n`-by-`c` layout is inside it. */
  lemma IndexBelow(i: nat, j: nat, n: nat, c: nat)
    requires i < n && j < c
    ensures i * c + j < n * c
  {
    MulMono(i + 1, n, c);
  }

  /** Arithmetic step of `IndexBelow`: multiplication is monotone. */
  lemma MulMono(a: nat, b: nat, c: nat)
    requires a <= b
    ensures a * c <= b * c
  {
  }

  /** The array-valued `setAttribute`: interleaves, then either allocates
      and uploads like `setAttribute` (update = false) or overwrites the
      already allocated buffer in place (update = true), which fails when no
      buffer has been allocated yet. */
  function SetArrayAttribute(p: ShaderProgram, store: Store, name: string, kind: DataKind, data: seq<seq<Elem>>, c: nat, update: bool): (r: Result<(ShaderProgram, Store), Error>)
    requires AttributeBuffers.Valid(store)
    requires forall i :: 0 <= i < |data| ==> |data[i]| == c
    ensures update && HasAttribute(p, name) && !AttributeIsSet(p, name) ==> r == Err(NotAllocated(name))
    ensures update && Find(p.attributes, name, AttributeName).None? ==> r == Err(LookupError(name))
    ensures update && Find(p.attributes, name, AttributeName).Some? && !HasAttribute(p, name) ==> r == Ok((p, store))
    ensures update && HasAttribute(p, name) ==>
      var a := p.attributes[Find(p.attributes, name, AttributeName).value];
      && (!BoundIn(a, store) ==> r == Err(NotAllocated(name)))
      && (BoundIn(a, store) && store.buffers[a.buff.value].dataType != KindType(kind) ==>
            r == Err(TypeMismatch(store.buffers[a.buff.value].dataType, KindType(kind))))
      && (BoundIn(a, store) && store.buffers[a.buff.value].dataType == KindType(kind) ==>
            r == Ok((p, store.(buffers := store.buffers[a.buff.value := store.buffers[a.buff.value].(data := Interleave(data, c), isSet := true)]))))
    ensures !update ==> r == SetAttribute(p, store, name, kind, Interleave(data, c))
    ensures r.Ok? ==> AttributeBuffers.Valid(r.value.1)
    ensures r.Ok? && update ==> r.value.0 == p
    ensures r.Ok? && HasAttribute(p, name) ==> AttributeData(r.value.0, r.value.1, name) == Some(Interleave(data, c))
  {
    var flat := Interleave(data, c);
    if !update then SetAttribute(p, store, name, kind, flat)
    else match Find(p.attributes, name, AttributeName)
      case None => Err(LookupError(name))
      case Some(i) =>
        var a := p.attributes[i];
        if a.location == NoLocation then Ok((p, store))
        else if a.buff.None? || a.buff.value !in store.buffers then Err(NotAllocated(name))
        else match Write(store, a.buff.value, kind, flat)
          case Err(e) => Err(e)
          case Ok(s1) =>
            WriteKeepsValid(store, a.buff.value, kind, flat);
            Ok((p, s1))
  }

  /** Zero-copy sharing: once `b` is bound to an attribute, every later
      upload into `b` by its other holder is what the attribute draws from. */
  lemma SharedBufferSeesWrites(p: ShaderProgram, store: Store, name: string, b: BufferId, kind: DataKind, data: seq<Elem>)
    requires b in store.buffers && HasAttribute(p, name)
    requires SetExternalBuffer(p, store, name, b).Ok?
    requires p.attributes[Find(p.attributes, name, AttributeName).value].dataType == store.buffers[b].dataType
    requires Write(store, b, kind, data).Ok?
    ensures AttributeData(SetExternalBuffer(p, store, name, b).value, Write(store, b, kind, data).value, name) == Some(data)
  {
  }

  /** Every bound buffer is in the store and has its attribute's declared type. */
  ghost predicate AttributesTyped(p: ShaderProgram, store: Store) {
    forall i :: 0 <= i < |p.attributes| ==> AttributeTyped(p.attributes[i], store)
  }

  predicate AttributeTyped(a: Attribute, store: Store) {
    a.buff.Some? ==> a.buff.value in store.buffers && store.buffers[a.buff.value].dataType == a.dataType
  }

  /** `setExternalBuffer` keeps every bound buffer typed as its attribute. */
  lemma SetExternalBufferKeepsTyped(p: ShaderProgram, store: Store, name: string, b: BufferId)
    requires b in store.buffers && AttributesTyped(p, store) && SetExternalBuffer(p, store, name, b).Ok?
    ensures AttributesTyped(SetExternalBuffer(p, store, name, b).value, store)
  {
    var i := Find(p.attributes, name, AttributeName).value;
    var p' := SetExternalBuffer(p, store, name, b).value;
    if HasAttribute(p, name) {
      assert p' == BindAttribute(p, i, b);
    }
  }

  /** `setAttribute` keeps every bound buffer typed as its attribute, and in
      such a program an upload of the declared type always succeeds. */
  lemma SetAttributeKeepsTyped(p: ShaderProgram, store: Store, name: string, kind: DataKind, data: seq<Elem>)
    requires AttributeBuffers.Valid(store) && AttributesTyped(p, store)
    ensures HasAttribute(p, name) && KindType(kind) == p.attributes[Find(p.attributes, name, AttributeName).value].dataType ==>
      SetAttribute(p, store, name, kind, data).Ok?
    ensures SetAttribute(p, store, name, kind, data).Ok? ==>
      var (p', s') := SetAttribute(p, store, name, kind, data).value;
      AttributesTyped(p', s')
  {
    var r := SetAttribute(p, store, name, kind, data);
    if HasAttribute(p, name) {
      var i := Find(p.attributes, name, AttributeName).value;
      assert AttributeTyped(p.attributes[i], store);
      if r.Ok? {
        var (p', s') := r.value;
        assert s'.buffers.Keys >= store.buffers.Keys;
        forall j | 0 <= j < |p'.attributes| ensures AttributeTyped(p'.attributes[j], s') {
          if j != i {
            assert AttributeTyped(p.attributes[j], store);
            if p.attributes[j].name == name {
              assert p'.attributes[j] == p.attributes[j];
            }
          }
        }
      }
    }
  }

  // === Textures

  function HasTexture(p: ShaderProgram, name: string): (r: bool)
    ensures r ==> exists i :: 0 <= i < |p.textures| && p.textures[i].name == name && p.textures[i].location != NoLocation
    ensures Valid(p) && (exists i :: 0 <= i < |p.textures| && p.textures[i].name == name && p.textures[i].location != NoLocation) ==> r
  {
    match Find(p.textures, name, TextureName)
    case None => false
    case Some(i) => p.textures[i].location != NoLocation
  }

  /** `textureIsSet`: a texture has been bound to the slot. */
  function TextureIsSet(p: ShaderProgram, name: string): (r: bool)
    ensures r ==> exists i :: 0 <= i < |p.textures| && p.textures[i].name == name && p.textures[i].isSet
    ensures Valid(p) && (exists i :: 0 <= i < |p.textures| && p.textures[i].name == name && p.textures[i].isSet) ==> r
  {
    match Find(p.textures, name, TextureName)
    case None => false
    case Some(i) => p.textures[i].isSet
  }

  /** Replaces the texture slot at position `i` by one with the same name. */
  function UpdateTexture(p: ShaderProgram, i: nat, t: Texture): (r: ShaderProgram)
    requires i < |p.textures| && t.name == p.textures[i].name
    requires Find(p.textures, t.name, TextureName) == Some(i)
    ensures Find(r.textures, t.name, TextureName) == Some(i) && r.textures[i] == t
    ensures r.uniforms == p.uniforms && r.attributes == p.attributes && r.drawMode == p.drawMode
    ensures Valid(p) ==> Valid(r)
    ensures |r.textures| == |p.textures| && forall j :: 0 <= j < |p.textures| && j != i ==> r.textures[j] == p.textures[j]
  {
    var r := p.(textures := p.textures[i := t]);
    ReplaceKeepsUnique(p.textures, i, t, TextureName);
    r
  }

  /** Shared body of `setTexture1D`, `setTexture2D` and
      `setTextureFromColormap`: allocates a texture the program owns and binds it. */
  function SetOwnedTexture(p: ShaderProgram, store: Store, name: string, dim: int, allowUpdate: bool): (r: Result<(ShaderProgram, Store), Error>)
    requires AttributeBuffers.Valid(store)
    ensures Find(p.textures, name, TextureName).None? ==> r == Err(LookupError(name))
    ensures Find(p.textures, name, TextureName).Some? && !HasTexture(p, name) ==> r == Ok((p, store))
    ensures HasTexture(p, name) && TextureIsSet(p, name) && !allowUpdate ==> r == Err(AlreadySet(name))
    ensures HasTexture(p, name) && (!TextureIsSet(p, name) || allowUpdate) ==>
      var t := p.textures[Find(p.textures, name, TextureName).value];
      (t.dim != dim <==> r.Err?) && (t.dim != dim ==> r == Err(DimensionMismatch(t.dim, dim)))
    ensures r.Ok? ==> |r.value.0.textures| == |p.textures|
    ensures r.Ok? && HasTexture(p, name) ==>
      var i := Find(p.textures, name, TextureName).value;
      var owned := r.value.0.textures[i].textureBufferOwned;
      r.value.0 == p.(textures := p.textures[i := p.textures[i].(isSet := true, textureBuffer := owned, textureBufferOwned := owned)])
    ensures r.Ok? && HasTexture(p, name) ==>
      var t' := r.value.0.textures[Find(p.textures, name, TextureName).value];
      && TextureIsSet(r.value.0, name)
      && t'.textureBufferOwned.Some? && t'.textureBuffer == t'.textureBufferOwned
      && t'.textureBufferOwned.value !in store.textures
      && r.value.1.textures == store.textures[t'.textureBufferOwned.value := p.textures[Find(p.textures, name, TextureName).value].dim]
    ensures r.Ok? ==> AttributeBuffers.Valid(r.value.1) && r.value.1.buffers == store.buffers
    ensures r.Ok? ==> r.value.0.uniforms == p.uniforms && r.value.0.attributes == p.attributes
    ensures r.Ok? && Valid(p) ==> Valid(r.value.0)
  {
    match Find(p.textures, name, TextureName)
    case None => Err(LookupError(name))
    case Some(i) =>
      var t := p.textures[i];
      if t.location == NoLocation then Ok((p, store))
      else if t.isSet && !allowUpdate then Err(AlreadySet(name))
      else if t.dim != dim then Err(DimensionMismatch(t.dim, dim))
      else
        var (s1, id) := GenerateTexture(store, dim);
        Ok((UpdateTexture(p, i, t.(isSet := true, textureBuffer := Some(id), textureBufferOwned := Some(id))), s1))
  }

  /** The texture a program allocated for a slot has the slot's dimension,
      so binding it to that slot again as an external texture is accepted. */
  lemma OwnedTextureFitsItsSlot(p: ShaderProgram, store: Store, name: string, dim: int, allowUpdate: bool)
    requires AttributeBuffers.Valid(store) && HasTexture(p, name)
    requires SetOwnedTexture(p, store, name, dim, allowUpdate).Ok?
    ensures var (p', s') := SetOwnedTexture(p, store, name, dim, allowUpdate).value;
      var i := Find(p.textures, name, TextureName).value;
      && p'.textures[i].textureBufferOwned.value in s'.textures
      && SetTextureFromBuffer(p', s', name, p'.textures[i].textureBufferOwned.value).Ok?
  {
    var (p', s') := SetOwnedTexture(p, store, name, dim, allowUpdate).value;
    var i := Find(p.textures, name, TextureName).value;
    assert Find(p'.textures, name, TextureName) == Some(i);
  }

  /** `setTexture1D` / `setTexture2D`: a texture may be set only once. */
  function SetTexture1D(p: ShaderProgram, store: Store, name: string): (r: Result<(ShaderProgram, Store), Error>)
    requires AttributeBuffers.Valid(store)
    ensures Find(p.textures, name, TextureName).None? ==> r == Err(LookupError(name))
    ensures Find(p.textures, name, TextureName).Some? && !HasTexture(p, name) ==> r == Ok((p, store))
    ensures HasTexture(p, name) && !TextureIsSet(p, name) ==>
      var t := p.textures[Find(p.textures, name, TextureName).value];
      (r.Ok? <==> t.dim == 1) && (t.dim != 1 ==> r == Err(DimensionMismatch(t.dim, 1)))
    ensures r.Ok? && HasTexture(p, name) ==> TextureIsSet(r.value.0, name)
    ensures TextureIsSet(p, name) && HasTexture(p, name) ==> r == Err(AlreadySet(name))
  {
    SetOwnedTexture(p, store, name, 1, false)
  }

  function SetTexture2D(p: ShaderProgram, store: Store, name: string): (r: Result<(ShaderProgram, Store), Error>)
    requires AttributeBuffers.Valid(store)
    ensures Find(p.textures, name, TextureName).None? ==> r == Err(LookupError(name))
    ensures Find(p.textures, name, TextureName).Some? && !HasTexture(p, name) ==> r == Ok((p, store))
    ensures HasTexture(p, name) && !TextureIsSet(p, name) ==>
      var t := p.textures[Find(p.textures, name, TextureName).value];
      (r.Ok? <==> t.dim == 2) && (t.dim != 2 ==> r == Err(DimensionMismatch(t.dim, 2)))
    ensures r.Ok? && HasTexture(p, name) ==> TextureIsSet(r.value.0, name)
    ensures TextureIsSet(p, name) && HasTexture(p, name) ==> r == Err(AlreadySet(name))
  {
    SetOwnedTexture(p, store, name, 2, false)
  }

  /** `setTextureFromColormap`: a 1D texture, re-settable when `allowUpdate`. */
  function SetTextureFromColormap(p: ShaderProgram, store: Store, name: string, allowUpdate: bool): (r: Result<(ShaderProgram, Store), Error>)
    requires AttributeBuffers.Valid(store)
    ensures Find(p.textures, name, TextureName).None? ==> r == Err(LookupError(name))
    ensures Find(p.textures, name, TextureName).Some? && !HasTexture(p, name) ==> r == Ok((p, store))
    ensures HasTexture(p, name) && (!TextureIsSet(p, name) || allowUpdate) ==>
      var t := p.textures[Find(p.textures, name, TextureName).value];
      (r.Ok? <==> t.dim == 1) && (t.dim != 1 ==> r == Err(DimensionMismatch(t.dim, 1)))
    ensures r.Ok? && HasTexture(p, name) ==> TextureIsSet(r.value.0, name)
    ensures TextureIsSet(p, name) && HasTexture(p, name) && !allowUpdate ==> r == Err(AlreadySet(name))
  {
    SetOwnedTexture(p, store, name, 1, allowUpdate)
  }

  /** `setTextureFromBuffer`: binds a texture the program does not own, of
      the dimension the texture was generated with; the owned pointer is
      left as it was, so it may be empty. */
  function SetTextureFromBuffer(p: ShaderProgram, store: Store, name: string, tex: TextureId): (r: Result<ShaderProgram, Error>)
    requires tex in store.textures
    ensures Find(p.textures, name, TextureName).None? ==> r == Err(LookupError(name))
    ensures Find(p.textures, name, TextureName).Some? && !HasTexture(p, name) ==> r == Ok(p)
    ensures r.Ok? ==> |r.value.textures| == |p.textures|
    ensures HasTexture(p, name) ==>
      var i := Find(p.textures, name, TextureName).value;
      && (p.textures[i].dim != store.textures[tex] ==> r == Err(DimensionMismatch(p.textures[i].dim, store.textures[tex])))
      && (p.textures[i].dim == store.textures[tex] ==>
            && r == Ok(p.(textures := p.textures[i := p.textures[i].(isSet := true, textureBuffer := Some(tex))]))
            && TextureIsSet(r.value, name) && r.value.textures[i].textureBuffer == Some(tex)
            && r.value.textures[i].textureBufferOwned == p.textures[i].textureBufferOwned)
    ensures r.Ok? ==> r.value.uniforms == p.uniforms && r.value.attributes == p.attributes
    ensures r.Ok? && Valid(p) ==> Valid(r.value)
  {
    match Find(p.textures, name, TextureName)
    case None => Err(LookupError(name))
    case Some(i) =>
      var t := p.textures[i];
      if t.location == NoLocation then Ok(p)
      else if t.dim != store.textures[tex] then Err(DimensionMismatch(t.dim, store.textures[tex]))
      else Ok(UpdateTexture(p, i, t.(isSet := true, textureBuffer := Some(tex))))
  }

  /** A texture bound from an external buffer into a fresh program has no owned texture. */
  lemma ExternalTextureIsNotOwned(p: ShaderProgram, store: Store, name: string, tex: TextureId)
    requires tex in store.textures && NothingBound(p) && (forall i :: 0 <= i < |p.textures| ==> p.textures[i].textureBufferOwned.None?)
    requires HasTexture(p, name) && SetTextureFromBuffer(p, store, name, tex).Ok?
    ensures TextureIsSet(SetTextureFromBuffer(p, store, name, tex).value, name)
    ensures var i := Find(p.textures, name, TextureName).value;
      SetTextureFromBuffer(p, store, name, tex).value.textures[i].textureBufferOwned.None?
  {
  }

  // === Validation before drawing

  /** Every slot the compiled program kept has been given its data: each
      located uniform is set, each located attribute has a buffer holding
      data, each located texture is set. */
  ghost predicate ReadyToDraw(p: ShaderProgram, store: Store) {
    && (forall i :: 0 <= i < |p.uniforms| && p.uniforms[i].location != NoLocation ==> p.uniforms[i].isSet)
    && (forall i :: 0 <= i < |p.attributes| && p.attributes[i].location != NoLocation ==> AttributeReady(p.attributes[i], store))
    && (forall i :: 0 <= i < |p.textures| && p.textures[i].location != NoLocation ==> p.textures[i].isSet)
  }

  predicate AttributeReady(a: Attribute, store: Store) {
    a.buff.Some? && a.buff.value in store.buffers && store.buffers[a.buff.value].isSet
  }

  /** `validateData`: passes exactly when the program is ready to draw, and
      otherwise names a slot that has not been given its data. */
  method ValidateData(p: ShaderProgram, store: Store) returns (r: Outcome<Error>)
    ensures r.Pass? <==> ReadyToDraw(p, store)
    ensures r.Fail? ==> r.error.Unset?
    ensures r.Fail? ==>
      || (exists i :: 0 <= i < |p.uniforms| && p.uniforms[i].name == r.error.key && p.uniforms[i].location != NoLocation && !p.uniforms[i].isSet)
      || (exists i :: 0 <= i < |p.attributes| && p.attributes[i].name == r.error.key && p.attributes[i].location != NoLocation && !AttributeReady(p.attributes[i], store))
      || (exists i :: 0 <= i < |p.textures| && p.textures[i].name == r.error.key && p.textures[i].location != NoLocation && !p.textures[i].isSet)
  {
    var i := 0;
    while i < |p.uniforms|
      invariant 0 <= i <= |p.uniforms|
      invariant forall k :: 0 <= k < i && p.uniforms[k].location != NoLocation ==> p.uniforms[k].isSet
    {
      if p.uniforms[i].location != NoLocation && !p.uniforms[i].isSet {
        return Fail(Unset(p.uniforms[i].name));
      }
      i := i + 1;
    }
    i := 0;
    while i < |p.attributes|
      invariant 0 <= i <= |p.attributes|
      invariant forall k :: 0 <= k < i && p.attributes[k].location != NoLocation ==> AttributeReady(p.attributes[k], store)
    {
      if p.attributes[i].location != NoLocation && !AttributeReady(p.attributes[i], store) {
        return Fail(Unset(p.attributes[i].name));
      }
      i := i + 1;
    }
    i := 0;
    while i < |p.textures|
      invariant 0 <= i <= |p.textures|
      invariant forall k :: 0 <= k < i && p.textures[k].location != NoLocation ==> p.textures[k].isSet
    {
      if p.textures[i].location != NoLocation && !p.textures[i].isSet {
        return Fail(Unset(p.textures[i].name));
      }
      i := i + 1;
    }
    return Pass;
  }
}

=== FILE: structure.dfy ===
/** The state every registered structure carries (Structure): a fixed name,
    the enabled flag, and the object transform with the extents computed for
    it.

    Transforms are kept symbolic: a matrix is the identity, a translation or
    a product, so the order of composition is visible in the value. The
    entries of the matrices and the bounding-box arithmetic are not modelled. */
module Structures {
  import opened Results

  datatype Vec3 = Vec3(x: real, y: real, z: real)

  /** A 4x4 transform. `Product(l, r)` is the matrix product `l * r`, which
      applies `r` first. `Given(id)` stands for a matrix supplied from outside
      (a camera view, or a transform the user set). */
  datatype Mat =
    | Identity
    | Translation(offset: Vec3)
    | Product(l: Mat, r: Mat)
    | Given(id: nat)

  /** `extentsFor` is the transform the cached extents (bounding box and
      length scale) were last computed for, or none before the first
      computation. */
  datatype Structure = Structure(
    name: string,
    enabled: bool,
    objectTransform: Mat,
    extentsFor: Option<Mat>)

  /** The cached extents describe the current transform. */
  predicate ExtentsCurrent(s: Structure) {
    s.extentsFor == Some(s.objectTransform)
  }

  /** The constructor only stores the name: the extents are not computed
      yet (each kind of structure computes them once its geometry is in
      place). The header that gives `enabled` and the transform their
      initial values is not part of this model, so they are parameters. */
  function NewStructure(name: string, enabled: bool, transform: Mat): (s: Structure)
    ensures s.name == name && s.enabled == enabled && s.objectTransform == transform
    ensures !ExtentsCurrent(s) && s.extentsFor.None?
  {
    Structure(name, enabled, transform, None)
  }

  /** `isEnabled` reports the flag. */
  function IsEnabled(s: Structure): (r: bool)
    ensures r <==> s.enabled
  {
    s.enabled
  }

  /** `setEnabled` as written: a call asking for the current value returns at
      once, and otherwise the new value is assigned to the parameter instead
      of the member, so the structure never changes. */
  function SetEnabledAsWritten(s: Structure, newEnabled: bool): (r: Structure)
    ensures r == s
  {
    if newEnabled == s.enabled then s else s
  }

  /** `setEnabled` as evidently intended: afterwards the flag is the requested
      value, and nothing else about the structure changes. */
  function SetEnabled(s: Structure, newEnabled: bool): (r: Structure)
    ensures IsEnabled(r) == newEnabled
    ensures r.name == s.name && r.objectTransform == s.objectTransform && r.extentsFor == s.extentsFor
    ensures newEnabled == s.enabled ==> r == s
  {
    if newEnabled == s.enabled then s else s.(enabled := newEnabled)
  }

  /** Applies a sequence of `setEnabled` calls with the given definition. */
  function ApplyAsWritten(s: Structure, calls: seq<bool>): Structure
    decreases |calls|
  {
    if |calls| == 0 then s else ApplyAsWritten(SetEnabledAsWritten(s, calls[0]), calls[1..])
  }

  function ApplySetEnabled(s: Structure, calls: seq<bool>): Structure
    decreases |calls|
  {
    if |calls| == 0 then s else ApplySetEnabled(SetEnabled(s, calls[0]), calls[1..])
  }

  /** As written, no sequence of calls changes what `isEnabled` reports. */
  lemma {:induction false} AsWrittenNeverEnables(s: Structure, calls: seq<bool>)
    ensures ApplyAsWritten(s, calls) == s
    ensures IsEnabled(ApplyAsWritten(s, calls)) == IsEnabled(s)
    decreases |calls|
  {
    if |calls| > 0 {
      AsWrittenNeverEnables(SetEnabledAsWritten(s, calls[0]), calls[1..]);
    }
  }

  /** The discrepancy on the smallest input: enabling a disabled structure. */
  lemma SetEnabledDiscrepancy(s: Structure)
    requires !IsEnabled(s)
    ensures !IsEnabled(SetEnabledAsWritten(s, true))
    ensures IsEnabled(SetEnabled(s, true))
  {
  }

  /** With the corrected definition the flag is the last value asked for (or
      the initial one after no call), and the name and transform never change. */
  lemma {:induction false} SetEnabledKeepsLast(s: Structure, calls: seq<bool>)
    ensures IsEnabled(ApplySetEnabled(s, calls)) == if |calls| == 0 then IsEnabled(s) else calls[|calls| - 1]
    ensures ApplySetEnabled(s, calls).name == s.name
    ensures ApplySetEnabled(s, calls).objectTransform == s.objectTransform
    decreases |calls|
  {
    if |calls| > 0 {
      var s1 := SetEnabled(s, calls[0]);
      SetEnabledKeepsLast(s1, calls[1..]);
      if |calls| > 1 {
        assert calls[1..][|calls[1..]| - 1] == calls[|calls| - 1];
      }
    }
  }

  /** `resetTransform`: the object transform becomes the identity and the
      extents are recomputed for it. */
  function ResetTransform(s: Structure): (r: Structure)
    ensures r.objectTransform == Identity && ExtentsCurrent(r)
    ensures r.name == s.name && r.enabled == s.enabled
  {
    s.(objectTransform := Identity, extentsFor := Some(Identity))
  }

  lemma ResetTransformIdempotent(s: Structure)
    ensures ResetTransform(ResetTransform(s)) == ResetTransform(s)
  {
  }

  /** The midpoint of a bounding box, negated: the offset that moves it to the origin. */
  function MinusMidpoint(lo: Vec3, hi: Vec3): (v: Vec3)
    ensures v.x + v.x == -(lo.x + hi.x) && v.y + v.y == -(lo.y + hi.y) && v.z + v.z == -(lo.z + hi.z)
  {
    Vec3(-(lo.x + hi.x) / 2.0, -(lo.y + hi.y) / 2.0, -(lo.z + hi.z) / 2.0)
  }

  /** `centerBoundingBox`: the existing transform is composed on the right
      with a translation by minus the bounding-box midpoint, so the
      translation applies first, and the extents are recomputed. The box is
      a parameter (each kind of structure computes its own). */
  function CenterBoundingBox(s: Structure, lo: Vec3, hi: Vec3): (r: Structure)
    ensures r.objectTransform.Product? && r.objectTransform.l == s.objectTransform
    ensures r.objectTransform.r.Translation? && r.objectTransform.r.offset == MinusMidpoint(lo, hi)
    ensures ExtentsCurrent(r)
    ensures r.name == s.name && r.enabled == s.enabled
  {
    var t := Product(s.objectTransform, Translation(MinusMidpoint(lo, hi)));
    s.(objectTransform := t, extentsFor := Some(t))
  }

  /** `getModelView`: the camera's view matrix composed on the left of the
      object transform, so the object transform applies first. */
  function GetModelView(s: Structure, view: Mat): (r: Mat)
    ensures r.Product? && r.l == view && r.r == s.objectTransform
  {
    Product(view, s.objectTransform)
  }

  // === Meaning of a transform on points, for those built from translations

  /** A transform made only of identities, translations and products. */
  predicate Translational(m: Mat) {
    match m
    case Identity => true
    case Translation(_) => true
    case Product(l, r) => Translational(l) && Translational(r)
    case Given(_) => false
  }

  function Add(a: Vec3, b: Vec3): Vec3 {
    Vec3(a.x + b.x, a.y + b.y, a.z + b.z)
  }

  /** The image of point `p`: a product applies its right factor first. */
  function Apply(m: Mat, p: Vec3): Vec3
    requires Translational(m)
  {
    match m
    case Identity => p
    case Translation(v) => Add(p, v)
    case Product(l, r) => Apply(l, Apply(r, p))
  }

  /** After centering, the midpoint of the box is mapped to where the origin
      was mapped before: the box is centered in object space. */
  lemma CenteringMovesMidpointToOrigin(s: Structure, lo: Vec3, hi: Vec3)
    requires Translational(s.objectTransform)
    ensures var mid := Vec3((lo.x + hi.x) / 2.0, (lo.y + hi.y) / 2.0, (lo.z + hi.z) / 2.0);
      var r := CenterBoundingBox(s, lo, hi);
      Translational(r.objectTransform) && Apply(r.objectTransform, mid) == Apply(s.objectTransform, Vec3(0.0, 0.0, 0.0))
  {
  }

  /** The model-view matrix sends a point through the object transform and
      then through the view. */
  lemma ModelViewAppliesObjectFirst(s: Structure, view: Mat, p: Vec3)
    requires Translational(s.objectTransform) && Translational(view)
    ensures Translational(GetModelView(s, view))
    ensures Apply(GetModelView(s, view), p) == Apply(view, Apply(s.objectTransform, p))
  {
  }
}

=== FILE: surface_mesh.dfy ===
/** A surface mesh (SurfaceMesh): its faces and counts, the lazily cached
    geometric quantities with their render buffers, the per-element
    permutations that fix the expected length of attached data, and the
    lazily built manifold connectivity. */
module SurfaceMeshes {
  import opened Results
  import opened AttributeBuffers
  import opened MeshConnectivity
  import opened GeometryCache
  import ShaderPrograms
  import NamedTables

  /** The kinds of mesh element data may be attached to. */
  datatype MeshElement = VertexElement | FaceElement | EdgeElement | HalfedgeElement | CornerElement

  /** The cached geometric quantities; every one but the positions is derived
      from the positions. */
  datatype GeomQuantity =
    | VertexPositions
    | FaceNormals
    | FaceCenters
    | FaceAreas
    | VertexNormals
    | VertexAreas
    | EdgeLengths
    | FaceTangentSpaces
    | VertexTangentSpaces

  predicate Derived(q: GeomQuantity) {
    q != VertexPositions
  }

  /** The GPU layout of each quantity: 3-vectors for positions, normals and
      centers, scalars (doubles, uploaded as floats) for areas and lengths,
      and pairs of 3-vectors for tangent spaces. */
  function Format(q: GeomQuantity): (fmt: BufferFormat)
    ensures Admits(fmt)
  {
    match q
    case FaceAreas | VertexAreas | EdgeLengths => BufferFormat(Float, DoubleData, 1)
    case FaceTangentSpaces | VertexTangentSpaces => BufferFormat(Vector3Float, Vec3Data, 2)
    case _ => BufferFormat(Vector3Float, Vec3Data, 1)
  }

  /** A permutation array (empty for the default ordering) and the data
      length it implies. */
  datatype Permutation = Permutation(perm: seq<nat>, dataSize: nat)

  datatype SurfaceMesh = SurfaceMesh(
    name: string,
    faces: seq<Face>,
    counts: MeshCounts,
    buffers: map<GeomQuantity, GeomBuffer>,
    perms: map<MeshElement, Permutation>,
    faceForHalfedge: seq<nat>,
    twinHalfedge: seq<nat>)

  // === Counts

  function NFaces(m: SurfaceMesh): nat { m.counts.nFaces }
  function NEdges(m: SurfaceMesh): nat { m.counts.nEdges }
  function NCorners(m: SurfaceMesh): nat { m.counts.nCorners }
  function NHalfedges(m: SurfaceMesh): nat { m.counts.nCorners }

  /** The raw element count of the face-derived element kinds. */
  function ElementCount(m: SurfaceMesh, e: MeshElement): nat
    requires e != VertexElement
  {
    match e
    case FaceElement => NFaces(m)
    case EdgeElement => NEdges(m)
    case HalfedgeElement => NHalfedges(m)
    case CornerElement => NCorners(m)
  }

  /** The counts agree with the faces: one face per index list, one corner
      and one halfedge per entry of a face, one edge per distinct unordered
      vertex pair of consecutive face entries. */
  lemma CountConventions(m: SurfaceMesh)
    requires CountsOf(m.counts, m.faces)
    ensures NFaces(m) == |m.faces|
    ensures NCorners(m) == NHalfedges(m) == SumDegrees(m.faces) == |Halfedges(m.faces)|
    ensures NEdges(m) == |EdgeSet(m.faces)|
  {
    HalfedgeCount(m.faces);
  }

  // === Invariants

  /** The store-independent part: counts derived from the faces, every
      quantity and element kind present, the data lengths implied by the
      permutations, and connectivity either not built or built from the faces. */
  ghost predicate Shape(m: SurfaceMesh) {
    && CountsOf(m.counts, m.faces)
    && (forall q: GeomQuantity :: q in m.buffers)
    && (forall e: MeshElement :: e in m.perms)
    && |m.perms[VertexElement].perm| == 0
    && |m.perms[FaceElement].perm| == 0
    && (forall e :: e != VertexElement && e in m.perms && |m.perms[e].perm| == 0 && ElementCount(m, e) > 0 ==>
          m.perms[e].dataSize == ElementCount(m, e))
    && (StoredInMemory(m.buffers[VertexPositions]) ==> |m.buffers[VertexPositions].cpu| == m.perms[VertexElement].dataSize)
    && ((m.faceForHalfedge == [] && m.twinHalfedge == [])
        || (m.faceForHalfedge == FaceForHalfedge(m.faces) && m.twinHalfedge == TwinHalfedge(m.faces)))
  }

  /** Every render buffer lives in the store with its quantity's format. */
  ghost predicate BuffersConsistent(m: SurfaceMesh, store: Store) {
    forall q :: q in m.buffers ==> Consistent(m.buffers[q], store, Format(q))
  }

  /** No two quantities share a render buffer. */
  ghost predicate HandlesDistinct(bufs: map<GeomQuantity, GeomBuffer>) {
    forall q1, q2 :: q1 in bufs && q2 in bufs && q1 != q2 && bufs[q1].gpu.Some? ==> bufs[q1].gpu != bufs[q2].gpu
  }

  ghost predicate WellFormed(m: SurfaceMesh, store: Store) {
    Shape(m) && BuffersConsistent(m, store) && HandlesDistinct(m.buffers)
  }

  /** The shape only depends on the buffer records through the length of the
      positions in memory. */
  lemma ReplaceKeepsShape(m: SurfaceMesh, q: GeomQuantity, g': GeomBuffer)
    requires Shape(m)
    requires q == VertexPositions && StoredInMemory(g') ==> |g'.cpu| == m.perms[VertexElement].dataSize
    ensures Shape(m.(buffers := m.buffers[q := g']))
  {
    var m' := m.(buffers := m.buffers[q := g']);
    assert forall e :: e != VertexElement && e in m.perms ==> ElementCount(m', e) == ElementCount(m, e);
  }

  /** Replacing the buffer record of quantity `q` keeps the mesh well formed
      when the new record fits the new store, the store keeps every buffer
      but the one of `q`, and a changed handle is a fresh one. */
  lemma ReplaceKeepsWellFormed(m: SurfaceMesh, store: Store, s': Store, q: GeomQuantity, g': GeomBuffer)
    requires WellFormed(m, store) && Consistent(g', s', Format(q))
    requires forall id :: id in store.buffers && m.buffers[q].gpu != Some(id) ==> id in s'.buffers && s'.buffers[id] == store.buffers[id]
    requires g'.gpu == m.buffers[q].gpu || (g'.gpu.Some? && g'.gpu.value !in store.buffers)
    requires q == VertexPositions && StoredInMemory(g') ==> |g'.cpu| == m.perms[VertexElement].dataSize
    ensures WellFormed(m.(buffers := m.buffers[q := g']), s')
  {
    ReplaceKeepsShape(m, q, g');
    ReplaceKeepsConsistent(m, store, s', q, g');
    ReplaceKeepsDistinct(m.buffers, store, q, g');
  }

  lemma ReplaceKeepsConsistent(m: SurfaceMesh, store: Store, s': Store, q: GeomQuantity, g': GeomBuffer)
    requires BuffersConsistent(m, store) && HandlesDistinct(m.buffers) && q in m.buffers && Consistent(g', s', Format(q))
    requires forall id :: id in store.buffers && m.buffers[q].gpu != Some(id) ==> id in s'.buffers && s'.buffers[id] == store.buffers[id]
    ensures BuffersConsistent(m.(buffers := m.buffers[q := g']), s')
  {
    var m' := m.(buffers := m.buffers[q := g']);
    forall q' | q' in m'.buffers ensures Consistent(m'.buffers[q'], s', Format(q')) {
      if q' != q {
        assert m'.buffers[q'] == m.buffers[q'];
      }
    }
  }

  lemma ReplaceKeepsDistinct(bufs: map<GeomQuantity, GeomBuffer>, store: Store, q: GeomQuantity, g': GeomBuffer)
    requires HandlesDistinct(bufs) && q in bufs
    requires forall q' :: q' in bufs && bufs[q'].gpu.Some? ==> bufs[q'].gpu.value in store.buffers
    requires g'.gpu == bufs[q].gpu || (g'.gpu.Some? && g'.gpu.value !in store.buffers)
    ensures HandlesDistinct(bufs[q := g'])
  {
    var b' := bufs[q := g'];
    forall q1, q2 | q1 in b' && q2 in b' && q1 != q2 && b'[q1].gpu.Some?
      ensures b'[q1].gpu != b'[q2].gpu
    {
      if q1 == q && g'.gpu != bufs[q].gpu {
        assert bufs[q2].gpu.Some? ==> bufs[q2].gpu.value in store.buffers;
      } else if q2 == q && g'.gpu != bufs[q].gpu {
        assert bufs[q1].gpu.value in store.buffers;
      }
    }
  }

  // === Construction

  lemma AllElements<V>(r: map<MeshElement, V>)
    requires VertexElement in r && FaceElement in r && EdgeElement in r && HalfedgeElement in r && CornerElement in r
    ensures forall e :: e in r
  {
    forall e ensures e in r {
      match e
      case VertexElement =>
      case FaceElement =>
      case EdgeElement =>
      case HalfedgeElement =>
      case CornerElement =>
    }
  }

  lemma AllQuantities<V>(r: map<GeomQuantity, V>)
    requires VertexPositions in r && FaceNormals in r && FaceCenters in r && FaceAreas in r && VertexNormals in r
    requires VertexAreas in r && EdgeLengths in r && FaceTangentSpaces in r && VertexTangentSpaces in r
    ensures forall q :: q in r
  {
    forall q ensures q in r {
      match q
      case VertexPositions =>
      case FaceNormals =>
      case FaceCenters =>
      case FaceAreas =>
      case VertexNormals =>
      case VertexAreas =>
      case EdgeLengths =>
      case FaceTangentSpaces =>
      case VertexTangentSpaces =>
    }
  }

  function DefaultPermutations(c: MeshCounts, nVertices: nat): (r: map<MeshElement, Permutation>)
    ensures forall e :: e in r && r[e].perm == []
    ensures r[VertexElement].dataSize == nVertices && r[FaceElement].dataSize == c.nFaces
    ensures r[EdgeElement].dataSize == c.nEdges && r[HalfedgeElement].dataSize == c.nCorners
    ensures r[CornerElement].dataSize == c.nCorners
  {
    var r := map[VertexElement := Permutation([], nVertices),
                 FaceElement := Permutation([], c.nFaces),
                 EdgeElement := Permutation([], c.nEdges),
                 HalfedgeElement := Permutation([], c.nCorners),
                 CornerElement := Permutation([], c.nCorners)];
    AllElements(r);
    r
  }

  function NoBuffers(): (r: map<GeomQuantity, GeomBuffer>)
    ensures forall q :: q in r && r[q] == Unallocated()
  {
    var u := Unallocated();
    var r := map[VertexPositions := u, FaceNormals := u, FaceCenters := u, FaceAreas := u, VertexNormals := u,
                 VertexAreas := u, EdgeLengths := u, FaceTangentSpaces := u, VertexTangentSpaces := u];
    AllQuantities(r);
    r
  }

  /** The constructor: counts derived from the faces, default orderings, the
      positions in memory, nothing derived computed and nothing allocated. */
  function NewSurfaceMesh(name: string, positions: seq<Elem>, faces: seq<Face>): (m: SurfaceMesh)
    ensures forall store :: WellFormed(m, store)
    ensures m.name == name && m.faces == faces && CountsOf(m.counts, faces)
    ensures m.buffers[VertexPositions] == GeomBuffer(positions, None)
    ensures forall q :: Derived(q) ==> State(m.buffers[q]) == Unmaterialized
    ensures forall e :: |m.perms[e].perm| == 0
    ensures ExpectedDataSize(m, VertexElement) == |positions|
    ensures m.faceForHalfedge == [] && m.twinHalfedge == []
  {
    var c := Counts(faces);
    SurfaceMesh(name, faces, c, NoBuffers()[VertexPositions := GeomBuffer(positions, None)],
                DefaultPermutations(c, |positions|), [], [])
  }

  // === Indexing conventions

  /** The expected length of data attached to elements of kind `e`. */
  function ExpectedDataSize(m: SurfaceMesh, e: MeshElement): nat
    requires e in m.perms
  {
    m.perms[e].dataSize
  }

  /** With the default ordering the expected data length is the raw element
      count; for vertices it is the number of positions in memory. */
  lemma EmptyPermutationIsDefault(m: SurfaceMesh, store: Store, e: MeshElement)
    requires WellFormed(m, store) && |m.perms[e].perm| == 0
    ensures e != VertexElement && ElementCount(m, e) > 0 ==> ExpectedDataSize(m, e) == ElementCount(m, e)
    ensures e == VertexElement && VertexPositionsStoredInMemory(m) ==> NVertices(m, store) == Ok(ExpectedDataSize(m, e))
  {
  }

  /** The size check data attached to elements of kind `e` must pass. */
  function ValidateDataSize(m: SurfaceMesh, e: MeshElement, n: nat): (r: Outcome<Error>)
    requires e in m.perms
    ensures r.Pass? <==> n == ExpectedDataSize(m, e)
    ensures r.Fail? ==> r.error == ShapeMismatch(ExpectedDataSize(m, e), n)
  {
    if n == m.perms[e].dataSize then Pass else Fail(ShapeMismatch(m.perms[e].dataSize, n))
  }

  /** One more than the largest entry (zero for an empty array): the least
      length that every entry indexes into. */
  function MaxPlusOne(perm: seq<nat>): (r: nat)
    ensures forall i :: 0 <= i < |perm| ==> perm[i] < r
    ensures |perm| > 0 ==> exists i :: 0 <= i < |perm| && perm[i] + 1 == r
    ensures |perm| == 0 ==> r == 0
    decreases |perm|
  {
    if |perm| == 0 then 0
    else
      var rest := MaxPlusOne(perm[1..]);
      assert forall i :: 1 <= i < |perm| ==> perm[i] == perm[1..][i - 1];
      if perm[0] + 1 >= rest then perm[0] + 1 else rest
  }

  /** `setEdgePermutation` / `setHalfedgePermutation` / `setCornerPermutation`:
      the array must have one entry per element; the data length becomes the
      caller's expected size, or, when that is 0, the least length every
      permuted index fits in. */
  function SetPermutation(m: SurfaceMesh, e: MeshElement, perm: seq<nat>, expectedSize: nat := 0): (r: Result<SurfaceMesh, Error>)
    requires Shape(m) && e in {EdgeElement, HalfedgeElement, CornerElement}
    ensures r.Err? <==> |perm| != ElementCount(m, e)
    ensures r.Err? ==> r.error == ShapeMismatch(ElementCount(m, e), |perm|)
    ensures r.Ok? ==> Shape(r.value) && r.value.perms[e].perm == perm
    ensures r.Ok? && expectedSize > 0 ==> ExpectedDataSize(r.value, e) == expectedSize
    ensures r.Ok? && expectedSize == 0 ==> forall i :: 0 <= i < |perm| ==> perm[i] < ExpectedDataSize(r.value, e)
    ensures r.Ok? && expectedSize == 0 && |perm| > 0 ==> exists i :: 0 <= i < |perm| && perm[i] + 1 == ExpectedDataSize(r.value, e)
    ensures r.Ok? ==> forall e' :: e' != e ==> r.value.perms[e'] == m.perms[e']
    ensures r.Ok? ==> r.value.buffers == m.buffers && r.value.counts == m.counts && r.value.faces == m.faces
    ensures r.Ok? ==> r.value == m.(perms := r.value.perms)
  {
    if |perm| != ElementCount(m, e) then Err(ShapeMismatch(ElementCount(m, e), |perm|))
    else
      var size := if expectedSize > 0 then expectedSize else MaxPlusOne(perm);
      SetPermutationKeepsShape(m, e, Permutation(perm, size));
      Ok(m.(perms := m.perms[e := Permutation(perm, size)]))
  }

  /** A permutation with one entry per element keeps the shape: it is
      non-empty exactly when there are elements to permute. */
  lemma SetPermutationKeepsShape(m: SurfaceMesh, e: MeshElement, p: Permutation)
    requires Shape(m) && e in {EdgeElement, HalfedgeElement, CornerElement}
    requires |p.perm| == ElementCount(m, e)
    ensures Shape(m.(perms := m.perms[e := p]))
  {
    var m' := m.(perms := m.perms[e := p]);
    assert forall e' :: e' != VertexElement ==> ElementCount(m', e') == ElementCount(m, e');
  }

  // === The geometry cache of each quantity

  /** `ensureHave<X>(updateRenderBuffer)` for a derived quantity: fills its CPU
      array from the freshly computed contents only if it is empty. Nothing
      but that quantity and its own render buffer changes. */
  function EnsureHaveQuantity(m: SurfaceMesh, store: Store, q: GeomQuantity, computed: seq<Elem>, updateRenderBuffer: bool): (r: (SurfaceMesh, Store))
    requires WellFormed(m, store) && Derived(q)
    ensures WellFormed(r.0, r.1)
    ensures |m.buffers[q].cpu| > 0 ==> r == (m, store)
    ensures |m.buffers[q].cpu| == 0 ==> r.0.buffers[q] == GeomBuffer(computed, m.buffers[q].gpu)
    ensures forall q' :: q' != q ==> r.0.buffers[q'] == m.buffers[q']
    ensures r.0 == m.(buffers := r.0.buffers)
    ensures r.1.buffers.Keys == store.buffers.Keys && r.1.textures == store.textures && r.1.next == store.next
    ensures forall id :: id in store.buffers && m.buffers[q].gpu != Some(id) ==> r.1.buffers[id] == store.buffers[id]
  {
    var (g, s) := EnsureHave(m.buffers[q], store, Format(q), computed, updateRenderBuffer);
    var m' := m.(buffers := m.buffers[q := g]);
    assert |m.buffers[q].cpu| > 0 ==> m'.buffers == m.buffers;
    ReplaceKeepsWellFormed(m, store, s, q, g);
    (m', s)
  }

  /** `get<X>RenderBuffer()`: returns the quantity's render buffer, allocating
      and filling it only when absent. Positions are never computed, so an
      empty position array stays empty. */
  function GetQuantityRenderBuffer(m: SurfaceMesh, store: Store, q: GeomQuantity, computed: seq<Elem>): (r: (SurfaceMesh, Store, BufferId))
    requires WellFormed(m, store) && AttributeBuffers.Valid(store)
    ensures WellFormed(r.0, r.1) && AttributeBuffers.Valid(r.1)
    ensures m.buffers[q].gpu.Some? ==> r == (m, store, m.buffers[q].gpu.value)
    ensures m.buffers[q].gpu.None? ==> r.2 !in store.buffers
    ensures r.0.buffers[q].gpu == Some(r.2)
    ensures forall q' :: q' != q ==> r.0.buffers[q'] == m.buffers[q']
    ensures r.0 == m.(buffers := r.0.buffers)
    ensures SameBuffers(store, r.1, store.buffers.Keys) && r.1.textures == store.textures
  {
    var g := m.buffers[q];
    var c := if q == VertexPositions then [] else computed;
    var (g', s', id) := GetRenderBuffer(g, store, Format(q), c);
    var m' := m.(buffers := m.buffers[q := g']);
    assert g.gpu.Some? ==> m'.buffers == m.buffers;
    ReplaceKeepsWellFormed(m, store, s', q, g');
    (m', s', id)
  }

  /** Repeated render-buffer requests return the same handle and change
      nothing: the buffer is populated only once. */
  lemma RenderBufferRequestedTwice(m: SurfaceMesh, store: Store, q: GeomQuantity, computed: seq<Elem>, computed2: seq<Elem>)
    requires WellFormed(m, store) && AttributeBuffers.Valid(store)
    ensures var (m1, s1, id1) := GetQuantityRenderBuffer(m, store, q, computed);
      GetQuantityRenderBuffer(m1, s1, q, computed2) == (m1, s1, id1)
  {
    var (m1, s1, id1) := GetQuantityRenderBuffer(m, store, q, computed);
    assert m1.(buffers := m1.buffers[q := m1.buffers[q]]) == m1;
  }

  // === Vertex positions

  function PositionsOf(m: SurfaceMesh): GeomBuffer
    requires VertexPositions in m.buffers
  {
    m.buffers[VertexPositions]
  }

  /** `vertexPositionsStoredInMemory`: the CPU position array is filled. */
  function VertexPositionsStoredInMemory(m: SurfaceMesh): (r: bool)
    requires VertexPositions in m.buffers
    ensures r <==> State(PositionsOf(m)) == CpuResident
  {
    StoredInMemory(PositionsOf(m))
  }

  /** `checkIfVertexPositionsAreInMemory`: fails when the positions live only
      on the GPU (or nowhere). */
  function CheckIfVertexPositionsAreInMemory(m: SurfaceMesh): (r: Outcome<Error>)
    requires VertexPositions in m.buffers
    ensures r.Pass? <==> VertexPositionsStoredInMemory(m)
    ensures r.Fail? ==> r.error == NotAllocated("vertexPositions")
  {
    if StoredInMemory(PositionsOf(m)) then Pass else Fail(NotAllocated("vertexPositions"))
  }

  /** `nVertices`: the position array's length, or the render buffer's when
      the positions were updated on the device. */
  function NVertices(m: SurfaceMesh, store: Store): (r: Result<nat, Error>)
    requires VertexPositions in m.buffers
    ensures VertexPositionsStoredInMemory(m) ==> r == Ok(|PositionsOf(m).cpu|)
    ensures State(PositionsOf(m)) == GpuResident && PositionsOf(m).gpu.value in store.buffers ==>
      r == Ok(|store.buffers[PositionsOf(m).gpu.value].data|)
  {
    Size(PositionsOf(m), store)
  }

  /** `getVertexPosition`: from memory when present, otherwise read back from
      the render buffer. */
  function GetVertexPosition(m: SurfaceMesh, store: Store, ind: nat): (r: Result<Elem, Error>)
    requires WellFormed(m, store)
    ensures VertexPositionsStoredInMemory(m) ==> (r.Ok? <==> ind < |PositionsOf(m).cpu|)
    ensures VertexPositionsStoredInMemory(m) && r.Ok? ==> r.value == PositionsOf(m).cpu[ind]
    ensures State(PositionsOf(m)) == GpuResident ==>
      var data := store.buffers[PositionsOf(m).gpu.value].data;
      (r.Ok? <==> ind < |data|) && (r.Ok? ==> r.value == data[ind])
    ensures State(PositionsOf(m)) == Unmaterialized ==> r == Err(InternalError)
  {
    assert Consistent(PositionsOf(m), store, Format(VertexPositions));
    ReadElement(PositionsOf(m), store, Format(VertexPositions), ind)
  }

  function GetVertexPositionsRenderBuffer(m: SurfaceMesh, store: Store): (r: (SurfaceMesh, Store, BufferId))
    requires WellFormed(m, store) && AttributeBuffers.Valid(store)
    ensures WellFormed(r.0, r.1) && AttributeBuffers.Valid(r.1)
    ensures PositionsOf(m).gpu.Some? ==> r == (m, store, PositionsOf(m).gpu.value)
    ensures PositionsOf(r.0) == GeomBuffer(PositionsOf(m).cpu, Some(r.2))
    ensures PositionsOf(m).gpu.None? ==> Synced(PositionsOf(r.0), r.1) && r.2 !in store.buffers
    ensures r.0 == m.(buffers := r.0.buffers)
    ensures forall q :: q != VertexPositions ==> r.0.buffers[q] == m.buffers[q]
    ensures SameBuffers(store, r.1, store.buffers.Keys) && r.1.textures == store.textures
  {
    GetQuantityRenderBuffer(m, store, VertexPositions, [])
  }

  /** `vertexPositionRenderBufferDataExternallyUpdated`: the positions were
      written through the render buffer, so the CPU array is emptied and the
      buffer kept. */
  function VertexPositionRenderBufferDataExternallyUpdated(m: SurfaceMesh): (r: SurfaceMesh)
    requires VertexPositions in m.buffers
    ensures VertexPositions in r.buffers && !VertexPositionsStoredInMemory(r)
    ensures PositionsOf(r).cpu == [] && PositionsOf(r).gpu == PositionsOf(m).gpu
    ensures forall q :: q in m.buffers && q != VertexPositions ==> q in r.buffers && r.buffers[q] == m.buffers[q]
    ensures r == m.(buffers := r.buffers)
  {
    m.(buffers := m.buffers[VertexPositions := ExternallyUpdated(PositionsOf(m))])
  }

  lemma ExternallyUpdatedKeepsWellFormed(m: SurfaceMesh, store: Store)
    requires WellFormed(m, store)
    ensures WellFormed(VertexPositionRenderBufferDataExternallyUpdated(m), store)
  {
    var r := VertexPositionRenderBufferDataExternallyUpdated(m);
    assert forall q :: q != VertexPositions ==> r.buffers[q] == m.buffers[q];
  }

  /** After the external-update notice the render buffer is still the one
      handed out before, and the CPU positions are gone. */
  lemma ExternallyUpdatedKeepsRenderBuffer(m: SurfaceMesh, store: Store)
    requires WellFormed(m, store) && AttributeBuffers.Valid(store)
    ensures var (m1, s1, id) := GetVertexPositionsRenderBuffer(m, store);
      var m2 := VertexPositionRenderBufferDataExternallyUpdated(m1);
      && WellFormed(m2, s1)
      && !VertexPositionsStoredInMemory(m2)
      && State(PositionsOf(m2)) == GpuResident
      && GetVertexPositionsRenderBuffer(m2, s1) == (m2, s1, id)
      && NVertices(m2, s1) == Ok(|s1.buffers[id].data|)
  {
    var (m1, s1, id) := GetVertexPositionsRenderBuffer(m, store);
    ExternallyUpdatedKeepsWellFormed(m1, s1);
  }

  /** `updateVertexPositions`: the new array must have the expected vertex
      data length; it replaces the positions in memory and is pushed to the
      render buffer if one exists. Derived quantities are left as they are:
      their arrays and buffers keep the old (stale) values. */
  function UpdateVertexPositions(m: SurfaceMesh, store: Store, newPositions: seq<Elem>): (r: Result<(SurfaceMesh, Store), Error>)
    requires WellFormed(m, store)
    ensures r.Err? <==> |newPositions| != ExpectedDataSize(m, VertexElement)
    ensures r.Err? ==> r.error == ShapeMismatch(ExpectedDataSize(m, VertexElement), |newPositions|)
    ensures r.Ok? ==> WellFormed(r.value.0, r.value.1)
    ensures r.Ok? ==> PositionsOf(r.value.0) == GeomBuffer(newPositions, PositionsOf(m).gpu)
    ensures r.Ok? ==> Synced(PositionsOf(r.value.0), r.value.1)
    ensures r.Ok? ==> r.value.0 == m.(buffers := r.value.0.buffers)
    ensures r.Ok? ==> forall q :: Derived(q) ==> r.value.0.buffers[q] == m.buffers[q]
    ensures r.Ok? ==> forall q :: Derived(q) && m.buffers[q].gpu.Some? ==>
      r.value.1.buffers[m.buffers[q].gpu.value] == store.buffers[m.buffers[q].gpu.value]
    ensures r.Ok? ==> r.value.1.buffers.Keys == store.buffers.Keys && r.value.1.textures == store.textures && r.value.1.next == store.next
    ensures r.Ok? ==> forall id :: id in store.buffers && PositionsOf(m).gpu != Some(id) ==> r.value.1.buffers[id] == store.buffers[id]
  {
    var expected := m.perms[VertexElement].dataSize;
    if |newPositions| != expected then Err(ShapeMismatch(expected, |newPositions|))
    else
      var g := GeomBuffer(newPositions, PositionsOf(m).gpu);
      var s := UpdateIfAllocated(g, store, Format(VertexPositions));
      var m' := m.(buffers := m.buffers[VertexPositions := g]);
      assert forall q :: q != VertexPositions ==> m'.buffers[q] == m.buffers[q];
      ReplaceKeepsWellFormed(m, store, s, VertexPositions, g);
      assert forall q :: Derived(q) && m.buffers[q].gpu.Some? ==> m.buffers[q].gpu != g.gpu;
      Ok((m', s))
  }

  /** Two successful updates in a row leave the second array, in memory and
      in the render buffer; the first is not visible anywhere in positions. */
  lemma UpdateTwiceKeepsLast(m: SurfaceMesh, store: Store, a: seq<Elem>, b: seq<Elem>)
    requires WellFormed(m, store)
    requires |a| == |b| == ExpectedDataSize(m, VertexElement)
    ensures UpdateVertexPositions(m, store, a).Ok?
    ensures var (m1, s1) := UpdateVertexPositions(m, store, a).value;
      && UpdateVertexPositions(m1, s1, b).Ok?
      && var (m2, s2) := UpdateVertexPositions(m1, s1, b).value;
      && PositionsOf(m2).cpu == b
      && (forall i :: 0 <= i < |b| ==> GetVertexPosition(m2, s2, i) == Ok(b[i]))
      && (PositionsOf(m2).gpu.Some? ==> s2.buffers[PositionsOf(m2).gpu.value].data == b)
  {
    var (m1, s1) := UpdateVertexPositions(m, store, a).value;
    assert ExpectedDataSize(m1, VertexElement) == ExpectedDataSize(m, VertexElement);
  }

  /** Derived quantities go stale when the positions change: they are only
      recomputed once emptied, and an `ensureHave` on a filled one keeps the
      old contents. */
  lemma UpdateLeavesDerivedStale(m: SurfaceMesh, store: Store, newPositions: seq<Elem>, q: GeomQuantity, computed: seq<Elem>)
    requires WellFormed(m, store) && Derived(q) && |m.buffers[q].cpu| > 0
    requires UpdateVertexPositions(m, store, newPositions).Ok?
    ensures var (m1, s1) := UpdateVertexPositions(m, store, newPositions).value;
      EnsureHaveQuantity(m1, s1, q, computed, true).0.buffers[q] == m.buffers[q]
  {
  }

  /** Emptying the CPU array of one quantity keeps the mesh well formed. */
  lemma InvalidateKeepsWellFormed(m: SurfaceMesh, store: Store, q: GeomQuantity)
    requires WellFormed(m, store) && Derived(q)
    ensures WellFormed(m.(buffers := m.buffers[q := Invalidate(m.buffers[q])]), store)
  {
    ReplaceKeepsWellFormed(m, store, store, q, Invalidate(m.buffers[q]));
  }

  /** Emptying a derived quantity after a position update makes the next
      `ensureHave` take the recomputed contents and push them to its buffer. */
  lemma InvalidateAfterUpdateRecomputes(m: SurfaceMesh, store: Store, newPositions: seq<Elem>, q: GeomQuantity, computed: seq<Elem>)
    requires WellFormed(m, store) && Derived(q)
    requires UpdateVertexPositions(m, store, newPositions).Ok?
    ensures var (m1, s1) := UpdateVertexPositions(m, store, newPositions).value;
      var m2 := m1.(buffers := m1.buffers[q := Invalidate(m1.buffers[q])]);
      && WellFormed(m2, s1)
      && EnsureHaveQuantity(m2, s1, q, computed, true).0.buffers[q].cpu == computed
      && Synced(EnsureHaveQuantity(m2, s1, q, computed, true).0.buffers[q], EnsureHaveQuantity(m2, s1, q, computed, true).1)
  {
    var (m1, s1) := UpdateVertexPositions(m, store, newPositions).value;
    InvalidateKeepsWellFormed(m1, s1, q);
    var m2 := m1.(buffers := m1.buffers[q := Invalidate(m1.buffers[q])]);
    var (m3, s3) := EnsureHaveQuantity(m2, s1, q, computed, true);
    assert m2.buffers[q].cpu == [];
    assert (m3.buffers[q], s3) == EnsureHave(m2.buffers[q], s1, Format(q), computed, true);
  }

  /** The position buffer is shared with the shader programs that draw the
      mesh: once bound to a program attribute of the matching type, a later
      position update is what that attribute draws from, with no re-binding. */
  lemma PositionsSharedWithProgram(m: SurfaceMesh, store: Store, p: ShaderPrograms.ShaderProgram, name: string, newPositions: seq<Elem>)
    requires WellFormed(m, store) && AttributeBuffers.Valid(store)
    requires ShaderPrograms.HasAttribute(p, name)
    requires p.attributes[NamedTables.Find(p.attributes, name, ShaderPrograms.AttributeName).value].dataType == Vector3Float
    requires |newPositions| == ExpectedDataSize(m, VertexElement)
    ensures var (m1, s1, id) := GetVertexPositionsRenderBuffer(m, store);
      && ShaderPrograms.SetExternalBuffer(p, s1, name, id).Ok?
      && UpdateVertexPositions(m1, s1, newPositions).Ok?
      && ShaderPrograms.AttributeData(ShaderPrograms.SetExternalBuffer(p, s1, name, id).value,
                                      UpdateVertexPositions(m1, s1, newPositions).value.1, name) == Some(newPositions)
  {
    var (m1, s1, id) := GetVertexPositionsRenderBuffer(m, store);
    assert Consistent(PositionsOf(m1), s1, Format(VertexPositions));
    assert ExpectedDataSize(m1, VertexElement) == ExpectedDataSize(m, VertexElement);
    var s2 := UpdateVertexPositions(m1, s1, newPositions).value.1;
    assert s2 == Write(s1, id, Vec3Data, newPositions).value;
    ShaderPrograms.SharedBufferSeesWrites(p, s1, name, id, Vec3Data, newPositions);
  }

  // === Derived connectivity

  /** `ensureHaveManifoldConnectivity`: builds `faceForHalfedge` and
      `twinHalfedge` unless they are already built. Afterwards there is one
      entry per halfedge, each a valid face or halfedge index, whatever the
      mesh's manifoldness. */
  function EnsureHaveManifoldConnectivity(m: SurfaceMesh): (r: SurfaceMesh)
    requires Shape(m)
    ensures Shape(r)
    ensures |m.faceForHalfedge| > 0 ==> r == m
    ensures |r.faceForHalfedge| == NHalfedges(r) && |r.twinHalfedge| == NHalfedges(r)
    ensures forall h :: 0 <= h < |r.faceForHalfedge| ==> r.faceForHalfedge[h] < NFaces(r)
    ensures forall h :: 0 <= h < |r.twinHalfedge| ==> r.twinHalfedge[h] < NHalfedges(r)
    ensures forall h :: 0 <= h < |r.faceForHalfedge| ==> r.faceForHalfedge[h] == Halfedges(r.faces)[h].face
    ensures r == m.(faceForHalfedge := r.faceForHalfedge, twinHalfedge := r.twinHalfedge)
  {
    HalfedgeCount(m.faces);
    if |m.faceForHalfedge| > 0 then m
    else m.(faceForHalfedge := FaceForHalfedge(m.faces), twinHalfedge := TwinHalfedge(m.faces))
  }

  // === The two-triangle mesh: 4 vertices, 2 faces sharing the edge (0, 2)

  function Square(): seq<Elem> {
    [[0.0, 0.0, 0.0], [1.0, 0.0, 0.0], [1.0, 1.0, 0.0], [0.0, 1.0, 0.0]]
  }

  /** Four vertices, two faces and five edges; vertex data of length 4 is
      accepted and of length 3 rejected with a shape mismatch. */
  lemma TwoTriangleScenario()
    ensures var m := NewSurfaceMesh("mesh", Square(), [[0, 1, 2], [0, 2, 3]]);
      && NVertices(m, EmptyStore()) == Ok(4)
      && NFaces(m) == 2
      && NEdges(m) == 5
      && ValidateDataSize(m, VertexElement, 4) == Pass
      && ValidateDataSize(m, VertexElement, 3) == Fail(ShapeMismatch(4, 3))
      && UpdateVertexPositions(m, EmptyStore(), Square()[..3]) == Err(ShapeMismatch(4, 3))
  {
    TwoTriangleCounts();
  }
}
